=== FILE: README.md ===
# hono-api core, modelled in Dafny

This project models the request-handling core of the SPAIA hono-api service, a Hono
application on Cloudflare Workers that serves field observations, submissions, sensor
events and projects out of Postgres. The database is replaced by immutable in-memory
tables. Every operation is a pure function, and its result says what the handler or
service answers and how the tables change.

The model covers:

- **Pagination** (`pagination.dfy`). It models the `(page - 1) * limit` offset, the
  `LIMIT`/`OFFSET` window, and the `formatResponse` block that three route files copy:
  `totalPages = ceil(totalCount / limit)`, `hasNextPage`, `hasPrevPage`. A zero limit
  gives the non-finite page count that JSON writes as `null`.
- **Event listing** (`events.dfy`, `event_routes.dfy`). The `fetchEvents` condition list
  and its AND-fold give the single predicate that both the page query and the count
  query use. `deviceId` wins over `deviceName`. The `hasMedia` filter is modelled in
  both directions. The sort allow-list is computed and then ignored, and the page is
  always ordered by `time DESC`. The routes validate the query with the event query
  schema extended by `hasMedia` (400 when it is refused), inject `deviceName`, map
  `hasMedia` from text, and answer 404 for a missing event.
- **Field observations and submissions** (`sightings.dfy`, `field_observations.dfy`,
  `submissions.dfy`, `store.dfy`):
  - the transactional create of an observation with its sightings;
  - the single-insert create of a submission, which drops the payload's sightings;
  - the lookup with sightings;
  - the paged listing by user, with its count over the same predicate;
  - the non-transactional cascade delete;
  - the sighting insert.
- **Projects** (`projects.dfy`). Projects are listed and read with their linked devices
  (a LEFT JOIN), and can be created, updated and deleted. The listing and the device
  aggregates come in no promised order, so their contracts speak of counts, not
  positions.
- **The bearer-token middleware** (`auth.dfy`). It is a pure decision from the header,
  the secret and an uninterpreted token verifier. The model includes the
  first-occurrence `replace` and the ECMAScript `trim`.
- **Request validators** (`schema.dfy` and the four `*_schemas.dfy` files):
  - a small zod: strings with refinements, bounded numbers, enums, objects, `optional`,
    `nullable`, `default`;
  - the derivations `omit`, `partial`, `extend` and `merge`;
  - every schema of the repository's validator files, written as a value of it.
- **Route handlers** (`http.dfy`, `field_observation_routes.dfy`,
  `submission_routes.dfy`). The status comes from the middleware outcome, then the
  validator, then the `sub` claim, the connection string and the service result, in the
  order Hono runs them.

Database failures are an explicit `fault` parameter. A multi-statement operation takes
a `Fault(step, message)`, naming the statement that fails. A single statement takes
the message. Clock values and generated ids are parameters (`now`, `freshId`).

The routes build the client as `postgres(connectionString)` with no options. With
postgres.js 3.3 or later, a statement parameter that is `undefined` then throws
"Undefined values are not allowed". So an optional request field that is left out and
bound as it comes fails the statement. The model keeps "left out" apart from `null`
and returns that error (`Store.UndefinedValue`).

## Model

| member | source | states |
|---|---|---|
| Pagination.Offset | src/services/events.ts:15 | the offset is non-negative for page ≥ 1 and limit ≥ 0, and offset plus limit is page × limit |
| Pagination.Window | src/services/events.ts:133-134 | LIMIT/OFFSET succeeds iff both are non-negative; it returns min(limit, rows left) rows, each the row at offset + i |
| Pagination.TotalPages | src/routes/events.ts:28 | ceil(totalCount / limit): the least n with n × limit ≥ totalCount for a positive limit; non-finite (null) iff limit is 0 |
| Pagination.CeilDiv | src/routes/events.ts:28 | `Math.ceil(n / d)` for d ≥ 1: the least q with q × d ≥ n |
| Pagination.FormatPagination | src/routes/events.ts:23-40 | currentPage and totalCount are echoed; hasPrevPage iff page > 1; for limit ≥ 1, hasNextPage iff page × limit < totalCount; for limit 0 the page count is null |
| Pagination.FormatResponse | src/routes/events.ts:23-40 | the response carries the items unchanged beside the formatted pagination block |
| Pagination.HasNextIffRowsRemain | src/routes/events.ts:33-37 | with n = ceil(totalCount / limit), page < n iff page × limit < totalCount |
| Pagination.HasNextIffNextPageNonEmpty | src/routes/fieldObservations.ts:36-53 | hasNextPage is true exactly when the window of the following page holds a row |
| Pagination.RowOnItsPage | src/services/fieldObservations.ts:112 | row k of a listing is at position k mod limit on page k / limit + 1 |
| Pagination.PageBounded | src/services/submissions.ts:79 | a page holds at most limit rows, and exactly limit while rows remain |
| Store.ListByOwner | src/services/fieldObservations.ts:103-133 | the page holds only the user's rows, newest first, and exactly as many as remain from (page-1)*limit on, capped at limit (none past the end); totalCount counts every row of the user; fails iff the offset or limit is negative or the read fails |
| Store.OwnedRowOnPage | src/services/fieldObservations.ts:112-120 | the k-th of the user's rows in created_at DESC order is row k mod limit of page k/limit + 1; with the page length this pins every page to the slice at (page-1)*limit |
| Store.EveryOwnedRowListed | src/services/fieldObservations.ts:114-123 | when no two of the user's rows share a created_at, paging through the listing reaches every row the user owns, whatever order the database gives ties |
| Seqs.SortedUnique | src/services/fieldObservations.ts:118 | when keys identify rows, two descending orders of the same rows are equal |
| Seqs.SortDescIsTheOrder | src/services/submissions.ts:85 | when keys identify rows, any descending permutation is the model's sorted listing |
| Seqs.SortDesc | src/services/events.ts:132 | `ORDER BY … DESC` with NULLs first: a permutation of the rows, of the same length, in descending key order |
| Seqs.MapCount | src/services/projects.ts:10-24 | a projection in no given order is known by its counts: each value occurs once per row projected to it |
| Store.WindowOfSorted | src/services/submissions.ts:81-90 | a window of a descending listing stays descending and holds only rows of the listing |
| Sightings.Lookup | src/services/fieldObservations.ts:82-101 | null iff no parent has the id; otherwise the parent with that id and exactly the sightings that reference it |
| Sightings.Insert | src/services/submissions.ts:127-147 | the INSERT appends exactly one row, which references its parent, carries the input and the creation time, and is new; a table with unique rows keeps them unique |
| Sightings.CascadeDelete | src/services/fieldObservations.ts:135-152 | sightings go first, then the parent, with no transaction; true iff a parent row existed; a failure at the second statement leaves the sightings deleted |
| Sightings.AddSighting | src/services/fieldObservations.ts:154-185 | succeeds iff the parent exists and the read does not fail; appends one row that references the path id and carries the input |
| Sightings.DeleteLeavesNoSightings | src/services/fieldObservations.ts:138 | once the first delete statement ran, the id has no sightings even when no parent exists |
| Sightings.LookupAfterDelete | src/services/fieldObservations.ts:141-147 | after a completed delete the lookup of the id is null |
| Sightings.LookupOthersAfterDelete | src/services/submissions.ts:105-114 | deleting one parent leaves every other parent's lookup and sightings as they were |
| Sightings.CascadeDeleteConsistent | src/services/submissions.ts:102-119 | deleting sightings before the parent keeps every sighting's reference valid, even when the second statement fails |
| Sightings.AddSightingConsistent | src/services/submissions.ts:121-152 | a sighting insert keeps every reference valid and extends only its parent's sightings |
| Sightings.InsertOfParent | src/services/submissions.ts:127-147 | an insert appends its row to the sightings of its parent and of no other |
| Sightings.DeleteKeepsOtherParents | src/services/fieldObservations.ts:138-140 | deleting one parent's sightings leaves every other parent's sightings in place |
| FieldObservations.NewObservation | src/services/fieldObservations.ts:18-43 | the stored row has the authenticated user, the generated id, and consent true only when the request says true |
| FieldObservations.InsertAll | src/services/fieldObservations.ts:46-69 | one sighting per requested input, in order, each referencing the new observation; fails iff a fault falls on one of these statements |
| FieldObservations.Create | src/services/fieldObservations.ts:10-80 | fails with the undefined-value error iff temperature is left out, else iff a statement fails; all or nothing: any failure leaves both tables unchanged; on success exactly one observation and one sighting per requested input are added |
| FieldObservations.Get | src/services/fieldObservations.ts:82-101 | null iff no observation has the id; otherwise the sightings are exactly the rows referencing it |
| FieldObservations.ListByUser | src/services/fieldObservations.ts:103-133 | only the user's rows, newest first, as many as remain from (page-1)*limit on, capped at limit; totalCount is the number of the user's rows |
| FieldObservations.ListingPosition | src/services/fieldObservations.ts:112-120 | the user's k-th observation, newest first, is row k mod limit of page k/limit + 1 |
| FieldObservations.Delete | src/services/fieldObservations.ts:135-152 | true iff the observation existed; afterwards neither it nor its sightings remain |
| FieldObservations.CreateSighting | src/services/fieldObservations.ts:154-185 | the stored sighting references the path id and carries the input; other rows are unchanged |
| FieldObservations.CreateSightingsOfParent | src/services/fieldObservations.ts:46-69 | the inserted sightings become exactly the new observation's sightings; other observations' sightings are unchanged |
| FieldObservations.CreateConsistent | src/services/fieldObservations.ts:16-73 | creation keeps every sighting's reference valid |
| FieldObservations.GetAfterCreate | src/services/fieldObservations.ts:85-95 | a created observation reads back with exactly the sightings created with it |
| FieldObservations.CreateIgnoresClientIds | src/services/fieldObservations.ts:18-43 | the id and user_id a client sends make no difference to what is stored |
| Submissions.NewSubmission | src/services/submissions.ts:16-40 | the stored row has the authenticated user, the generated id, and consent true only when the request says true |
| Submissions.Create | src/services/submissions.ts:10-47 | fails with the undefined-value error when time or temperature is left out, otherwise iff the insert fails; one insert that never touches the sightings table; a failure leaves the table unchanged |
| Submissions.Get | src/services/submissions.ts:49-68 | null iff no submission has the id; otherwise exactly the sightings referencing it |
| Submissions.ListByUser | src/services/submissions.ts:70-100 | only the user's rows, newest first, as many as remain from (page-1)*limit on, capped at limit; totalCount counts the same predicate |
| Submissions.ListingPosition | src/services/submissions.ts:79-87 | the user's k-th submission, newest first, is row k mod limit of page k/limit + 1 |
| Submissions.Delete | src/services/submissions.ts:102-119 | true iff the submission existed; afterwards neither it nor its sightings remain |
| Submissions.CreateSighting | src/services/submissions.ts:121-152 | the stored sighting's submission_id is the path id |
| Submissions.CreateStoresNoSightings | src/services/submissions.ts:16-42 | whatever sightings the payload carries, the new submission reads back with none |
| Submissions.CreateIgnoresSightings | src/services/submissions.ts:10-47 | the payload's sightings do not change the outcome of creation |
| Submissions.CreateConsistent | src/services/submissions.ts:16-40 | creation keeps every sighting's reference valid |
| Projects.View | src/services/projects.ts:10-29 | a project with its longitude and latitude (present iff it has a location) and its linked devices |
| Projects.LinkedDevices | src/services/projects.ts:9-28 | one entry per link of the project, each device listed as often as links resolve to it, in no promised order |
| Projects.GetProjects | src/services/projects.ts:4-33 | one entry per project and every project listed, each with exactly its linked devices counted per link; no order promised |
| Projects.GetProjectById | src/services/projects.ts:35-65 | undefined iff no project has the id; otherwise that project with its devices counted per link |
| Projects.CreateProject | src/services/projects.ts:67-74 | fails with the undefined-value error iff a field is left out, else iff the insert fails; stores exactly title, descriptions and location (null stays null) under the next serial id, with no update time |
| Projects.UpdateProject | src/services/projects.ts:76-89 | fails with the undefined-value error iff a field is left out, else iff the statement fails; undefined iff no row has the id; every row with the id gets the four fields and a refreshed updated_at; nothing else changes |
| Projects.DeleteProject | src/services/projects.ts:91-98 | removes only the rows with the id and returns the row, or undefined if there is none |
| Projects.DevicesAreLinked | src/services/projects.ts:10-29 | a device is listed for a project iff a ProjectDevices link names it |
| Projects.NoLinksNoDevices | src/services/projects.ts:24-25 | a project without links lists an empty array, never null |
| Projects.OperationsKeepValid | src/services/projects.ts:67-98 | create, update and delete keep ids and links below the serial counter |
| Projects.GetAfterCreate | src/services/projects.ts:67-74 | a project that was created reads back as stored, with no devices |
| Projects.DeleteThenMissing | src/services/projects.ts:91-98 | after a delete, the read of that id finds nothing, and so does an update of it that leaves no field out |
| Events.BuildConditions | src/services/events.ts:21-45 | at most one device condition, a truthy deviceId wins, and otherwise a truthy deviceName gives its condition; hasMedia true gives the media condition alone, false the no-media and positive-reading conditions, absent none; empty iff no filter is set |
| Events.FoldAnd | src/services/events.ts:47-53 | the fold keeps the conditions in insertion order |
| Events.EvalIffConjuncts | src/services/events.ts:47-53 | an AND-fold holds iff every condition it joins holds |
| Events.WhereIffAll | src/services/events.ts:18-19 | the WHERE clause admits an event iff every condition holds; no condition admits every event |
| Events.WhereClause | src/services/events.ts:47-53 | no WHERE iff there are no conditions; otherwise the conditions ANDed in the order they were pushed |
| Events.ClauseMatches | src/services/events.ts:21-45 | the built WHERE clause admits exactly the events of the reference filter |
| Events.SelectionMatches | src/services/events.ts:128-142 | the rows the page and the count read are exactly the events of the reference filter |
| Events.SortColumn | src/services/events.ts:56-65 | the allow-list maps a listed column to itself and anything else to time |
| Events.ValidatedSortByAllowed | src/schemas/validation.ts:12 | every sortBy the validator admits is on the service's allow-list |
| Events.ViewOf | src/services/events.ts:81-127 | regions and media hold exactly the event's rows; the sensor readings are counted per reading, in no promised order; media is empty iff the event has none |
| Events.SensorData | src/services/events.ts:97-112 | one entry per reading of the event, each entry (id, sensorId, value, type name) as often as a reading is shown as it, in no promised order |
| Events.SensorTypeName | src/services/events.ts:108-109 | the two left joins: null without a sensor id or a sensor row; a name only from a sensor row and its type row; with unique ids, exactly that type's name |
| Events.FetchEvents | src/services/events.ts:13-160 | succeeds iff the offset and limit are non-negative; at most limit rows, each matching and ordered by time descending; totalCount counts the same predicate |
| Events.FetchIgnoresSort | src/services/events.ts:56-66 | sortBy and order do not change the listing |
| Events.NoFilterCountsAll | src/services/events.ts:18-19 | with no filter, totalCount is the number of events |
| Events.DeviceIdWins | src/services/events.ts:21-25 | with a truthy deviceId, deviceName does not change the listing |
| Events.MediaFilter | src/services/events.ts:28-43 | hasMedia true selects exactly the events with media; false selects those with none and a positive reading |
| Events.EverySelectedEventListed | src/services/events.ts:128-134 | when no two selected events share a time, paging reaches every selected event |
| Events.PositionOnPage | src/services/events.ts:128-134 | the k-th event of the `time DESC` order is shown on page k / limit + 1, at position k mod limit |
| Events.FetchEventById | src/services/events.ts:162-238 | null iff no event has the id; otherwise that event with its aggregates |
| EventRoutes.ParseHasMedia | src/routes/events.ts:143 | no filter when the value is absent or empty, true only for "true", and false for any other text |
| EventRoutes.HasMediaValues | src/routes/events.ts:19-21 | "true" and "false" map to the two filters, and absent to none |
| EventRoutes.Params | src/routes/events.ts:141-144 | the query passes through unchanged, with the path deviceName and no deviceId |
| EventRoutes.ListingResponse | src/routes/events.ts:145-160 | 200 with the formatted page iff the listing succeeds, otherwise 500 |
| EventRoutes.ExtendedIsMerge | src/routes/events.ts:19-21 | the extended query accepts exactly what the event query and the hasMedia enum each accept |
| EventRoutes.QueryAccepts | src/routes/events.ts:19-21 | a query is accepted iff page is absent or ≥ 1, limit absent or in [1, 100], sortBy, order and hasMedia absent or among their options, and the dates absent or datetimes |
| EventRoutes.OutputReadsAsInput | src/schemas/validation.ts:5-14 | the validated query reads as its input: defaults fill only what is absent |
| EventRoutes.AcceptedQueryInRange | src/schemas/validation.ts:5-26 | an accepted query has page ≥ 1, limit in [1, 100], sortBy and order on their lists, hasMedia "true" or "false" if given |
| EventRoutes.ValidatedQuery | src/routes/events.ts:137 | a typed query iff the validator accepts, reading as the input and in range |
| EventRoutes.ReadQuery | src/schemas/validation.ts:5-23 | absent page, limit, sortBy and order take 1, 20, "time" and "desc"; absent optional fields stay absent; present values are read as given, numbers as their floor |
| EventRoutes.ListEvents | src/routes/events.ts:83-161 | 400 iff the query validator refuses the query; otherwise 200 or 500, and every listed event matches the query's filters |
| EventRoutes.DeviceEvents | src/routes/events.ts:163-220 | 400 iff the query validator refuses the query; for a non-empty name, every listed event belongs to a device of that name |
| EventRoutes.UserEvents | src/routes/events.ts:222-280 | 400 iff the query validator refuses the query, otherwise 200 or 500 |
| EventRoutes.UserEventsIgnoreUser | src/routes/events.ts:253-280 | the user listing answers the same for every user, and the same as the plain listing |
| EventRoutes.ListingIgnoresDatesAndSort | src/routes/events.ts:136-161 | two accepted queries that agree on page, limit and hasMedia get the same answer: the date range, sortBy and order change nothing |
| EventRoutes.ListingPagination | src/routes/events.ts:23-40 | an accepted query with a working read answers 200, with a defined page count, and there is a next page iff events remain after this one |
| EventRoutes.GetEvent | src/routes/events.ts:109-134 | 404 "Event not found" iff no event has the id; 500 iff the read fails |
| Auth.TrimEmptyIffBlank | src/middleware/supabaseAuth.ts:10 | a string trims to empty iff it is all white space |
| Auth.TrimStart | src/middleware/supabaseAuth.ts:10 | removes exactly the leading white space: a suffix of the input whose first character is not white space |
| Auth.TrimEnd | src/middleware/supabaseAuth.ts:10 | removes exactly the trailing white space: a prefix of the input whose last character is not white space |
| Auth.Trim | src/middleware/supabaseAuth.ts:10 | `trim()`: a piece of the input with only white space cut on either side, and no white space at its ends |
| Auth.IndexOf | src/middleware/supabaseAuth.ts:10 | the first position at which the pattern occurs, or none iff it occurs nowhere |
| Auth.ExtractToken | src/middleware/supabaseAuth.ts:10 | the token is no longer than the header and has no white space at its ends; without a "Bearer " in the header it is the trimmed header; with one, it is shorter by at least the prefix |
| Auth.TrimIdempotent | src/middleware/supabaseAuth.ts:10 | trimming twice gives the same as once |
| Auth.RemoveFirst | src/middleware/supabaseAuth.ts:10 | a string pattern removes its first occurrence only, wherever it is |
| Auth.BearerHeaderToken | src/middleware/supabaseAuth.ts:10-13 | "Bearer " followed by t yields t trimmed |
| Auth.LowerCaseSchemeKept | src/middleware/supabaseAuth.ts:10 | the prefix match is case-sensitive: "bearer abc" is kept whole |
| Auth.PrefixRemovedMidHeader | src/middleware/supabaseAuth.ts:10 | the prefix is removed where it first occurs, not only at the start |
| Auth.Issuer | src/middleware/supabaseAuth.ts:26 | the issuer URL built from the project reference, with "undefined" when it is unset |
| Auth.Authenticate | src/middleware/supabaseAuth.ts:5-38 | 401 for a missing header or an empty token; 500 iff the header and token pass and the secret is missing; continues iff verification succeeds, with its claims |
| Auth.VerificationFailuresIndistinguishable | src/middleware/supabaseAuth.ts:33-36 | every verification failure gives the same 401 "Invalid or expired token" |
| Auth.BlankCredentialRejected | src/middleware/supabaseAuth.ts:10-13 | a header of blanks only is refused with "Token not found" before the secret is read |
| Http.GuardTwice | src/routes/fieldObservations.ts:403 | running the middleware a second time gives the first outcome |
| Http.Guard | src/routes/fieldObservations.ts:98 | one middleware run: a missing header is a 401 "Missing Authorization header"; a refusal is 401 or 500; a pass needs a header and a configured secret |
| Http.DecimalRoundTrip | src/routes/fieldObservations.ts:229-230 | reading a number written in decimal gives the number back |
| Http.QueryNumberAsWritten | src/routes/fieldObservations.ts:229-230 | the query value is accepted iff it is absent, and then it is the default |
| Http.ExplicitPageRejected | src/routes/submissions.ts:225-228 | a request for page "2" is refused, and an absent page gives 1 |
| Http.QueryNumber | src/routes/fieldObservations.ts:229-230 | absent gives the default; present is accepted iff it is a non-empty string of digits |
| Http.QueryNumberReadsDecimal | src/routes/submissions.ts:225-228 | every page number a client writes in decimal is accepted with its value |
| FieldObservationRoutes.CreateRoute | src/routes/fieldObservations.ts:98-138 | middleware rejection, then 400 for an invalid body (a time that `z.coerce.date()` refuses included), then 401 without a sub, then 500 without a connection, and 500 with the undefined-value error without a temperature; 201 iff the service creates; no other answer changes the tables |
| FieldObservationRoutes.GetRoute | src/routes/fieldObservations.ts:179-216 | public; 400 for a non-uuid id; 404 "Field observation not found" iff no observation has the id |
| FieldObservationRoutes.ListRoute | src/routes/fieldObservations.ts:253-284 | with page and limit read as numbers: 400 iff a query value is not a number; a 200 page holds only the user's rows, and its pagination counts all of them |
| FieldObservationRoutes.ListRouteAsWritten | src/routes/fieldObservations.ts:229-230 | as written, 400 iff page or limit is present; with neither, the same answer as the corrected route |
| FieldObservationRoutes.ExplicitPageListing | src/routes/fieldObservations.ts:229-230 | page "2" is refused as written and not refused by the corrected route |
| FieldObservationRoutes.DeleteRoute | src/routes/fieldObservations.ts:320-353 | 204 with no body iff the observation existed; 404 iff it did not; both remove its sightings |
| FieldObservationRoutes.AddSightingRoute | src/routes/fieldObservations.ts:403-433 | 201 iff authenticated, valid, connected and the observation exists; the new sighting references it |
| FieldObservationRoutes.CreateThenGet | src/routes/fieldObservations.ts:126-134 | after a 201 create, get answers the created observation with exactly the sightings created with it |
| FieldObservationRoutes.DeleteThenGet | src/routes/fieldObservations.ts:334-340 | once delete answered 204 or 404, get answers 404 |
| FieldObservationRoutes.RejectedCallerChangesNothing | src/routes/fieldObservations.ts:98 | a caller the middleware refuses changes no table on any mutating route |
| SubmissionRoutes.CreateRoute | src/routes/submissions.ts:97-137 | the same status order as for observations, with 500 and the undefined-value error when time or temperature is left out; a 201 response always carries an empty sightings list, and the sightings table is never touched |
| SubmissionRoutes.GetRoute | src/routes/submissions.ts:177-214 | public; 404 "Submission not found" iff no submission has the id |
| SubmissionRoutes.InlineMatchesFormat | src/routes/submissions.ts:268-277 | the inline pagination block equals the shared formatResponse block on every input |
| SubmissionRoutes.InlinePagination | src/routes/submissions.ts:268-277 | page and count echoed, hasPrevPage iff page > 1, a null page count iff limit is 0, and otherwise the least n with n × limit ≥ count |
| SubmissionRoutes.ListRoute | src/routes/submissions.ts:250-290 | with page and limit read as numbers: a 200 page holds only the user's rows; for limit ≥ 1, hasNextPage iff rows remain |
| SubmissionRoutes.ListRouteAsWritten | src/routes/submissions.ts:225-228 | as written, 400 iff page or limit is present; with neither, the same answer as the corrected route |
| SubmissionRoutes.ExplicitPageListing | src/routes/submissions.ts:225-228 | page "2" is refused as written and not refused by the corrected route |
| SubmissionRoutes.DeleteRoute | src/routes/submissions.ts:325-358 | 204 iff the submission existed, 404 iff not; both remove its sightings |
| SubmissionRoutes.AddSightingRoute | src/routes/submissions.ts:407-437 | 201 iff authenticated, valid, connected and the submission exists |
| SubmissionRoutes.CreateThenGet | src/routes/submissions.ts:118-124 | a later get answers the created submission with the same empty sightings list |
| SubmissionRoutes.DeleteThenGet | src/routes/submissions.ts:338-345 | once delete answered 204 or 404, get answers 404 |
| SubmissionRoutes.RejectedCallerChangesNothing | src/routes/submissions.ts:97 | a caller the middleware refuses changes no table |
| Schema.OmitValidIff | src/schemas/submissions.ts:60-63 | the omitted schema accepts exactly when every kept field accepts |
| Schema.OmitIgnoresKeys | src/schemas/submissions.ts:55-58 | an omitted key is neither checked nor passed on |
| Schema.UndeclaredKeysIgnored | src/schemas/fieldObservations.ts:64-71 | keys a schema does not declare change neither the verdict nor the output |
| Schema.OverrideAllFields | src/schemas/fieldObservations.ts:60-62 | extend gives the union of keys; an unnamed original keeps its place; every field comes from the extension or the original |
| Schema.PartialValidIff | src/schemas/fieldObservations.ts:73 | a partial object is accepted iff every present key holds a value the original field accepts |
| Schema.PartialWeakens | src/schemas/submissions.ts:69 | whatever the original accepts, the partial schema accepts |
| Schema.PartialAcceptsEmpty | src/schemas/projects.ts:12 | the partial schema accepts the empty object and adds no defaults |
| Schema.MergeDisjointIff | src/schemas/validation.ts:17 | merging objects with disjoint keys accepts exactly what both accept |
| Schema.OptionalKeyMayBeDropped | src/schemas/fieldObservations.ts:67 | a key whose fields are all optional may be left out of an accepted input |
| Schema.FieldOutput | src/schemas/fieldObservations.ts:21 | the output holds a field's parsed value, present iff it parses to a defined value |
| Schema.Validate | src/schemas/fieldObservations.ts:3-21 | `safeParse`: a required string, number, boolean, enum, date, array or object refuses undefined; scalars pass their value on unchanged; an enum admits only its options; arrays and objects admit only arrays and objects |
| Schema.Partial | src/schemas/fieldObservations.ts:73 | `.partial()`: the same keys in the same order, each wrapped in optional |
| Schema.OmitFields | src/schemas/submissions.ts:55-58 | `.omit`: keeps exactly the fields whose names are not listed |
| Schema.ExtendFields | src/schemas/fieldObservations.ts:60-62 | `.extend` and `.merge`: the union of the keys; an original key not redeclared keeps its field; every field comes from one of the two |
| Schema.CoercesToDate | src/schemas/fieldObservations.ts:12 | `new Date(v)` is valid: never for undefined, arrays or objects; always for null and booleans; a number only within ±8.64e15; a string only if it opens with a four-digit year |
| Schema.YearFirst | src/schemas/fieldObservations.ts:12 | every date text the parser reads opens with a four-digit year |
| Schema.Utf16Length | src/schemas/projects.ts:5-6 | the JavaScript length of a string lies between its character count and twice it |
| Schema.DateCoercesValues | src/schemas/fieldObservations.ts:12 | z.coerce.date() accepts null, true and a time value in range, and refuses undefined, a value out of range and an array |
| Schema.DateAcceptsIsoDate | src/schemas/fieldObservations.ts:12 | an ISO date such as 2024-03-15 is accepted |
| Schema.DateAcceptsIsoDateTime | src/schemas/fieldObservations.ts:12 | an ISO date-time in UTC with milliseconds is accepted |
| Schema.DateAcceptsOffset | src/schemas/fieldObservations.ts:12 | an ISO date-time with a +HH:mm offset is accepted |
| Schema.DateRejectsText | src/schemas/fieldObservations.ts:12 | the text "abc" is refused |
| Schema.DateRejectsOutOfRange | src/schemas/fieldObservations.ts:12 | month 13 and hour 25 are refused |
| Schema.Utf16LengthOfBmp | src/schemas/projects.ts:5-6 | within the Basic Multilingual Plane the length zod measures is the character count |
| Schema.Utf16LengthOfAstral | src/schemas/projects.ts:5-6 | each character beyond the Basic Multilingual Plane counts two units |
| ValidationSchemas.PaginationAccepts | src/schemas/validation.ts:5-8 | page is absent or at least 1, defaulting to 1; limit is absent or in [1, 100], defaulting to 20 |
| ValidationSchemas.SortAccepts | src/schemas/validation.ts:11-14 | sortBy is in {time, type, deviceId} with default time; order is asc or desc with default desc |
| ValidationSchemas.DateRangeAccepts | src/schemas/validation.ts:20-23 | both dates are optional; a present one is a datetime string |
| ValidationSchemas.QueryIsMerge | src/schemas/validation.ts:17 | the query schema accepts exactly what pagination and sort each accept |
| ValidationSchemas.EventQueryIsMerge | src/schemas/validation.ts:26 | the event query accepts exactly what pagination, sort and date range each accept |
| ProjectSchemas.ProjectAccepts | src/schemas/projects.ts:3-9 | accepted iff id is a positive integer, title has at most 255 UTF-16 code units and the descriptions are well typed, the short one also at most 255 units; location is unchecked |
| ProjectSchemas.TitleLimitInCodeUnits | src/schemas/projects.ts:5 | a title of 255 characters of the Basic Multilingual Plane passes, and one of 128 characters beyond it (256 units) does not |
| ProjectSchemas.CreateProjectAccepts | src/schemas/projects.ts:11 | creation checks everything but the id |
| ProjectSchemas.CreateProjectIgnoresId | src/schemas/projects.ts:11 | a client id is neither checked nor kept |
| ProjectSchemas.UpdateProjectAccepts | src/schemas/projects.ts:12 | an update may omit every field; a present title or description is checked as on creation |
| ProjectSchemas.EmptyUpdateAccepted | src/schemas/projects.ts:12 | the empty update is accepted and stays empty |
| FieldObservationSchemas.LocationAccepts | src/schemas/fieldObservations.ts:13-16 | a location is accepted iff latitude is in [-90, 90] and longitude in [-180, 180] |
| FieldObservationSchemas.ObservationChecks | src/schemas/fieldObservations.ts:8-23 | an accepted observation has a known type, a wind and season that are known or null, a bounded location and an integer temperature if any |
| FieldObservationSchemas.ConsentDefaultsToFalse | src/schemas/fieldObservations.ts:21 | a missing consent becomes false, and a present one is kept |
| FieldObservationSchemas.SightingCount | src/schemas/fieldObservations.ts:30 | an accepted sighting has a non-negative integer count |
| FieldObservationSchemas.CreateObservationIgnoresCreatedAt | src/schemas/fieldObservations.ts:64-66 | the create schema ignores and drops created_at |
| FieldObservationSchemas.CreateObservationIdOptional | src/schemas/fieldObservations.ts:67 | a create request may leave the id out |
| FieldObservationSchemas.CreateObservationChecks | src/schemas/fieldObservations.ts:64-71 | creation still checks the type and the coordinate bounds |
| FieldObservationSchemas.NestedSightingIgnoresIds | src/schemas/fieldObservations.ts:68-70 | a nested sighting ignores id, created_at and fieldObservationId |
| FieldObservationSchemas.NestedSightingCount | src/schemas/fieldObservations.ts:68-70 | nested sightings still check their count |
| FieldObservationSchemas.CreateSightingRefOptional | src/schemas/fieldObservations.ts:57-62 | a standalone sighting request may leave out the observation id |
| FieldObservationSchemas.EmptyUpdateAccepted | src/schemas/fieldObservations.ts:73 | the empty update is accepted, and consent is not defaulted |
| FieldObservationSchemas.UpdateChecksPresentLocation | src/schemas/fieldObservations.ts:73 | a location an update carries is still bounds-checked |
| SubmissionSchemas.SubmissionChecks | src/schemas/submissions.ts:8-21 | an accepted submission has a date of shape dddd-dd-dd, a time of shape dd:dd[:dd] if any, and a known type |
| SubmissionSchemas.ConsentDefaultsToFalse | src/schemas/submissions.ts:19 | a missing consent becomes false, and a present one is kept |
| SubmissionSchemas.DateShapeOnly | src/schemas/submissions.ts:12 | the date pattern checks digit shape only: 2024-13-45 passes, 2024-1-05 does not |
| SubmissionSchemas.TimeShapeExamples | src/schemas/submissions.ts:13 | seconds are optional, and hours need two digits |
| SubmissionSchemas.SightingCount | src/schemas/submissions.ts:28 | an accepted sighting has a non-negative integer count |
| SubmissionSchemas.CreateSubmissionIgnoresIds | src/schemas/submissions.ts:60-63 | the create schema ignores and drops id and created_at |
| SubmissionSchemas.NestedSightingIgnoresIds | src/schemas/submissions.ts:64-66 | a nested sighting ignores id, created_at and submission_id |
| SubmissionSchemas.CreateSubmissionChecks | src/schemas/submissions.ts:60-67 | creation still checks the date, time and type |
| SubmissionSchemas.NestedSightingCount | src/schemas/submissions.ts:64-66 | nested sightings still check their count |
| SubmissionSchemas.EmptyUpdateAccepted | src/schemas/submissions.ts:69 | the empty update is accepted, and consent is not defaulted |
| SubmissionSchemas.UpdateChecksPresentDate | src/schemas/submissions.ts:69 | a date an update carries is still checked |

## Left out

- Postgres I/O: the connection (`postgres(...)`, `sql.end()`), the Hyperdrive binding
  beyond whether its connection string is set, and the concurrent `Promise.all` of the
  page and count queries. Both queries are reads of the same table snapshot.
- SQL text, `json_agg`/`COALESCE` and PostGIS. A location is an opaque point.
  Aggregation is building a list. The `ST_X`/`ST_Y` split appears as the project view's
  longitude and latitude.
- `jose.jwtVerify`: signature, issuer, audience and expiry checking are one
  uninterpreted verifier. `console.log`/`console.error` output is not modelled.
- JSON-body decoding: a route takes the body both as a `Json` value, for the validator,
  and as the typed input the service reads. Their agreement is not modelled. Neither is
  the validator's content-type handling.
- Column defaults of the database, such as generated ids and timestamps. They are the
  `freshId` and `now` parameters.
- The audit columns of devices, and the verified/created/updated columns of events,
  which no modelled operation reads.
- The conversion `Number(eventId)` in the event route: `EventRoutes.GetEvent` takes the
  number.
- EventRoutes.ReadQuery: the query object holds `page` and `limit` already coerced to
  numbers; the coercion of their text is not modelled. A fractional page or limit, which
  the schema admits, is read as its floor, where the source hands the fraction on to
  the SQL.
- FieldObservationRoutes.CreateRoute: the date text a string must be in is the
  Date Time String Format of section 21.4.1.32 of ECMA-262 with a four-digit year. The
  engine's fallback parser, which reads further formats, is not modelled; neither are
  six-digit years or a day past the end of its month. A one-element array whose element
  reads as a date is refused, where `new Date` would read it.
- Projects.GetProjects: the model lists projects and devices in table and link order,
  but the contracts promise no order, since the query has no `ORDER BY`.
- Sightings.AddSighting: the reference column of a sighting is taken to be a foreign
  key to its parent, as the parent "has many" sightings and the delete removes
  sightings first. No database schema is part of this model, so a missing parent
  answering the read as absent is what the insert rests on.
- Store.UndefinedValue: the error on an absent field rests on postgres.js 3.3 or later
  with no `transform.undefined` option; the package version is not part of this model.
- ValidationSchemas.DateRangeAccepts: the validators follow zod 3.22. Its `.datetime()`
  checks the digit shape only, so `2024-02-30T00:00:00Z` and `…T24:00:00Z` are accepted,
  where zod 3.23 and later also range-check the month, day, hour, minute and second.
  `.uuid()` is zod 3's lenient pattern, and `.partial()` applies no defaults, as in
  zod 3. No package manifest is part of this model, so the version is an assumption.
- Events.ViewOf: the model lists regions, readings and media in table order. The
  subqueries have no `ORDER BY`, so the contract promises no order: the readings are
  stated by counts, and regions and media by membership only, not how often a row
  appears.
- Http.QueryNumber: only decimal digit strings are read. `Number()` would also take
  signs, fractions, exponents, hex and surrounding blanks.
- EventRoutes.UserEvents: only its status is stated. Its agreement with the plain
  listing is in `EventRoutes.UserEventsIgnoreUser`.
- Projects.DeleteProject: links of the deleted project are left in place. The foreign
  keys of the ProjectDevices table are not part of this model.
- src/routes/projects.ts, src/routes/devices.ts, src/services/devices.ts,
  src/routes/images.ts, src/routes/my.ts, src/index.ts: thin wiring, passthroughs or
  health checks. The project routes call the service without its `sql` argument, so
  they cannot be reconciled with src/services/projects.ts.
- Ownership on delete: the delete routes remove any observation or submission,
  whoever owns it, because the code checks no owner. The model follows the code.
- Expired and invalid tokens share one message in the code, so they share one outcome.
- The offset and the count both use JavaScript numbers. The model's integers do not
  overflow.

## Findings

| source | as written | input that shows it | evidently intended | confidence | as-written member | corrected member |
|---|---|---|---|---|---|---|
| src/routes/fieldObservations.ts:229-230 | the list-by-user query declares `page` and `limit` as `z.number().default(..)`, but query values arrive as strings, so any value present fails validation with 400 | `GET /field-observations/user/u?page=2` | coerce the text to a number, as `z.coerce.number()` does in src/schemas/validation.ts:6-7 | not executed | Http.QueryNumberAsWritten, Http.ExplicitPageRejected, FieldObservationRoutes.ListRouteAsWritten, FieldObservationRoutes.ExplicitPageListing | Http.QueryNumber, Http.QueryNumberReadsDecimal, FieldObservationRoutes.ListRoute |
| src/routes/submissions.ts:225-228 | the same declaration on the submissions list-by-user query | `GET /submissions/user/u?limit=5` | the same coercion | not executed | Http.QueryNumberAsWritten, Http.ExplicitPageRejected, SubmissionRoutes.ListRouteAsWritten, SubmissionRoutes.ExplicitPageListing | Http.QueryNumber, Http.QueryNumberReadsDecimal, SubmissionRoutes.ListRoute |

The list routes as written are `ListRouteAsWritten`; `ListRoute` uses the corrected
reading, `Http.QueryNumber`.

=== FILE: auth.dfy ===
/** The bearer-token middleware guarding the mutating routes: a pure
    decision from the `Authorization` header, the configured secret and a
    token verifier to "reject with a status" or "continue with these claims". */
module Auth {
  import opened Wrappers

  /** The decoded JWT payload the middleware stores as `user` */
  datatype Claims = Claims(sub: Option<string>, email: Option<string>)

  /** Signature, issuer, audience and expiry verification of
      `(token, secret, issuer, audience)`; `None` is any verification error.
      The cryptography is a foreign library and stays uninterpreted. */
  type Verifier = (string, string, string, string) -> Option<Claims>

  /** Characters removed by `String.prototype.trim`: ECMAScript white space
      and line terminators. */
  predicate IsWhitespace(c: char) {
    || c == '\U{9}' || c == '\U{A}' || c == '\U{B}' || c == '\U{C}' || c == '\U{D}'
    || c == ' ' || c == '\U{A0}' || c == '\U{1680}' || ('\U{2000}' <= c <= '\U{200A}')
    || c == '\U{2028}' || c == '\U{2029}' || c == '\U{202F}' || c == '\U{205F}'
    || c == '\U{3000}' || c == '\U{FEFF}'
  }

  function TrimStart(s: string): (r: string)
    ensures |r| <= |s| && r == s[|s| - |r|..]
    ensures forall i :: 0 <= i < |s| - |r| ==> IsWhitespace(s[i])
    ensures |r| > 0 ==> !IsWhitespace(r[0])
  {
    if |s| > 0 && IsWhitespace(s[0]) then TrimStart(s[1..]) else s
  }

  function TrimEnd(s: string): (r: string)
    ensures |r| <= |s| && r == s[..|r|]
    ensures forall i :: |r| <= i < |s| ==> IsWhitespace(s[i])
    ensures |r| > 0 ==> !IsWhitespace(r[|r| - 1])
  {
    if |s| > 0 && IsWhitespace(s[|s| - 1]) then TrimEnd(s[..|s| - 1]) else s
  }

  /** `s.trim()`: the piece of `s` left when the white space at both ends
      is cut off */
  function Trim(s: string): (r: string)
    ensures |r| > 0 ==> !IsWhitespace(r[0]) && !IsWhitespace(r[|r| - 1])
    ensures |r| <= |TrimStart(s)| <= |s|
    ensures var i := |s| - |TrimStart(s)|;
            && r == s[i..i + |r|]
            && (forall k :: 0 <= k < i ==> IsWhitespace(s[k]))
            && (forall k :: i + |r| <= k < |s| ==> IsWhitespace(s[k]))
  {
    var t := TrimStart(s);
    var r := TrimEnd(t);
    PieceOfSuffix(s, t, r);
    r
  }

  /** A prefix `r` of a suffix `t` of `s` is a piece of `s`, and what
      follows `r` in `t` follows it in `s`. */
  lemma PieceOfSuffix(s: string, t: string, r: string)
    requires |t| <= |s| && t == s[|s| - |t|..]
    requires |r| <= |t| && r == t[..|r|]
    requires forall k :: |r| <= k < |t| ==> IsWhitespace(t[k])
    ensures var i := |s| - |t|;
            && i + |r| <= |s| && r == s[i..i + |r|]
            && forall k :: i + |r| <= k < |s| ==> IsWhitespace(s[k])
  {
    var i := |s| - |t|;
    forall k | i + |r| <= k < |s| ensures IsWhitespace(s[k]) {
      assert s[k] == t[k - i];
    }
  }

  /** A string trims to nothing exactly when it is all white space. */
  lemma TrimEmptyIffBlank(s: string)
    ensures Trim(s) == "" <==> forall i :: 0 <= i < |s| ==> IsWhitespace(s[i])
  {
  }

  /** Trimming twice changes nothing. */
  lemma TrimIdempotent(s: string)
    ensures Trim(Trim(s)) == Trim(s)
  {
    var t := Trim(s);
    if |t| > 0 {
      assert TrimStart(t) == t;
      assert TrimEnd(t) == t;
    }
  }

  predicate OccursAt(s: string, pat: string, j: int) {
    0 <= j && j + |pat| <= |s| && forall k :: 0 <= k < |pat| ==> s[j + k] == pat[k]
  }

  function IndexFrom(s: string, pat: string, i: nat): (r: Option<nat>)
    requires i <= |s|
    ensures r.Some? ==> i <= r.value && OccursAt(s, pat, r.value)
    ensures r.Some? ==> forall j :: i <= j < r.value ==> !OccursAt(s, pat, j)
    ensures r.None? ==> forall j :: i <= j ==> !OccursAt(s, pat, j)
    decreases |s| - i
  {
    if OccursAt(s, pat, i) then Some(i)
    else if i + |pat| >= |s| then None
    else IndexFrom(s, pat, i + 1)
  }

  /** `s.indexOf(pat)`: the first position where `pat` occurs */
  function IndexOf(s: string, pat: string): (r: Option<nat>)
    ensures r.Some? ==> OccursAt(s, pat, r.value)
                        && forall j :: 0 <= j < r.value ==> !OccursAt(s, pat, j)
    ensures r.None? ==> forall j :: !OccursAt(s, pat, j)
  {
    IndexFrom(s, pat, 0)
  }

  /** `s.replace(pat, "")` with a string pattern: removes the first
      occurrence only, wherever it is. */
  function RemoveFirst(s: string, pat: string): (r: string)
    ensures IndexOf(s, pat).None? ==> r == s
    ensures IndexOf(s, pat).Some? ==>
              var i := IndexOf(s, pat).value;
              r == s[..i] + s[i + |pat|..] && |r| == |s| - |pat|
  {
    match IndexOf(s, pat)
    case None => s
    case Some(i) => s[..i] + s[i + |pat|..]
  }

  const BearerPrefix := "Bearer "

  /** `authHeader.replace('Bearer ', '').trim()`: the header without the
      first "Bearer ", trimmed. A header without the prefix is only trimmed. */
  function ExtractToken(header: string): (t: string)
    ensures |t| <= |header|
    ensures |t| > 0 ==> !IsWhitespace(t[0]) && !IsWhitespace(t[|t| - 1])
    ensures IndexOf(header, BearerPrefix).None? ==> t == Trim(header)
    ensures IndexOf(header, BearerPrefix).Some? ==> |t| <= |header| - |BearerPrefix|
  {
    Trim(RemoveFirst(header, BearerPrefix))
  }

  /** A well-formed header yields the trimmed credential after the prefix. */
  lemma BearerHeaderToken(t: string)
    ensures ExtractToken(BearerPrefix + t) == Trim(t)
  {
    var h := BearerPrefix + t;
    assert OccursAt(h, BearerPrefix, 0);
    assert h[..0] + h[7..] == t;
  }

  lemma OccurrenceStartsWithFirstChar(s: string, pat: string, j: int)
    requires |pat| > 0 && OccursAt(s, pat, j)
    ensures s[j] == pat[0]
  {
    assert s[j + 0] == pat[0];
  }

  /** A pattern whose first character never appears does not occur. */
  lemma AbsentFirstChar(s: string, pat: string)
    requires |pat| > 0
    requires forall k :: 0 <= k < |s| ==> s[k] != pat[0]
    ensures IndexOf(s, pat).None?
  {
    if IndexOf(s, pat).Some? {
      OccurrenceStartsWithFirstChar(s, pat, IndexOf(s, pat).value);
      assert false;
    }
  }

  /** The prefix is matched case-sensitively: a lower-case scheme is kept
      as part of the token. */
  lemma LowerCaseSchemeKept()
    ensures ExtractToken("bearer abc") == "bearer abc"
  {
    var h := "bearer abc";
    AbsentFirstChar(h, BearerPrefix);
    assert !IsWhitespace(h[0]);
    assert TrimStart(h) == h;
    assert !IsWhitespace(h[9]);
    assert TrimEnd(h) == h;
  }

  /** The prefix is removed wherever it first occurs, not only at the start. */
  lemma PrefixRemovedMidHeader()
    ensures ExtractToken("xBearer abc") == "xabc"
  {
    var g := "xBearer abc";
    assert g[0] != BearerPrefix[0];
    assert !OccursAt(g, BearerPrefix, 0);
    assert OccursAt(g, BearerPrefix, 1);
    assert IndexOf(g, BearerPrefix) == Some(1);
    assert g[..1] + g[8..] == "xabc";
    var x := "xabc";
    assert !IsWhitespace(x[0]);
    assert TrimStart(x) == x;
    assert !IsWhitespace(x[3]);
    assert TrimEnd(x) == x;
  }

  /** `https://${SUPABASE_PROJECT_REF}.supabase.co/auth/v1`; an unset
      reference is interpolated as the text `undefined`. */
  function Issuer(projectRef: Option<string>): (r: string)
    ensures projectRef.Some? ==> r == "https://" + projectRef.value + ".supabase.co/auth/v1"
    ensures projectRef.None? ==> r == "https://undefined.supabase.co/auth/v1"
  {
    "https://" + projectRef.GetOr("undefined") + ".supabase.co/auth/v1"
  }

  const Audience := "authenticated"

  /** `Rejected` is the plain-text response the middleware returns;
      `Authenticated` means `user` was set and `next()` runs. */
  datatype AuthOutcome = Rejected(status: int, message: string) | Authenticated(user: Claims)

  /** JavaScript truthiness of an optional string */
  predicate Truthy(s: Option<string>) {
    s.Some? && s.value != ""
  }

  /** `supabaseAuthMiddleware` */
  function Authenticate(header: Option<string>, secret: Option<string>,
                        projectRef: Option<string>, verify: Verifier): (r: AuthOutcome)
    ensures !Truthy(header) ==> r == Rejected(401, "Missing Authorization header")
    ensures Truthy(header) && ExtractToken(header.value) == "" ==> r == Rejected(401, "Token not found")
    ensures r.Rejected? ==> r.status == 401 || r.status == 500
    ensures r.Rejected? && r.status == 500 <==>
              Truthy(header) && ExtractToken(header.value) != "" && !Truthy(secret)
    ensures r.Authenticated? <==>
              Truthy(header) && ExtractToken(header.value) != "" && Truthy(secret)
              && verify(ExtractToken(header.value), secret.value, Issuer(projectRef), Audience).Some?
    ensures r.Authenticated? ==>
              r.user == verify(ExtractToken(header.value), secret.value, Issuer(projectRef), Audience).value
  {
    if !Truthy(header) then Rejected(401, "Missing Authorization header")
    else
      var token := ExtractToken(header.value);
      if token == "" then Rejected(401, "Token not found")
      else if !Truthy(secret) then Rejected(500, "Server configuration error")
      else
        match verify(token, secret.value, Issuer(projectRef), Audience)
        case None => Rejected(401, "Invalid or expired token")
        case Some(payload) => Authenticated(payload)
  }

  /** Every verification failure, whatever its cause, gives the same
      response: an expired token is not told apart from an invalid one. */
  lemma VerificationFailuresIndistinguishable(header: Option<string>, secret: Option<string>,
                                              projectRef: Option<string>, v1: Verifier, v2: Verifier)
    requires Truthy(header) && Truthy(secret) && ExtractToken(header.value) != ""
    requires v1(ExtractToken(header.value), secret.value, Issuer(projectRef), Audience).None?
    requires v2(ExtractToken(header.value), secret.value, Issuer(projectRef), Audience).None?
    ensures Authenticate(header, secret, projectRef, v1) == Authenticate(header, secret, projectRef, v2)
                == Rejected(401, "Invalid or expired token")
  {
  }

  /** A header of blanks only, or of the bare prefix, is refused before the
      secret is consulted. */
  lemma BlankCredentialRejected(header: string, secret: Option<string>,
                                projectRef: Option<string>, verify: Verifier)
    requires header != ""
    requires forall i :: 0 <= i < |header| ==> IsWhitespace(header[i])
    ensures Authenticate(Some(header), secret, projectRef, verify) == Rejected(401, "Token not found")
  {
    AbsentFirstChar(header, BearerPrefix);
    TrimEmptyIffBlank(header);
  }
}

=== FILE: event_routes.dfy ===
/** The event route handlers: the event by id, the paged listing, the
    listing by device name and the listing by user. None of them is behind
    the bearer-token middleware or checks the connection string. */
module EventRoutes {
  import opened Wrappers
  import opened Seqs
  import opened Pagination
  import opened Store
  import opened Events
  import opened Http
  import opened Schema
  import ValidationSchemas

  /** The validated query: `page`, `limit`, `sortBy`, `order`, the date
      range, and `hasMedia` as the text "true" or "false" when given */
  datatype EventQuery = EventQuery(
    page: int,
    limit: int,
    sortBy: string,
    order: string,
    startDate: Option<string>,
    endDate: Option<string>,
    hasMedia: Option<string>)

  const HasMediaOptions: seq<string> := ["true", "false"]

  const HasMediaSchema := Obj([Field("hasMedia", Optional(Enum(HasMediaOptions)))])

  /** `EventQuerySchema.extend({ hasMedia })`, the query validator of the
      three listing routes */
  const ExtendedEventQuerySchema := Extend(ValidationSchemas.EventQuerySchema, HasMediaSchema.fields)

  /** The query, its numbers already coerced, passes the validator */
  predicate QueryValid(query: map<string, Json>) {
    Validate(ExtendedEventQuerySchema, Some(JObj(query))).Valid?
  }

  lemma HasMediaNames()
    ensures Names(HasMediaSchema.fields) == {"hasMedia"}
    ensures DistinctNames(HasMediaSchema.fields)
  {
    var f := HasMediaSchema.fields[0];
    assert HasMediaSchema.fields == [f];
  }

  lemma HasMediaIsNew()
    ensures Names(ValidationSchemas.EventQuerySchema.fields) !! Names(HasMediaSchema.fields)
  {
    ValidationSchemas.EventQueryNames();
    HasMediaNames();
  }

  /** The extended query accepts exactly what the event query and the
      `hasMedia` field each accept. */
  lemma ExtendedIsMerge(m: map<string, Json>)
    ensures QueryValid(m) <==>
              Validate(ValidationSchemas.EventQuerySchema, Some(JObj(m))).Valid?
              && Validate(HasMediaSchema, Some(JObj(m))).Valid?
  {
    HasMediaIsNew();
    HasMediaNames();
    MergeDisjointIff(ValidationSchemas.EventQuerySchema, HasMediaSchema, m);
  }

  /** A value the query holds under `key`, if any, is one of `options` */
  predicate OptionOrAbsent(m: map<string, Json>, key: string, options: seq<string>) {
    key !in m || (m[key].JStr? && m[key].s in options)
  }

  /** A date bound the query holds, if any, is a UTC datetime string */
  predicate DatetimeOrAbsent(m: map<string, Json>, key: string) {
    key !in m || (m[key].JStr? && IsDatetimeShaped(m[key].s))
  }

  /** The listing routes answer 400 unless `page` is a number of at least 1,
      `limit` a number in [1, 100], `sortBy`, `order` and `hasMedia` among
      their options and the date bounds datetimes, each where present. */
  lemma QueryAccepts(m: map<string, Json>)
    ensures QueryValid(m) <==>
              && ("page" !in m || (m["page"].JNum? && m["page"].n >= 1.0))
              && ("limit" !in m || (m["limit"].JNum? && 1.0 <= m["limit"].n <= 100.0))
              && OptionOrAbsent(m, "sortBy", ValidationSchemas.SortByOptions)
              && OptionOrAbsent(m, "order", ValidationSchemas.OrderOptions)
              && DatetimeOrAbsent(m, "startDate") && DatetimeOrAbsent(m, "endDate")
              && OptionOrAbsent(m, "hasMedia", HasMediaOptions)
  {
    ExtendedIsMerge(m);
    EventQueryAccepts(m);
    HasMediaAccepts(m);
  }

  lemma HasMediaAccepts(m: map<string, Json>)
    ensures Validate(HasMediaSchema, Some(JObj(m))).Valid? <==> OptionOrAbsent(m, "hasMedia", HasMediaOptions)
  {
    ObjectValidIff(HasMediaSchema, m);
  }

  lemma EventQueryAccepts(m: map<string, Json>)
    ensures Validate(ValidationSchemas.EventQuerySchema, Some(JObj(m))).Valid? <==>
              && ("page" !in m || (m["page"].JNum? && m["page"].n >= 1.0))
              && ("limit" !in m || (m["limit"].JNum? && 1.0 <= m["limit"].n <= 100.0))
              && OptionOrAbsent(m, "sortBy", ValidationSchemas.SortByOptions)
              && OptionOrAbsent(m, "order", ValidationSchemas.OrderOptions)
              && DatetimeOrAbsent(m, "startDate") && DatetimeOrAbsent(m, "endDate")
  {
    ValidationSchemas.EventQueryIsMerge(m);
    ValidationSchemas.PaginationAccepts(m);
    ValidationSchemas.SortAccepts(m);
    ValidationSchemas.DateRangeAccepts(m);
  }

  /** The seven declared fields in order */
  lemma ExtendedFields()
    ensures ExtendedEventQuerySchema.fields ==
              ValidationSchemas.PaginationSchema.fields + ValidationSchemas.SortSchema.fields
              + ValidationSchemas.DateRangeSchema.fields + HasMediaSchema.fields
  {
    var m: map<string, Json> := map[];
    ValidationSchemas.PaginationNames();
    ValidationSchemas.SortNames();
    MergeDisjointIff(ValidationSchemas.PaginationSchema, ValidationSchemas.SortSchema, m);
    ValidationSchemas.QueryNames();
    ValidationSchemas.DateRangeNames();
    MergeDisjointIff(ValidationSchemas.QuerySchema, ValidationSchemas.DateRangeSchema, m);
    HasMediaIsNew();
    HasMediaNames();
    MergeDisjointIff(ValidationSchemas.EventQuerySchema, HasMediaSchema, m);
  }

  lemma ExtendedNames()
    ensures var fs := ExtendedEventQuerySchema.fields;
            && |fs| == 7
            && fs[0].name == "page" && fs[1].name == "limit" && fs[2].name == "sortBy" && fs[3].name == "order"
            && fs[4].name == "startDate" && fs[5].name == "endDate" && fs[6].name == "hasMedia"
  {
    ExtendedFields();
  }

  /** No two of the declared fields share a name */
  lemma ExtendedDistinct()
    ensures DistinctNames(ExtendedEventQuerySchema.fields)
  {
    var pagination := ValidationSchemas.PaginationSchema.fields;
    assert DistinctNames(pagination);
    OverrideAllDistinct(pagination, ValidationSchemas.SortSchema.fields);
    OverrideAllDistinct(ValidationSchemas.QuerySchema.fields, ValidationSchemas.DateRangeSchema.fields);
    OverrideAllDistinct(ValidationSchemas.EventQuerySchema.fields, HasMediaSchema.fields);
  }

  lemma ExtendedUnique(k: nat)
    requires k < 7
    ensures |ExtendedEventQuerySchema.fields| == 7 && UniqueAt(ExtendedEventQuerySchema.fields, k)
  {
    ExtendedNames();
    ExtendedDistinct();
    var fs := ExtendedEventQuerySchema.fields;
    forall j | 0 <= j < |fs| && j != k ensures fs[j].name != fs[k].name {
      if j < k {
        assert fs[j].name != fs[k].name;
      } else {
        assert fs[k].name != fs[j].name;
      }
    }
  }

  /** What the validator passes on for the field at position `k` */
  lemma OutputOf(m: map<string, Json>, k: nat, f: Field)
    requires k < 7
    ensures k < |ExtendedEventQuerySchema.fields| && ExtendedEventQuerySchema.fields[k] == f && QueryValid(m) ==>
              var p := Validate(f.schema, Lookup(m, f.name));
              var out := Validate(ExtendedEventQuerySchema, Some(JObj(m))).out.value.members;
              p.Valid? && (f.name in out <==> p.out.Some?) && (p.out.Some? ==> out[f.name] == p.out.value)
  {
    ExtendedUnique(k);
    if ExtendedEventQuerySchema.fields[k] == f && QueryValid(m) {
      FieldOutput(ExtendedEventQuerySchema, m, k);
    }
  }

  /** The number under `key`, or `default` */
  function NumberAt(m: map<string, Json>, key: string, default: int): int {
    if key in m && m[key].JNum? then m[key].n.Floor else default
  }

  /** The text under `key`, or `default` */
  function TextAt(m: map<string, Json>, key: string, default: string): string {
    if key in m && m[key].JStr? then m[key].s else default
  }

  function OptionalTextAt(m: map<string, Json>, key: string): Option<string> {
    if key in m && m[key].JStr? then Some(m[key].s) else None
  }

  /** The typed query read from a query object, with the schema's defaults
      for absent values. A fractional page or limit is read as its floor. */
  function ReadQuery(m: map<string, Json>): (q: EventQuery)
    ensures "page" !in m ==> q.page == 1
    ensures "limit" !in m ==> q.limit == 20
    ensures "sortBy" !in m ==> q.sortBy == "time"
    ensures "order" !in m ==> q.order == "desc"
    ensures "startDate" !in m ==> q.startDate.None?
    ensures "endDate" !in m ==> q.endDate.None?
    ensures "hasMedia" !in m ==> q.hasMedia.None?
    ensures "page" in m && m["page"].JNum? ==> q.page as real <= m["page"].n < q.page as real + 1.0
    ensures "limit" in m && m["limit"].JNum? ==> q.limit as real <= m["limit"].n < q.limit as real + 1.0
    ensures "sortBy" in m && m["sortBy"].JStr? ==> q.sortBy == m["sortBy"].s
    ensures "order" in m && m["order"].JStr? ==> q.order == m["order"].s
    ensures "hasMedia" in m && m["hasMedia"].JStr? ==> q.hasMedia == Some(m["hasMedia"].s)
  {
    EventQuery(NumberAt(m, "page", 1), NumberAt(m, "limit", 20),
               TextAt(m, "sortBy", "time"), TextAt(m, "order", "desc"),
               OptionalTextAt(m, "startDate"), OptionalTextAt(m, "endDate"),
               OptionalTextAt(m, "hasMedia"))
  }

  /** A field with a default passes on the input's value, or the default */
  lemma DefaultOutput(f: Field, m: map<string, Json>)
    requires f.schema.Default? && (f.schema.inner.Num? || f.schema.inner.Enum?)
    ensures var p := Validate(f.schema, Lookup(m, f.name));
            p.Valid? ==> p.out == Some(if f.name in m then m[f.name] else f.schema.fallback)
  {
  }

  /** An optional field passes on the input's value, if any */
  lemma OptionalOutputOf(f: Field, m: map<string, Json>)
    requires f.schema.Optional? && (f.schema.inner.Str? || f.schema.inner.Enum?)
    ensures var p := Validate(f.schema, Lookup(m, f.name));
            p.Valid? ==> p.out == Lookup(m, f.name)
  {
  }

  /** The output holds the input's value under `name`, or `fallback` where
      the input has none (and nothing when there is no fallback) */
  predicate PassedOn(m: map<string, Json>, out: map<string, Json>, name: string, fallback: Option<Json>) {
    if name in m then name in out && out[name] == m[name]
    else if fallback.Some? then name in out && out[name] == fallback.value
    else name !in out
  }

  lemma FieldPassedOn(m: map<string, Json>, k: nat, f: Field, fallback: Option<Json>)
    requires k < 7
    requires (f.schema.Default? && (f.schema.inner.Num? || f.schema.inner.Enum?) && fallback == Some(f.schema.fallback))
             || (f.schema.Optional? && (f.schema.inner.Str? || f.schema.inner.Enum?) && fallback.None?)
    ensures k < |ExtendedEventQuerySchema.fields| && ExtendedEventQuerySchema.fields[k] == f && QueryValid(m) ==>
              PassedOn(m, Validate(ExtendedEventQuerySchema, Some(JObj(m))).out.value.members, f.name, fallback)
  {
    OutputOf(m, k, f);
    if f.schema.Default? {
      DefaultOutput(f, m);
    } else {
      OptionalOutputOf(f, m);
    }
  }

  /** Every field passes on the input's value or its default. */
  lemma QueryPassedOn(m: map<string, Json>)
    ensures QueryValid(m) ==>
              var out := Validate(ExtendedEventQuerySchema, Some(JObj(m))).out.value.members;
              && PassedOn(m, out, "page", Some(JNum(1.0))) && PassedOn(m, out, "limit", Some(JNum(20.0)))
              && PassedOn(m, out, "sortBy", Some(JStr("time"))) && PassedOn(m, out, "order", Some(JStr("desc")))
              && PassedOn(m, out, "startDate", None) && PassedOn(m, out, "endDate", None)
              && PassedOn(m, out, "hasMedia", None)
  {
    ExtendedFields();
    var fs := ExtendedEventQuerySchema.fields;
    var pagination := ValidationSchemas.PaginationSchema.fields;
    var sort := ValidationSchemas.SortSchema.fields;
    var dates := ValidationSchemas.DateRangeSchema.fields;
    assert fs[0] == pagination[0] && fs[1] == pagination[1];
    assert fs[2] == sort[0] && fs[3] == sort[1];
    assert fs[4] == dates[0] && fs[5] == dates[1] && fs[6] == HasMediaSchema.fields[0];
    FieldPassedOn(m, 0, pagination[0], Some(JNum(1.0)));
    FieldPassedOn(m, 1, pagination[1], Some(JNum(20.0)));
    FieldPassedOn(m, 2, sort[0], Some(JStr("time")));
    FieldPassedOn(m, 3, sort[1], Some(JStr("desc")));
    FieldPassedOn(m, 4, dates[0], None);
    FieldPassedOn(m, 5, dates[1], None);
    FieldPassedOn(m, 6, HasMediaSchema.fields[0], None);
  }

  /** The validator's output reads as its input: defaults fill only what is
      absent, and nothing present is changed. */
  lemma OutputReadsAsInput(m: map<string, Json>)
    ensures QueryValid(m) ==> ReadQuery(Validate(ExtendedEventQuerySchema, Some(JObj(m))).out.value.members) == ReadQuery(m)
  {
    QueryPassedOn(m);
  }

  /** `hasMedia ? hasMedia === "true" : undefined` */
  function ParseHasMedia(raw: Option<string>): (r: Option<bool>)
    ensures r.None? <==> raw.None? || raw == Some("")
    ensures r == Some(true) <==> raw == Some("true")
    ensures raw.Some? && raw.value != "" && raw.value != "true" ==> r == Some(false)
  {
    match raw
    case None => None
    case Some(s) => if s == "" then None else Some(s == "true")
  }

  /** The two values the query schema admits map to the two filters, and
      an absent value to no filter. */
  lemma HasMediaValues()
    ensures ParseHasMedia(Some("true")) == Some(true)
    ensures ParseHasMedia(Some("false")) == Some(false)
    ensures ParseHasMedia(None) == None
  {
  }

  /** `processedParams`: the query spread, an optional path `deviceName`,
      and the parsed `hasMedia`. A `userId` is spread in too but is not a
      parameter `fetchEvents` reads, so it has no place here. */
  function Params(q: EventQuery, deviceName: Option<string>): (p: FetchParams)
    ensures p.page == q.page && p.limit == q.limit && p.sortBy == q.sortBy && p.order == q.order
    ensures p.deviceId.None? && p.deviceName == deviceName
    ensures p.hasMedia == ParseHasMedia(q.hasMedia)
  {
    FetchParams(q.page, q.limit, q.sortBy, q.order, None, deviceName, ParseHasMedia(q.hasMedia))
  }

  /** A listing handler after its parameters are processed */
  function ListingResponse(db: EventDb, p: FetchParams, fault: Option<string>): (r: Response<Paged<EventView>>)
    ensures r.status == 200 || r.status == 500
    ensures r.status == 200 <==> FetchEvents(db, p, fault).Ok?
    ensures r.status == 200 ==> r.body.Data? && r.body.data.data == FetchEvents(db, p, fault).value.rows
    ensures r.status == 200 ==> r.body.data.pagination.totalCount == FetchEvents(db, p, fault).value.totalCount
    ensures r.status == 200 ==> r.body.data.pagination.currentPage == p.page
  {
    match FetchEvents(db, p, fault)
    case Err(message) => ServerError(message)
    case Ok(listing) => Response(200, Data(FormatResponse(listing.rows, listing.totalCount, p.page, p.limit)))
  }

  /** What the validator guarantees of the query it passes on */
  predicate InRange(q: EventQuery) {
    && q.page >= 1 && 1 <= q.limit <= 100
    && q.sortBy in ValidationSchemas.SortByOptions && q.order in ValidationSchemas.OrderOptions
    && (q.startDate.None? || IsDatetimeShaped(q.startDate.value))
    && (q.endDate.None? || IsDatetimeShaped(q.endDate.value))
    && (q.hasMedia.None? || q.hasMedia.value in HasMediaOptions)
  }

  /** An accepted query reads as a query in range. */
  lemma AcceptedQueryInRange(m: map<string, Json>)
    ensures QueryValid(m) ==> InRange(ReadQuery(m))
  {
    QueryAccepts(m);
  }

  /** `c.req.valid("query")`: the typed query, or nothing when the validator
      rejects it and the request is answered 400 */
  function ValidatedQuery(query: map<string, Json>): (r: Option<EventQuery>)
    ensures r.Some? <==> QueryValid(query)
    ensures r.Some? ==> r.value == ReadQuery(query) && InRange(r.value)
  {
    match Validate(ExtendedEventQuerySchema, Some(JObj(query)))
    case Invalid(_) => None
    case Valid(out) =>
      OutputReadsAsInput(query);
      AcceptedQueryInRange(query);
      Some(ReadQuery(out.value.members))
  }

  /** `GET /events`, the query object holding the query string's values
      with `page` and `limit` already coerced to numbers */
  function ListEvents(db: EventDb, query: map<string, Json>, fault: Option<string>): (r: Response<Paged<EventView>>)
    ensures r.status in {200, 400, 500}
    ensures r.status == 400 <==> !QueryValid(query)
    ensures r.status == 400 ==> r == BadRequest()
    ensures r.status == 200 ==>
              r.body.Data? && forall v :: v in r.body.data.data ==> Matches(Params(ReadQuery(query), None), db, v.event)
  {
    match ValidatedQuery(query)
    case None => BadRequest()
    case Some(q) => ListingResponse(db, Params(q, None), fault)
  }

  /** `GET /device/:deviceName` */
  function DeviceEvents(db: EventDb, query: map<string, Json>, deviceName: string, fault: Option<string>): (r: Response<Paged<EventView>>)
    ensures r.status in {200, 400, 500}
    ensures r.status == 400 <==> !QueryValid(query)
    ensures r.status == 400 ==> r == BadRequest()
    ensures r.status == 200 ==> r.body.Data?
    ensures r.status == 200 && deviceName != "" ==>
              forall v :: v in r.body.data.data ==> DeviceName(db, v.event) == Some(deviceName)
  {
    match ValidatedQuery(query)
    case None => BadRequest()
    case Some(q) => ListingResponse(db, Params(q, Some(deviceName)), fault)
  }

  /** `GET /events/user/{userId}` */
  function UserEvents(db: EventDb, query: map<string, Json>, userId: string, fault: Option<string>): (r: Response<Paged<EventView>>)
    ensures r.status in {200, 400, 500}
    ensures r.status == 400 <==> !QueryValid(query)
  {
    match ValidatedQuery(query)
    case None => BadRequest()
    case Some(q) => ListingResponse(db, Params(q, None), fault)
  }

  /** The user listing filters nothing by user: it answers exactly what the
      unfiltered listing answers, for every user. */
  lemma UserEventsIgnoreUser(db: EventDb, query: map<string, Json>, u1: string, u2: string, fault: Option<string>)
    ensures UserEvents(db, query, u1, fault) == UserEvents(db, query, u2, fault) == ListEvents(db, query, fault)
  {
  }

  /** The date range is accepted and ignored, as are `sortBy` and `order`:
      two accepted queries that agree on `page`, `limit` and `hasMedia` get
      the same answer. */
  lemma ListingIgnoresDatesAndSort(db: EventDb, query1: map<string, Json>, query2: map<string, Json>, fault: Option<string>)
    ensures QueryValid(query1) && QueryValid(query2)
            && Lookup(query1, "page") == Lookup(query2, "page")
            && Lookup(query1, "limit") == Lookup(query2, "limit")
            && Lookup(query1, "hasMedia") == Lookup(query2, "hasMedia")
            ==> ListEvents(db, query1, fault) == ListEvents(db, query2, fault)
  {
    var q1 := ReadQuery(query1);
    var q2 := ReadQuery(query2);
    if QueryValid(query1) && QueryValid(query2)
       && Lookup(query1, "page") == Lookup(query2, "page")
       && Lookup(query1, "limit") == Lookup(query2, "limit")
       && Lookup(query1, "hasMedia") == Lookup(query2, "hasMedia") {
      assert q1.page == q2.page && q1.limit == q2.limit && q1.hasMedia == q2.hasMedia;
      FetchIgnoresSort(db, Params(q1, None), q2.sortBy, q2.order, fault);
      assert Params(q2, None) == Params(q1, None).(sortBy := q2.sortBy, order := q2.order);
    }
  }

  /** An accepted query with a working read is answered 200, with a defined
      page count, and there is a next page exactly when events remain after
      this one. */
  lemma ListingPagination(db: EventDb, query: map<string, Json>, fault: Option<string>)
    ensures QueryValid(query) && fault.None? ==>
              var r := ListEvents(db, query, fault);
              var q := ReadQuery(query);
              && r.status == 200 && r.body.Data?
              && r.body.data.pagination.totalPages.Some?
              && (r.body.data.pagination.hasNextPage <==> q.page * q.limit < |Filter(db.events, MatchesFn(Params(q, None), db))|)
              && (r.body.data.pagination.hasPrevPage <==> q.page > 1)
  {
  }

  /** `GET /event/:eventId` with the id already converted to a number */
  function GetEvent(db: EventDb, eventId: int, fault: Option<string>): (r: Response<EventView>)
    ensures r.status in {200, 404, 500}
    ensures r.status == 500 <==> fault.Some?
    ensures r.status == 404 <==> fault.None? && forall e :: e in db.events ==> e.id != eventId
    ensures r.status == 404 ==> r == NotFound("Event not found")
    ensures r.status == 200 ==> r.body.Data? && r.body.data.event in db.events && r.body.data.event.id == eventId
  {
    match FetchEventById(db, eventId, fault)
    case Err(message) => ServerError(message)
    case Ok(None) => NotFound("Event not found")
    case Ok(Some(view)) => Response(200, Data(view))
  }
}

=== FILE: events.dfy ===
/** The event service: the filtered, paged event listing with its count,
    and the lookup of one event, over in-memory Events, Devices, EventMedia,
    SensorData, Sensors, SensorTypes and Regions tables. */
module Events {
  import opened Wrappers
  import opened Seqs
  import opened Pagination
  import opened Store
  import opened ValidationSchemas

  /** A row of the Events table; `location` is the GeoJSON text of the point */
  datatype Event = Event(
    id: int,
    time: Option<int>,
    kind: Option<string>,
    deviceId: Option<int>,
    location: Option<string>)

  datatype Device = Device(id: int, name: Option<string>)
  datatype Media = Media(id: int, eventId: int, fileId: Option<string>, source: Option<string>)
  datatype Reading = Reading(id: int, eventId: int, sensorId: Option<int>, value: Option<real>)
  datatype Sensor = Sensor(id: int, typeId: Option<int>)
  datatype SensorType = SensorType(id: int, name: Option<string>)
  datatype Region = Region(id: int, eventId: int, w: real, h: real, x: real, y: real)

  datatype EventDb = EventDb(
    events: seq<Event>,
    devices: seq<Device>,
    media: seq<Media>,
    readings: seq<Reading>,
    sensors: seq<Sensor>,
    sensorTypes: seq<SensorType>,
    regions: seq<Region>)

  /** A sensor reading as listed, with the name of its sensor's type */
  datatype ReadingView = ReadingView(id: int, sensorId: Option<int>, value: Option<real>, name: Option<string>)

  /** An event as the queries return it: the row, its device's name and
      the three aggregates, each a list (`[]` rather than null). */
  datatype EventView = EventView(
    event: Event,
    deviceName: Option<string>,
    regions: seq<Region>,
    sensorData: seq<ReadingView>,
    media: seq<Media>)

  /** The parameters `fetchEvents` reads; `deviceId` and `deviceName` are
      taken when truthy, and `hasMedia` absent means no media filter. */
  datatype FetchParams = FetchParams(
    page: int,
    limit: int,
    sortBy: string,
    order: string,
    deviceId: Option<int>,
    deviceName: Option<string>,
    hasMedia: Option<bool>)

  /** `LEFT JOIN "Devices" d ON e."deviceId" = d.id`, then `d.name` */
  function DeviceName(db: EventDb, e: Event): (r: Option<string>)
    ensures r.Some? ==> exists d :: d in db.devices && Some(d.id) == e.deviceId && d.name == r
  {
    if e.deviceId.None? then None
    else
      var found := Filter(db.devices, (d: Device) => d.id == e.deviceId.value);
      if |found| == 0 then None
      else
        assert found[0] in found;
        found[0].name
  }

  /** `EXISTS (SELECT 1 FROM "EventMedia" em WHERE em."eventId" = e.id)` */
  predicate HasMedia(db: EventDb, e: Event) {
    exists m :: m in db.media && m.eventId == e.id
  }

  /** `EXISTS (... "SensorData" sd WHERE sd."eventId" = e.id AND sd.value > 0)`;
      a NULL value does not compare greater than zero. */
  predicate HasPositiveReading(db: EventDb, e: Event) {
    exists r :: r in db.readings && r.eventId == e.id && r.value.Some? && r.value.value > 0.0
  }

  /** One condition of the `WHERE` clause */
  datatype Cond =
    | DeviceIdIs(deviceId: int)
    | DeviceNameIs(name: string)
    | MediaExists
    | NoMediaExists
    | PositiveReadingExists

  predicate IsDeviceCond(c: Cond) {
    c.DeviceIdIs? || c.DeviceNameIs?
  }

  predicate Sat(db: EventDb, c: Cond, e: Event) {
    match c
    case DeviceIdIs(id) => e.deviceId == Some(id)
    case DeviceNameIs(name) => DeviceName(db, e) == Some(name)
    case MediaExists => HasMedia(db, e)
    case NoMediaExists => !HasMedia(db, e)
    case PositiveReadingExists => HasPositiveReading(db, e)
  }

  /** JavaScript truthiness of the optional parameters */
  predicate TruthyId(x: Option<int>) { x.Some? && x.value != 0 }
  predicate TruthyName(x: Option<string>) { x.Some? && x.value != "" }

  /** The condition list, in the order it is pushed: a device condition,
      then the media conditions. */
  function BuildConditions(p: FetchParams): (cs: seq<Cond>)
    ensures |cs| <= 3
    ensures forall i, j :: 0 <= i < j < |cs| ==> !(IsDeviceCond(cs[i]) && IsDeviceCond(cs[j]))
    ensures TruthyId(p.deviceId) ==> DeviceIdIs(p.deviceId.value) in cs
    ensures forall c :: c in cs && c.DeviceIdIs? ==> TruthyId(p.deviceId) && c.deviceId == p.deviceId.value
    ensures forall c :: c in cs && c.DeviceNameIs? ==>
              !TruthyId(p.deviceId) && TruthyName(p.deviceName) && c.name == p.deviceName.value
    ensures !TruthyId(p.deviceId) && TruthyName(p.deviceName) ==> DeviceNameIs(p.deviceName.value) in cs
    ensures p.hasMedia.None? ==> forall c :: c in cs ==> IsDeviceCond(c)
    ensures p.hasMedia == Some(true) ==> MediaExists in cs && NoMediaExists !in cs && PositiveReadingExists !in cs
    ensures p.hasMedia == Some(false) ==> NoMediaExists in cs && PositiveReadingExists in cs && MediaExists !in cs
    ensures cs == [] <==> !TruthyId(p.deviceId) && !TruthyName(p.deviceName) && p.hasMedia.None?
  {
    DeviceConds(p) + MediaConds(p)
  }

  /** `deviceId` when truthy, else `deviceName` when truthy, else nothing */
  function DeviceConds(p: FetchParams): seq<Cond> {
    if TruthyId(p.deviceId) then [DeviceIdIs(p.deviceId.value)]
    else if TruthyName(p.deviceName) then [DeviceNameIs(p.deviceName.value)]
    else []
  }

  /** Nothing for an absent `hasMedia`, one condition for true, two for false */
  function MediaConds(p: FetchParams): seq<Cond> {
    match p.hasMedia
    case None => []
    case Some(true) => [MediaExists]
    case Some(false) => [NoMediaExists, PositiveReadingExists]
  }

  /** A `WHERE` expression: conditions joined by `AND` */
  datatype Expr = Atom(cond: Cond) | And(left: Expr, right: Expr)

  /** An empty clause or `WHERE <expr>` */
  datatype Where = NoWhere | WhereOf(expr: Expr)

  /** The conditions of an expression, left to right */
  function Conjuncts(x: Expr): seq<Cond> {
    match x
    case Atom(c) => [c]
    case And(l, r) => Conjuncts(l) + Conjuncts(r)
  }

  /** `whereClause = sql\`${whereClause} AND ${conditions[i]}\`` for each
      remaining condition */
  function FoldAnd(acc: Expr, rest: seq<Cond>): (r: Expr)
    ensures Conjuncts(r) == Conjuncts(acc) + rest
    decreases |rest|
  {
    if |rest| == 0 then acc
    else
      var r := FoldAnd(And(acc, Atom(rest[0])), rest[1..]);
      assert Conjuncts(And(acc, Atom(rest[0]))) == Conjuncts(acc) + [rest[0]];
      assert rest == [rest[0]] + rest[1..];
      assert (Conjuncts(acc) + [rest[0]]) + rest[1..] == Conjuncts(acc) + rest;
      r
  }

  /** The clause both queries share: none when there are no conditions,
      otherwise the conditions ANDed in insertion order. */
  function WhereClause(cs: seq<Cond>): (w: Where)
    ensures w.NoWhere? <==> |cs| == 0
    ensures w.WhereOf? ==> Conjuncts(w.expr) == cs
  {
    if |cs| == 0 then NoWhere
    else
      assert cs == [cs[0]] + cs[1..];
      WhereOf(FoldAnd(Atom(cs[0]), cs[1..]))
  }

  predicate Eval(db: EventDb, x: Expr, e: Event) {
    match x
    case Atom(c) => Sat(db, c, e)
    case And(l, r) => Eval(db, l, e) && Eval(db, r, e)
  }

  predicate Holds(db: EventDb, w: Where, e: Event) {
    match w
    case NoWhere => true
    case WhereOf(x) => Eval(db, x, e)
  }

  /** An AND-expression holds exactly when each of its conditions does. */
  lemma {:induction false} EvalIffConjuncts(db: EventDb, x: Expr, e: Event)
    ensures Eval(db, x, e) <==> forall c :: c in Conjuncts(x) ==> Sat(db, c, e)
  {
    match x
    case Atom(c) =>
    case And(l, r) =>
      EvalIffConjuncts(db, l, e);
      EvalIffConjuncts(db, r, e);
  }

  /** The built clause holds exactly when every listed condition does; with
      no conditions every event qualifies. */
  lemma WhereIffAll(db: EventDb, cs: seq<Cond>, e: Event)
    ensures Holds(db, WhereClause(cs), e) <==> forall c :: c in cs ==> Sat(db, c, e)
  {
    var w := WhereClause(cs);
    if w.WhereOf? {
      EvalIffConjuncts(db, w.expr, e);
    }
  }

  /** The filter the listing promises, stated directly on the parameters */
  predicate Matches(p: FetchParams, db: EventDb, e: Event) {
    && (if TruthyId(p.deviceId) then e.deviceId == p.deviceId
        else if TruthyName(p.deviceName) then DeviceName(db, e) == p.deviceName
        else true)
    && (match p.hasMedia
        case None => true
        case Some(true) => HasMedia(db, e)
        case Some(false) => !HasMedia(db, e) && HasPositiveReading(db, e))
  }

  function MatchesFn(p: FetchParams, db: EventDb): Event -> bool {
    (e: Event) => Matches(p, db, e)
  }

  /** The row condition the queries apply: the built `WHERE` clause */
  function Qualifies(p: FetchParams, db: EventDb): Event -> bool {
    (e: Event) => Holds(db, WhereClause(BuildConditions(p)), e)
  }

  /** The built clause selects exactly the events the parameters describe. */
  lemma ClauseMatches(p: FetchParams, db: EventDb, e: Event)
    ensures Qualifies(p, db)(e) <==> Matches(p, db, e)
  {
    var cs := BuildConditions(p);
    WhereIffAll(db, cs, e);
    var device := DeviceConds(p);
    var media := MediaConds(p);
    assert (forall c :: c in cs ==> Sat(db, c, e)) <==>
           (forall c :: c in device ==> Sat(db, c, e)) && (forall c :: c in media ==> Sat(db, c, e));
    if TruthyId(p.deviceId) {
      AllOfOne(db, DeviceIdIs(p.deviceId.value), e);
    } else if TruthyName(p.deviceName) {
      AllOfOne(db, DeviceNameIs(p.deviceName.value), e);
    }
    match p.hasMedia
    case None =>
    case Some(b) =>
      if b {
        AllOfOne(db, MediaExists, e);
      } else {
        AllOfTwo(db, NoMediaExists, PositiveReadingExists, e);
      }
  }

  lemma AllOfOne(db: EventDb, c0: Cond, e: Event)
    ensures (forall c :: c in [c0] ==> Sat(db, c, e)) <==> Sat(db, c0, e)
  {
    assert c0 in [c0];
  }

  lemma AllOfTwo(db: EventDb, c0: Cond, c1: Cond, e: Event)
    ensures (forall c :: c in [c0, c1] ==> Sat(db, c, e)) <==> Sat(db, c0, e) && Sat(db, c1, e)
  {
    assert c0 in [c0, c1] && c1 in [c0, c1];
  }

  /** The page query and the count query select the same events. */
  lemma SelectionMatches(p: FetchParams, db: EventDb)
    ensures Filter(db.events, Qualifies(p, db)) == Filter(db.events, MatchesFn(p, db))
  {
    forall i | 0 <= i < |db.events| ensures Qualifies(p, db)(db.events[i]) == MatchesFn(p, db)(db.events[i]) {
      ClauseMatches(p, db, db.events[i]);
    }
    FilterSame(db.events, Qualifies(p, db), MatchesFn(p, db));
  }

  /** The columns of the `sortBy` allow-list */
  const SortColumns: seq<string> := ["time", "type", "deviceId", "createdAt", "updatedAt"]

  /** `sortColumn`: the requested column when allowed, otherwise `time`.
      The listing computes it and never uses it. */
  function SortColumn(sortBy: string): (c: string)
    ensures c in SortColumns
    ensures c == sortBy || c == "time"
    ensures sortBy in SortColumns ==> c == sortBy
    ensures sortBy !in SortColumns ==> c == "time"
  {
    if sortBy in SortColumns then sortBy else "time"
  }

  /** Every `sortBy` the query schema accepts is allowed, so the fallback
      never fires for a validated request. */
  lemma ValidatedSortByAllowed(sortBy: string)
    requires sortBy in SortByOptions
    ensures SortColumn(sortBy) == sortBy
  {
  }

  /** `ORDER BY e."time" DESC`, NULL times first */
  function TimeKey(e: Event): DescKey {
    match e.time
    case None => NullKey
    case Some(t) => Key(t)
  }

  function RegionOf(eventId: int): Region -> bool {
    (r: Region) => r.eventId == eventId
  }

  function MediaOf(eventId: int): Media -> bool {
    (m: Media) => m.eventId == eventId
  }

  function ReadingOf(eventId: int): Reading -> bool {
    (r: Reading) => r.eventId == eventId
  }

  /** The name of a reading's sensor type, through two left joins: null
      without a sensor, without a sensor row, without a type or without a
      type row. Sensor and type ids are primary keys, so the join finds at
      most one row each. */
  function SensorTypeName(db: EventDb, r: Reading): (n: Option<string>)
    ensures r.sensorId.None? ==> n.None?
    ensures (forall s :: s in db.sensors ==> Some(s.id) != r.sensorId) ==> n.None?
    ensures n.Some? ==> exists s, t :: s in db.sensors && t in db.sensorTypes
                          && Some(s.id) == r.sensorId && s.typeId == Some(t.id) && t.name == n
    ensures SensorKeys(db) && TypeKeys(db) ==>
              forall s, t :: s in db.sensors && t in db.sensorTypes && Some(s.id) == r.sensorId && s.typeId == Some(t.id)
                             ==> n == t.name
  {
    if r.sensorId.None? then None
    else
      var sensors := Filter(db.sensors, SensorWithId(r.sensorId.value));
      var n := if |sensors| == 0 || sensors[0].typeId.None? then None
               else TypeName(db, sensors[0].typeId.value);
      assert |sensors| > 0 ==> sensors[0] in sensors;
      assert SensorKeys(db) && TypeKeys(db) ==>
               forall s, t :: s in db.sensors && t in db.sensorTypes && Some(s.id) == r.sensorId && s.typeId == Some(t.id)
                              ==> n == t.name by {
        if SensorKeys(db) && TypeKeys(db) {
          forall s, t | s in db.sensors && t in db.sensorTypes && Some(s.id) == r.sensorId && s.typeId == Some(t.id)
            ensures n == t.name
          {
            FirstSensor(db, s);
            TypeNameOf(db, t);
          }
        }
      }
      n
  }

  function SensorWithId(id: int): Sensor -> bool {
    (s: Sensor) => s.id == id
  }

  function TypeWithId(id: int): SensorType -> bool {
    (t: SensorType) => t.id == id
  }

  /** `LEFT JOIN "SensorTypes" st ON ... = st.id`, then `st.name` */
  function TypeName(db: EventDb, typeId: int): (n: Option<string>)
    ensures n.Some? ==> exists t :: t in db.sensorTypes && t.id == typeId && t.name == n
  {
    var types := Filter(db.sensorTypes, TypeWithId(typeId));
    if |types| == 0 then None
    else
      assert types[0] in types;
      types[0].name
  }

  /** With unique ids, the join finds the sensor with the id. */
  lemma FirstSensor(db: EventDb, s: Sensor)
    requires SensorKeys(db) && s in db.sensors
    ensures var found := Filter(db.sensors, SensorWithId(s.id));
            |found| > 0 && found[0] == s
  {
    var found := Filter(db.sensors, SensorWithId(s.id));
    assert s in found;
    assert found[0] in found;
    var i :| 0 <= i < |db.sensors| && db.sensors[i] == s;
    var j :| 0 <= j < |db.sensors| && db.sensors[j] == found[0];
    assert !(i < j) && !(j < i);
  }

  /** With unique ids, the join finds the type with the id. */
  lemma TypeNameOf(db: EventDb, t: SensorType)
    requires TypeKeys(db) && t in db.sensorTypes
    ensures TypeName(db, t.id) == t.name
  {
    var found := Filter(db.sensorTypes, TypeWithId(t.id));
    assert t in found;
    assert found[0] in found;
    var i :| 0 <= i < |db.sensorTypes| && db.sensorTypes[i] == t;
    var j :| 0 <= j < |db.sensorTypes| && db.sensorTypes[j] == found[0];
    assert !(i < j) && !(j < i);
  }

  /** No two sensors share an id */
  predicate SensorKeys(db: EventDb) {
    forall i, j :: 0 <= i < j < |db.sensors| ==> db.sensors[i].id != db.sensors[j].id
  }

  /** No two sensor types share an id */
  predicate TypeKeys(db: EventDb) {
    forall i, j :: 0 <= i < j < |db.sensorTypes| ==> db.sensorTypes[i].id != db.sensorTypes[j].id
  }

  function ReadingViewOf(db: EventDb): Reading -> ReadingView {
    (r: Reading) => ReadingView(r.id, r.sensorId, r.value, SensorTypeName(db, r))
  }

  /** A reading of the event whose `json_build_object` is `x`: its id,
      sensor id and value, and its sensor type's name */
  function ShownAs(db: EventDb, eventId: int, x: ReadingView): Reading -> bool {
    (r: Reading) => r.eventId == eventId
                    && x == ReadingView(r.id, r.sensorId, r.value, SensorTypeName(db, r))
  }

  /** `sensorData` is the event's `json_agg` of readings in some order: one
      entry per reading, each entry as often as readings are shown as it.
      The subquery has no `ORDER BY`, so no order is promised. */
  ghost predicate ListsReadings(db: EventDb, e: Event, sensorData: seq<ReadingView>) {
    && |sensorData| == |Filter(db.readings, ReadingOf(e.id))|
    && forall x :: multiset(sensorData)[x] == |Filter(db.readings, ShownAs(db, e.id, x))|
  }

  /** The `sensorData` aggregate of one event. The model takes the readings
      in table order. */
  function SensorData(db: EventDb, e: Event): (r: seq<ReadingView>)
    ensures ListsReadings(db, e, r)
  {
    var own := Filter(db.readings, ReadingOf(e.id));
    forall x ensures multiset(Map(own, ReadingViewOf(db)))[x] == |Filter(db.readings, ShownAs(db, e.id, x))| {
      MapCount(own, ReadingViewOf(db), x);
      FilterSame(own, MapsTo(ReadingViewOf(db), x), ShownAs(db, e.id, x));
      FilterFilter(db.readings, ReadingOf(e.id), ShownAs(db, e.id, x));
    }
    Map(own, ReadingViewOf(db))
  }

  /** The selected columns and the three `COALESCE(json_agg(...), '[]')`
      aggregates of one event */
  function ViewOf(db: EventDb, e: Event): (v: EventView)
    ensures v.event == e && v.deviceName == DeviceName(db, e)
    ensures forall r :: r in v.regions <==> r in db.regions && r.eventId == e.id
    ensures forall m :: m in v.media <==> m in db.media && m.eventId == e.id
    ensures ListsReadings(db, e, v.sensorData)
    ensures v.media == [] <==> !HasMedia(db, e)
  {
    var media := Filter(db.media, MediaOf(e.id));
    assert media == [] <==> !HasMedia(db, e) by {
      if HasMedia(db, e) {
        var m :| m in db.media && m.eventId == e.id;
        assert m in media;
      }
      if media != [] {
        assert media[0] in media;
      }
    }
    EventView(e, DeviceName(db, e), Filter(db.regions, RegionOf(e.id)),
              SensorData(db, e), media)
  }

  function ViewFn(db: EventDb): Event -> EventView {
    (e: Event) => ViewOf(db, e)
  }

  /** The rows of a window over the ordered selection are selected events,
      latest first, each shown with its aggregates. */
  lemma PageFacts(db: EventDb, p: FetchParams)
    requires Offset(p.page, p.limit) >= 0 && p.limit >= 0
    ensures var window := Window(SortDesc(Filter(db.events, Qualifies(p, db)), TimeKey), Offset(p.page, p.limit), p.limit).value;
            && (forall v :: v in Map(window, ViewFn(db)) ==>
                  v.event in db.events && Matches(p, db, v.event) && v == ViewOf(db, v.event))
            && (forall i, j :: 0 <= i < j < |window| ==> KeyGe(TimeKey(window[i]), TimeKey(window[j])))
  {
    var selected := Filter(db.events, Qualifies(p, db));
    var ordered := SortDesc(selected, TimeKey);
    var window := Window(ordered, Offset(p.page, p.limit), p.limit).value;
    WindowOfSorted(ordered, TimeKey, Offset(p.page, p.limit), p.limit);
    var rows := Map(window, ViewFn(db));
    forall v | v in rows ensures v.event in db.events && Matches(p, db, v.event) && v == ViewOf(db, v.event) {
      var i :| 0 <= i < |rows| && rows[i] == v;
      assert window[i] in window;
      assert window[i] in multiset(ordered);
      assert window[i] in selected;
      ClauseMatches(p, db, window[i]);
    }
  }

  /** `fetchEvents`: one page of the selected events, latest first, with
      the count of all selected events. `sortBy` and `order` are not used. */
  function FetchEvents(db: EventDb, p: FetchParams, fault: Option<string>): (r: Result<Listing<EventView>>)
    ensures r.Ok? <==> fault.None? && Offset(p.page, p.limit) >= 0 && p.limit >= 0
    ensures r.Ok? ==> |r.value.rows| <= p.limit
    ensures r.Ok? ==> forall v :: v in r.value.rows ==>
                        v.event in db.events && Matches(p, db, v.event) && v == ViewOf(db, v.event)
    ensures r.Ok? ==> forall i, j :: 0 <= i < j < |r.value.rows| ==>
                        KeyGe(TimeKey(r.value.rows[i].event), TimeKey(r.value.rows[j].event))
    ensures r.Ok? ==> r.value.totalCount == |Filter(db.events, MatchesFn(p, db))|
  {
    if fault.Some? then Err(fault.value)
    else
      var selected := Filter(db.events, Qualifies(p, db));
      var ordered := SortDesc(selected, TimeKey);
      var window := Window(ordered, Offset(p.page, p.limit), p.limit);
      if window.Err? then Err(window.message)
      else
        SelectionMatches(p, db);
        FilterLengthIsCount(db.events, Qualifies(p, db));
        PageFacts(db, p);
        Ok(Listing(Map(window.value, ViewFn(db)), Count(db.events, Qualifies(p, db))))
  }

  /** The listing ignores `sortBy` and `order` entirely. */
  lemma FetchIgnoresSort(db: EventDb, p: FetchParams, sortBy: string, order: string, fault: Option<string>)
    ensures FetchEvents(db, p.(sortBy := sortBy, order := order), fault) == FetchEvents(db, p, fault)
  {
    var q := p.(sortBy := sortBy, order := order);
    assert BuildConditions(q) == BuildConditions(p);
    assert Qualifies(q, db) == Qualifies(p, db);
  }

  /** With no filter parameters every event is counted. */
  lemma NoFilterCountsAll(db: EventDb, p: FetchParams)
    requires !TruthyId(p.deviceId) && !TruthyName(p.deviceName) && p.hasMedia.None?
    requires p.page >= 1 && p.limit >= 0
    ensures FetchEvents(db, p, None).Ok? && FetchEvents(db, p, None).value.totalCount == |db.events|
  {
    assert Offset(p.page, p.limit) >= 0;
    AllMatch(db, p);
    var r := FetchEvents(db, p, None);
    assert r.Ok? && r.value.totalCount == |Filter(db.events, MatchesFn(p, db))|;
  }

  lemma AllMatch(db: EventDb, p: FetchParams)
    requires !TruthyId(p.deviceId) && !TruthyName(p.deviceName) && p.hasMedia.None?
    ensures Filter(db.events, MatchesFn(p, db)) == db.events
  {
    forall i | 0 <= i < |db.events| ensures MatchesFn(p, db)(db.events[i]) {
    }
    FilterAll(db.events, MatchesFn(p, db));
  }

  /** A truthy `deviceId` decides the device filter; `deviceName` is then
      ignored. */
  lemma DeviceIdWins(db: EventDb, p: FetchParams, name: Option<string>, fault: Option<string>)
    requires TruthyId(p.deviceId)
    ensures FetchEvents(db, p.(deviceName := name), fault) == FetchEvents(db, p, fault)
  {
    var q := p.(deviceName := name);
    assert BuildConditions(q) == BuildConditions(p);
    assert Qualifies(q, db) == Qualifies(p, db);
  }

  /** `hasMedia = false` keeps exactly the events without media that have a
      positive reading; `hasMedia = true` exactly those with media. */
  lemma MediaFilter(db: EventDb, p: FetchParams, e: Event)
    requires !TruthyId(p.deviceId) && !TruthyName(p.deviceName) && p.hasMedia.Some?
    ensures Qualifies(p, db)(e) <==>
              if p.hasMedia.value then HasMedia(db, e) else !HasMedia(db, e) && HasPositiveReading(db, e)
  {
    ClauseMatches(p, db, e);
  }

  /** Paging reaches every selected event: each sits on some page. Each
      page is a separate query and the database keeps no fixed order among
      events of equal (or NULL) time, so the claim is made where the times
      identify the selected events; there the descending order is unique
      (`SortDescIsTheOrder`) and every page reads the same one. */
  lemma EverySelectedEventListed(db: EventDb, p: FetchParams, e: Event)
    requires p.limit >= 1 && e in db.events && Matches(p, db, e)
    requires KeysIdentify(Filter(db.events, MatchesFn(p, db)), TimeKey)
    ensures exists page :: page >= 1 && FetchEvents(db, p.(page := page), None).Ok?
              && ViewOf(db, e) in FetchEvents(db, p.(page := page), None).value.rows
  {
    var k := SelectedPosition(db, p, e);
    var page := PositionOnPage(db, p, k);
    var rows := FetchEvents(db, p.(page := page), None).value.rows;
    assert rows[k % p.limit] in rows;
  }

  /** The event at position `k` of the ordered selection is row `k % limit`
      of page `k / limit + 1`. */
  lemma PositionOnPage(db: EventDb, p: FetchParams, k: nat) returns (page: int)
    requires p.limit >= 1 && k < |SortDesc(Filter(db.events, Qualifies(p, db)), TimeKey)|
    ensures page == k / p.limit + 1
    ensures page >= 1 && FetchEvents(db, p.(page := page), None).Ok?
    ensures k % p.limit < |FetchEvents(db, p.(page := page), None).value.rows|
    ensures FetchEvents(db, p.(page := page), None).value.rows[k % p.limit]
            == ViewOf(db, SortDesc(Filter(db.events, Qualifies(p, db)), TimeKey)[k])
  {
    var ordered := SortDesc(Filter(db.events, Qualifies(p, db)), TimeKey);
    RowOnItsPage(ordered, k, p.limit);
    DivNonNegative(k, p.limit);
    page := k / p.limit + 1;
    PageRows(db, p, page);
  }

  /** The page `page` of a listing is the window of the ordered selection
      the other parameters describe. A helper step of the paging proofs,
      kept apart to keep each proof small. */
  lemma PageRows(db: EventDb, p: FetchParams, page: int)
    requires p.limit >= 0 && Offset(page, p.limit) >= 0
    ensures FetchEvents(db, p.(page := page), None).Ok?
    ensures FetchEvents(db, p.(page := page), None).value.rows ==
              Map(Window(SortDesc(Filter(db.events, Qualifies(p, db)), TimeKey), Offset(page, p.limit), p.limit).value, ViewFn(db))
  {
    PageDoesNotFilter(db, p, page);
    FetchRows(db, p.(page := page));
  }

  /** A successful listing shows the window of the ordered selection.
      A helper that states one step of `FetchEvents` on its own, so that
      the paging proofs above stay within the solver's budget. */
  lemma FetchRows(db: EventDb, p: FetchParams)
    requires p.limit >= 0 && Offset(p.page, p.limit) >= 0
    ensures FetchEvents(db, p, None).Ok?
    ensures FetchEvents(db, p, None).value.rows ==
              Map(Window(SortDesc(Filter(db.events, Qualifies(p, db)), TimeKey), Offset(p.page, p.limit), p.limit).value, ViewFn(db))
  {
  }

  /** A selected event has a position in the ordered selection. */
  lemma SelectedPosition(db: EventDb, p: FetchParams, e: Event) returns (k: nat)
    requires e in db.events && Matches(p, db, e)
    ensures k < |SortDesc(Filter(db.events, Qualifies(p, db)), TimeKey)|
    ensures SortDesc(Filter(db.events, Qualifies(p, db)), TimeKey)[k] == e
  {
    var selected := Filter(db.events, Qualifies(p, db));
    ClauseMatches(p, db, e);
    assert e in selected;
    k := SortedPosition(selected, TimeKey, e);
  }

  /** The page number does not enter the row condition. */
  lemma PageDoesNotFilter(db: EventDb, p: FetchParams, page: int)
    ensures Qualifies(p.(page := page), db) == Qualifies(p, db)
  {
    assert BuildConditions(p.(page := page)) == BuildConditions(p);
  }

  /** `fetchEventById`: the event with its aggregates, or null when no
      event has the id. */
  function FetchEventById(db: EventDb, id: int, fault: Option<string>): (r: Result<Option<EventView>>)
    ensures r.Err? <==> fault.Some?
    ensures r.Ok? ==> (r.value.None? <==> forall e :: e in db.events ==> e.id != id)
    ensures r.Ok? && r.value.Some? ==>
              r.value.value.event in db.events && r.value.value.event.id == id
              && r.value.value == ViewOf(db, r.value.value.event)
  {
    if fault.Some? then Err(fault.value)
    else
      var found := Filter(db.events, (e: Event) => e.id == id);
      if |found| == 0 then
        Ok(None)
      else
        assert found[0] in found;
        Ok(Some(ViewOf(db, found[0])))
  }
}

=== FILE: field_observation_routes.dfy ===
/** The field observation route handlers. The bearer-token middleware is
    registered three times: for the bare collection path before the create
    handler, for every path below the collection after the get and list
    handlers but before the delete handler, and for every sightings path
    below an observation. A handler registered before a matching middleware
    answers first, so get and list are public, delete is guarded, and
    add-sighting passes the middleware twice. */
module FieldObservationRoutes {
  import opened Wrappers
  import opened Seqs
  import opened Pagination
  import opened Store
  import opened Sightings
  import opened FieldObservations
  import opened Auth
  import opened Http
  import Schema
  import FieldObservationSchemas

  /** `z.string().uuid()` on the `id` path parameter */
  predicate IdParamValid(id: string) {
    Schema.IsUuidShaped(id)
  }

  /** The body validator of the create route */
  predicate CreateBodyValid(body: Schema.Json) {
    Schema.Validate(FieldObservationSchemas.CreateFieldObservationSchema, Some(body)).Valid?
  }

  /** The body validator of the add-sighting route */
  predicate SightingBodyValid(body: Schema.Json) {
    Schema.Validate(FieldObservationSchemas.CreateSightingSchema, Some(body)).Valid?
  }

  /** The authenticated caller has a truthy `sub` claim */
  predicate HasSubject(outcome: AuthOutcome) {
    outcome.Authenticated? && Truthy(outcome.user.sub)
  }

  /** `POST /field-observations`: `body` is the request as validated and
      `input` the same request as the service reads it. */
  function CreateRoute(db: ObservationDb, env: Env, cred: Credentials, body: Schema.Json, input: ObservationInput,
                       freshId: string, now: int, fault: Option<Fault>): (r: (ObservationDb, Response<Created>))
    ensures r.1.status != 201 ==> r.0 == db
    ensures Guard(env, cred).Rejected? ==> r.1 == Rejection(Guard(env, cred))
    ensures Guard(env, cred).Authenticated? && !CreateBodyValid(body) ==> r.1 == BadRequest()
    ensures Guard(env, cred).Authenticated? && CreateBodyValid(body) && !HasSubject(Guard(env, cred)) ==>
              r.1 == Unauthorized()
    ensures HasSubject(Guard(env, cred)) && CreateBodyValid(body) && !Truthy(env.connection) ==>
              r.1 == ConfigurationError()
    ensures r.1.status == 201 <==>
              HasSubject(Guard(env, cred)) && CreateBodyValid(body) && Truthy(env.connection)
              && Create(db, input, Guard(env, cred).user.sub.value, freshId, now, fault).1.Ok?
    ensures HasSubject(Guard(env, cred)) && CreateBodyValid(body) && Truthy(env.connection) && input.temperature.None? ==>
              r.1 == ServerError(UndefinedValue)
    ensures r.1.status == 201 ==>
              r.1.body.Data? && r.1.body.data.observation.userId == Guard(env, cred).user.sub.value
              && r.1.body.data.observation.id == freshId
              && |r.1.body.data.sightings| == |RequestedSightings(input)|
  {
    var outcome := Guard(env, cred);
    if outcome.Rejected? then (db, Rejection(outcome))
    else if !CreateBodyValid(body) then (db, BadRequest())
    else if !Truthy(outcome.user.sub) then (db, Unauthorized())
    else if !Truthy(env.connection) then (db, ConfigurationError())
    else
      var (db', result) := Create(db, input, outcome.user.sub.value, freshId, now, fault);
      match result
      case Err(message) => (db', ServerError(message))
      case Ok(created) => (db', Response(201, Data(created)))
  }

  /** `GET /field-observations/{id}`: the observation with its sightings */
  function GetRoute(db: ObservationDb, env: Env, id: string, fault: Option<string>): (r: Response<Detail<Observation>>)
    ensures r.status in {200, 400, 404, 500}
    ensures !IdParamValid(id) ==> r == BadRequest()
    ensures IdParamValid(id) && !Truthy(env.connection) ==> r == ConfigurationError()
    ensures r.status == 404 <==>
              IdParamValid(id) && Truthy(env.connection) && fault.None? && forall o :: o in db.parents ==> o.id != id
    ensures r.status == 404 ==> r == NotFound("Field observation not found")
    ensures r.status == 200 ==>
              r.body.Data? && r.body.data.parent in db.parents && r.body.data.parent.id == id
              && forall s :: s in r.body.data.sightings <==> s in db.sightings.rows && s.parent == id
  {
    if !IdParamValid(id) then BadRequest()
    else if !Truthy(env.connection) then ConfigurationError()
    else
      match Get(db, id, fault)
      case Err(message) => ServerError(message)
      case Ok(None) => NotFound("Field observation not found")
      case Ok(Some(detail)) => Response(200, Data(detail))
  }

  /** `GET /field-observations/user/{userId}` with `page` and `limit` as the
      query strings carry them (defaults 1 and 10, no lower bound) */
  function ListRoute(db: ObservationDb, env: Env, userId: string, page: Option<string>, limit: Option<string>,
                     fault: Option<string>): (r: Response<Paged<Observation>>)
    ensures r.status in {200, 400, 500}
    ensures r.status == 400 <==> QueryNumber(page, 1).Err? || QueryNumber(limit, 10).Err?
    ensures r.status == 200 ==>
              var (p, l) := (QueryNumber(page, 1).value, QueryNumber(limit, 10).value);
              && r.body.Data?
              && |r.body.data.data| <= l
              && (forall o :: o in r.body.data.data ==> o in db.parents && o.userId == userId)
              && r.body.data.pagination.currentPage == p
              && r.body.data.pagination.totalCount == |Filter(db.parents, OwnedBy(OwnerOf, userId))|
              && (l >= 1 ==> (r.body.data.pagination.hasNextPage <==> p * l < |Filter(db.parents, OwnedBy(OwnerOf, userId))|))
    ensures page.None? && limit.None? && Truthy(env.connection) && fault.None? ==>
              r.status == 200 && r.body.Data? && r.body.data.pagination.currentPage == 1 && |r.body.data.data| <= 10
  {
    var p := QueryNumber(page, 1);
    var l := QueryNumber(limit, 10);
    if p.Err? || l.Err? then BadRequest()
    else if !Truthy(env.connection) then ConfigurationError()
    else
      match ListByUser(db, userId, p.value, l.value, fault)
      case Err(message) => ServerError(message)
      case Ok(listing) => Response(200, Data(FormatResponse(listing.rows, listing.totalCount, p.value, l.value)))
  }

  /** The list route as written: `page` and `limit` are declared as plain
      numbers, so the query strings that carry them never pass. The model's
      `ListRoute` reads them as numbers instead. */
  function ListRouteAsWritten(db: ObservationDb, env: Env, userId: string, page: Option<string>, limit: Option<string>,
                              fault: Option<string>): (r: Response<Paged<Observation>>)
    ensures r.status == 400 <==> page.Some? || limit.Some?
    ensures page.None? && limit.None? ==> r == ListRoute(db, env, userId, None, None, fault)
  {
    var p := QueryNumberAsWritten(page, 1);
    var l := QueryNumberAsWritten(limit, 10);
    if p.Err? || l.Err? then BadRequest()
    else ListRoute(db, env, userId, None, None, fault)
  }

  /** Asking for page 2 is refused as written and answered once the query
      string is read as a number. */
  lemma ExplicitPageListing(db: ObservationDb, env: Env, userId: string, fault: Option<string>)
    ensures ListRouteAsWritten(db, env, userId, Some("2"), None, fault).status == 400
    ensures ListRoute(db, env, userId, Some("2"), None, fault).status != 400
  {
    assert QueryNumber(Some("2"), 1).Ok? by {
      assert IsDigitChar("2"[0]);
    }
  }

  /** `DELETE /field-observations/{id}` */
  function DeleteRoute(db: ObservationDb, env: Env, cred: Credentials, id: string, fault: Option<Fault>): (r: (ObservationDb, Response<()>))
    ensures Guard(env, cred).Rejected? ==> r == (db, Rejection(Guard(env, cred)))
    ensures Guard(env, cred).Authenticated? && !IdParamValid(id) ==> r == (db, BadRequest())
    ensures Guard(env, cred).Authenticated? && IdParamValid(id) && !Truthy(env.connection) ==> r == (db, ConfigurationError())
    ensures r.1.status == 204 <==>
              Guard(env, cred).Authenticated? && IdParamValid(id) && Truthy(env.connection)
              && !FailsAt(fault, 0) && !FailsAt(fault, 1) && exists o :: o in db.parents && o.id == id
    ensures r.1.status == 204 ==> r.1.body == NoBody
    ensures r.1.status == 404 <==>
              Guard(env, cred).Authenticated? && IdParamValid(id) && Truthy(env.connection)
              && !FailsAt(fault, 0) && !FailsAt(fault, 1) && forall o :: o in db.parents ==> o.id != id
    ensures r.1.status == 204 || r.1.status == 404 ==>
              (forall s :: s in r.0.sightings.rows <==> s in db.sightings.rows && s.parent != id)
              && (forall o :: o in r.0.parents <==> o in db.parents && o.id != id)
  {
    var outcome := Guard(env, cred);
    if outcome.Rejected? then (db, Rejection(outcome))
    else if !IdParamValid(id) then (db, BadRequest())
    else if !Truthy(env.connection) then (db, ConfigurationError())
    else
      var (db', result) := Delete(db, id, fault);
      match result
      case Err(message) => (db', ServerError(message))
      case Ok(deleted) =>
        if deleted then (db', Response(204, NoBody)) else (db', NotFound("Field observation not found"))
  }

  /** `POST /field-observations/{id}/sightings`: `body` is the request as
      validated and `input` the sighting as the service reads it. */
  function AddSightingRoute(db: ObservationDb, env: Env, cred: Credentials, id: string, body: Schema.Json,
                            input: SightingInput, now: int, fault: Option<string>): (r: (ObservationDb, Response<Sighting>))
    ensures r.1.status != 201 ==> r.0 == db
    ensures Guard(env, cred).Rejected? ==> r.1 == Rejection(Guard(env, cred))
    ensures Guard(env, cred).Authenticated? && !(IdParamValid(id) && SightingBodyValid(body)) ==> r.1 == BadRequest()
    ensures r.1.status == 201 <==>
              Guard(env, cred).Authenticated? && IdParamValid(id) && SightingBodyValid(body) && Truthy(env.connection)
              && fault.None? && exists o :: o in db.parents && o.id == id
    ensures r.1.status == 201 ==>
              r.1.body.Data? && r.1.body.data.parent == id && r.1.body.data.data == input
              && r.0.sightings.rows == db.sightings.rows + [r.1.body.data]
  {
    var outcome := GuardTwice(env, cred);
    if outcome.Rejected? then (db, Rejection(outcome))
    else if !IdParamValid(id) || !SightingBodyValid(body) then (db, BadRequest())
    else if !Truthy(env.connection) then (db, ConfigurationError())
    else
      var (db', result) := CreateSighting(db, id, input, now, fault);
      match result
      case Err(message) => (db', ServerError(message))
      case Ok(sighting) => (db', Response(201, Data(sighting)))
  }

  /** An observation created through the route reads back through the get
      route with exactly the sightings created with it. */
  lemma CreateThenGet(db: ObservationDb, env: Env, cred: Credentials, body: Schema.Json, input: ObservationInput,
                      freshId: string, now: int, fault: Option<Fault>)
    requires Consistent(db, IdOf)
    ensures var (db', r) := CreateRoute(db, env, cred, body, input, freshId, now, fault);
            r.status == 201 && IdParamValid(freshId) ==>
              r.body.Data?
              && GetRoute(db', env, freshId, None) == Response(200, Data(Detail(r.body.data.observation, r.body.data.sightings)))
  {
    if CreateRoute(db, env, cred, body, input, freshId, now, fault).1.status == 201 {
      var user := Guard(env, cred).user.sub.value;
      GetAfterCreate(db, input, user, freshId, now, fault);
    }
  }

  /** Once the delete route answered 204, the get route answers 404. */
  lemma DeleteThenGet(db: ObservationDb, env: Env, cred: Credentials, id: string, fault: Option<Fault>)
    ensures var (db', r) := DeleteRoute(db, env, cred, id, fault);
            r.status == 204 || r.status == 404 ==> GetRoute(db', env, id, None) == NotFound("Field observation not found")
  {
    if DeleteRoute(db, env, cred, id, fault).1.status in {204, 404} {
      LookupAfterDelete(db, IdOf, id, fault);
    }
  }

  /** A caller the middleware turns away never changes the tables, on any
      mutating route. */
  lemma RejectedCallerChangesNothing(db: ObservationDb, env: Env, cred: Credentials, id: string, body: Schema.Json,
                                     input: ObservationInput, sighting: SightingInput, freshId: string, now: int,
                                     fault: Option<Fault>, insertFault: Option<string>)
    requires Guard(env, cred).Rejected?
    ensures CreateRoute(db, env, cred, body, input, freshId, now, fault).0 == db
    ensures DeleteRoute(db, env, cred, id, fault).0 == db
    ensures AddSightingRoute(db, env, cred, id, body, sighting, now, insertFault).0 == db
  {
  }
}

=== FILE: field_observation_schemas.dfy ===
/** The field observation and sighting validators and the create/update
    schemas derived from them. */
module FieldObservationSchemas {
  import opened Wrappers
  import opened Schema

  const TypeOptions: seq<string> := ["transect", "fit"]
  const WindOptions: seq<string> := ["calm", "light", "moderate", "strong"]
  const SeasonOptions: seq<string> := ["Spring", "Summer", "Autumn", "Winter"]

  const LatitudeField := Field("latitude", Num([Min(-90.0), Max(90.0)]))
  const LongitudeField := Field("longitude", Num([Min(-180.0), Max(180.0)]))
  const LocationSchema := Obj([LatitudeField, LongitudeField])

  const IdField := Field("id", Optional(Str([Uuid])))
  const UserIdField := Field("user_id", Str([Uuid]))
  const TypeField := Field("type", Enum(TypeOptions))
  const TimeField := Field("time", Date)
  const LocationField := Field("location", LocationSchema)
  const WeatherField := Field("weather", Nullable(Str([])))
  const TemperatureField := Field("temperature", Optional(Num([IsInt])))
  const WindField := Field("wind", Nullable(Enum(WindOptions)))
  const SeasonField := Field("season", Nullable(Enum(SeasonOptions)))
  const ConsentField := Field("consent", Default(Bool, JBool(false)))
  const CreatedAtField := Field("created_at", Date)

  const FieldObservationSchema := Obj([
    IdField, UserIdField, TypeField, TimeField, LocationField, WeatherField, TemperatureField,
    WindField, SeasonField, ConsentField, CreatedAtField])

  const SightingIdField := Field("id", Num([]))
  const ObservationRefField := Field("fieldObservationId", Str([Uuid]))
  const GroupNameField := Field("group_name", Str([]))
  const CountField := Field("estimated_count", Num([IsInt, NonNegative]))
  const BehaviorField := Field("behavior", Nullable(Str([])))
  const LocationSeenField := Field("location_seen", Nullable(Str([])))
  const NotesField := Field("notes", Nullable(Str([])))
  const PhotoUrlField := Field("photo_url", Nullable(Str([])))

  const SightingSchema := Obj([
    SightingIdField, ObservationRefField, GroupNameField, CountField, BehaviorField,
    LocationSeenField, NotesField, PhotoUrlField, CreatedAtField])

  const OptionalRefField := Field("fieldObservationId", Optional(Str([Uuid])))

  const CreateSightingSchema := Extend(Omit(SightingSchema, {"id", "created_at"}), [OptionalRefField])

  /** The sightings nested in a create request carry no observation id */
  const NestedSightingSchema := Omit(CreateSightingSchema, {"fieldObservationId"})

  const SightingsField := Field("sightings", Optional(Arr(NestedSightingSchema)))

  const CreateFieldObservationSchema :=
    Extend(Omit(FieldObservationSchema, {"created_at"}), [IdField, SightingsField])

  const UpdateFieldObservationSchema := Partial(CreateFieldObservationSchema)

  /** A number in [lo, hi] under `key` */
  predicate Bounded(m: map<string, Json>, key: string, lo: real, hi: real) {
    key in m && m[key].JNum? && lo <= m[key].n <= hi
  }

  /** A location object: latitude in [-90, 90], longitude in [-180, 180] */
  predicate LocationShaped(v: Json) {
    v.JObj? && Bounded(v.members, "latitude", -90.0, 90.0) && Bounded(v.members, "longitude", -180.0, 180.0)
  }

  /** `key` holds one of `options`, or null when `nullable` */
  predicate EnumOk(m: map<string, Json>, key: string, options: seq<string>, nullable: bool) {
    key in m && ((nullable && m[key] == JNull) || (m[key].JStr? && m[key].s in options))
  }

  /** `temperature` is absent or an integer */
  predicate TemperatureOk(m: map<string, Json>) {
    "temperature" !in m || (m["temperature"].JNum? && IsInteger(m["temperature"].n))
  }

  /** `estimated_count` holds a non-negative integer */
  predicate CountOk(m: map<string, Json>) {
    "estimated_count" in m && m["estimated_count"].JNum?
    && IsInteger(m["estimated_count"].n) && m["estimated_count"].n >= 0.0
  }

  /** A location is accepted exactly when both coordinates are numbers
      within their bounds (the ends included). */
  lemma LocationAccepts(v: Json)
    ensures Validate(LocationSchema, Some(v)).Valid? <==> LocationShaped(v)
  {
    if v.JObj? {
      var m := v.members;
      if "latitude" in m { NumChecksTwo(Min(-90.0), Max(90.0), m["latitude"]); }
      if "longitude" in m { NumChecksTwo(Min(-180.0), Max(180.0), m["longitude"]); }
      TwoFieldsValidIff(LocationSchema, m);
    }
  }

  lemma FieldChecks(m: map<string, Json>)
    ensures FieldValid(TypeField, m) <==> EnumOk(m, "type", TypeOptions, false)
    ensures FieldValid(WindField, m) <==> EnumOk(m, "wind", WindOptions, true)
    ensures FieldValid(SeasonField, m) <==> EnumOk(m, "season", SeasonOptions, true)
    ensures FieldValid(LocationField, m) <==> "location" in m && LocationShaped(m["location"])
    ensures FieldValid(TemperatureField, m) <==> TemperatureOk(m)
    ensures FieldValid(CountField, m) <==> CountOk(m)
  {
    if "location" in m { LocationAccepts(m["location"]); }
    if "temperature" in m { NumChecksOne(IsInt, m["temperature"]); }
    if "estimated_count" in m { NumChecksTwo(IsInt, NonNegative, m["estimated_count"]); }
  }

  /** An accepted observation has a known type, wind and season that are
      known or null (but present), a located position within bounds and an
      integer temperature if any. */
  lemma ObservationChecks(m: map<string, Json>)
    requires Validate(FieldObservationSchema, Some(JObj(m))).Valid?
    ensures EnumOk(m, "type", TypeOptions, false)
    ensures EnumOk(m, "wind", WindOptions, true) && EnumOk(m, "season", SeasonOptions, true)
    ensures "location" in m && LocationShaped(m["location"])
    ensures TemperatureOk(m)
  {
    FieldChecks(m);
    var fs := FieldObservationSchema.fields;
    assert fs[2] == TypeField && fs[4] == LocationField && fs[6] == TemperatureField;
    assert fs[7] == WindField && fs[8] == SeasonField;
    FieldChecked(FieldObservationSchema, m, TypeField);
    FieldChecked(FieldObservationSchema, m, LocationField);
    FieldChecked(FieldObservationSchema, m, TemperatureField);
    FieldChecked(FieldObservationSchema, m, WindField);
    FieldChecked(FieldObservationSchema, m, SeasonField);
  }

  lemma ConsentUnique()
    ensures UniqueAt(FieldObservationSchema.fields, 9)
  {
  }

  /** A missing `consent` becomes false; a present one is kept. */
  lemma ConsentDefaultsToFalse(m: map<string, Json>)
    requires Validate(FieldObservationSchema, Some(JObj(m))).Valid?
    ensures var out := Validate(FieldObservationSchema, Some(JObj(m))).out.value.members;
            "consent" in out && out["consent"] == (if "consent" in m then m["consent"] else JBool(false))
            && out["consent"].JBool?
  {
    ConsentUnique();
    FieldOutput(FieldObservationSchema, m, 9);
  }

  /** An accepted sighting has a non-negative integer count. */
  lemma SightingCount(m: map<string, Json>)
    requires Validate(SightingSchema, Some(JObj(m))).Valid?
    ensures CountOk(m)
  {
    FieldChecks(m);
    assert SightingSchema.fields[3] == CountField;
    FieldChecked(SightingSchema, m, CountField);
  }

  lemma ExtraNames()
    ensures Names([IdField, SightingsField]) == {"id", "sightings"}
    ensures Names([OptionalRefField]) == {"fieldObservationId"}
  {
    NamesOfTwo(IdField, SightingsField);
    assert [OptionalRefField][0] == OptionalRefField;
  }

  /** The create request ignores a `created_at` the client sends. */
  lemma CreateObservationIgnoresCreatedAt(m: map<string, Json>)
    ensures Validate(CreateFieldObservationSchema, Some(JObj(m))) ==
              Validate(CreateFieldObservationSchema, Some(JObj(m - {"created_at"})))
    ensures Validate(CreateFieldObservationSchema, Some(JObj(m))).Valid? ==>
              "created_at" !in Validate(CreateFieldObservationSchema, Some(JObj(m))).out.value.members
  {
    ExtraNames();
    OmitLacks(FieldObservationSchema, {"created_at"}, "created_at");
    ExtendLacks(Omit(FieldObservationSchema, {"created_at"}), [IdField, SightingsField], "created_at");
    UndeclaredKeysIgnored(CreateFieldObservationSchema, {"created_at"}, m);
  }

  /** Every field named `id` of the create schema is optional. */
  lemma CreateIdOptional()
    ensures forall f :: f in CreateFieldObservationSchema.fields && f.name == "id" ==> f.schema.Optional?
  {
    ExtraNames();
    forall f | f in CreateFieldObservationSchema.fields && f.name == "id" ensures f.schema.Optional? {
      ExtendOrigin(Omit(FieldObservationSchema, {"created_at"}), [IdField, SightingsField], f);
    }
  }

  /** The client may leave the id out of a create request. */
  lemma CreateObservationIdOptional(m: map<string, Json>)
    requires Validate(CreateFieldObservationSchema, Some(JObj(m))).Valid?
    ensures Validate(CreateFieldObservationSchema, Some(JObj(m - {"id"}))).Valid?
  {
    CreateIdOptional();
    OptionalKeyMayBeDropped(CreateFieldObservationSchema, m, "id");
  }

  /** A field of the observation schema other than `created_at` survives
      into the create schema. */
  lemma CreateKeeps(f: Field)
    requires f in FieldObservationSchema.fields && f.name != "created_at" && f.name !in {"id", "sightings"}
    ensures f in CreateFieldObservationSchema.fields
  {
    OmitKeeps(FieldObservationSchema, {"created_at"}, f);
    ExtraNames();
    ExtendKeeps(Omit(FieldObservationSchema, {"created_at"}), [IdField, SightingsField], f);
  }

  lemma CreateKeepsFields()
    ensures LocationField in CreateFieldObservationSchema.fields
    ensures TypeField in CreateFieldObservationSchema.fields
  {
    var fs := FieldObservationSchema.fields;
    assert fs[2] == TypeField;
    CreateKeeps(TypeField);
    assert fs[4] == LocationField;
    CreateKeeps(LocationField);
  }

  /** Creation still checks the type and the coordinate bounds. */
  lemma CreateObservationChecks(m: map<string, Json>)
    requires Validate(CreateFieldObservationSchema, Some(JObj(m))).Valid?
    ensures EnumOk(m, "type", TypeOptions, false)
    ensures "location" in m && LocationShaped(m["location"])
  {
    FieldChecks(m);
    CreateKeepsFields();
    FieldChecked(CreateFieldObservationSchema, m, TypeField);
    FieldChecked(CreateFieldObservationSchema, m, LocationField);
  }

  lemma NestedNames()
    ensures "id" !in Names(NestedSightingSchema.fields)
    ensures "created_at" !in Names(NestedSightingSchema.fields)
    ensures "fieldObservationId" !in Names(NestedSightingSchema.fields)
  {
    ExtraNames();
    var base := Omit(SightingSchema, {"id", "created_at"});
    OmitLacks(SightingSchema, {"id", "created_at"}, "id");
    OmitLacks(SightingSchema, {"id", "created_at"}, "created_at");
    ExtendLacks(base, [OptionalRefField], "id");
    ExtendLacks(base, [OptionalRefField], "created_at");
    OmitFields(CreateSightingSchema, {"fieldObservationId"});
  }

  /** A nested sighting ignores `id`, `created_at` and `fieldObservationId`. */
  lemma NestedSightingIgnoresIds(m: map<string, Json>)
    ensures Validate(NestedSightingSchema, Some(JObj(m))) ==
              Validate(NestedSightingSchema, Some(JObj(m - {"id", "created_at", "fieldObservationId"})))
  {
    NestedNames();
    UndeclaredKeysIgnored(NestedSightingSchema, {"id", "created_at", "fieldObservationId"}, m);
  }

  lemma NestedKeepsCount()
    ensures CountField in NestedSightingSchema.fields
  {
    ExtraNames();
    assert SightingSchema.fields[3] == CountField;
    var base := Omit(SightingSchema, {"id", "created_at"});
    OmitKeeps(SightingSchema, {"id", "created_at"}, CountField);
    ExtendKeeps(base, [OptionalRefField], CountField);
    OmitKeeps(CreateSightingSchema, {"fieldObservationId"}, CountField);
  }

  /** Nested sightings still check their count. */
  lemma NestedSightingCount(m: map<string, Json>)
    requires Validate(NestedSightingSchema, Some(JObj(m))).Valid?
    ensures CountOk(m)
  {
    FieldChecks(m);
    NestedKeepsCount();
    FieldChecked(NestedSightingSchema, m, CountField);
  }

  /** A standalone sighting request may leave the observation id out. */
  lemma CreateSightingRefOptional(m: map<string, Json>)
    requires Validate(CreateSightingSchema, Some(JObj(m))).Valid?
    ensures Validate(CreateSightingSchema, Some(JObj(m - {"fieldObservationId"}))).Valid?
  {
    ExtraNames();
    forall f | f in CreateSightingSchema.fields && f.name == "fieldObservationId" ensures f.schema.Optional? {
      ExtendOrigin(Omit(SightingSchema, {"id", "created_at"}), [OptionalRefField], f);
    }
    OptionalKeyMayBeDropped(CreateSightingSchema, m, "fieldObservationId");
  }

  /** The empty update is accepted and stays empty: `consent` is not
      defaulted. */
  lemma EmptyUpdateAccepted()
    ensures Validate(UpdateFieldObservationSchema, Some(JObj(map[]))) == Valid(Some(JObj(map[])))
  {
    PartialAcceptsEmpty(CreateFieldObservationSchema);
  }

  /** A location an update does carry is still checked. */
  lemma UpdateChecksPresentLocation(m: map<string, Json>)
    requires Validate(UpdateFieldObservationSchema, Some(JObj(m))).Valid? && "location" in m
    ensures LocationShaped(m["location"])
  {
    FieldChecks(m);
    CreateKeepsFields();
    PartialValidIff(CreateFieldObservationSchema, m);
    assert PresentValid(LocationField, m);
  }
}

=== FILE: field_observations.dfy ===
/** The field observation service over in-memory tables: a transactional
    create of an observation with its sightings, the lookup with sightings,
    the listing by user, the cascade delete and the sighting insert. */
module FieldObservations {
  import opened Wrappers
  import opened Seqs
  import opened Store
  import opened Sightings

  datatype Point = Point(latitude: real, longitude: real)

  /** A create request body. The client's `id` and `user_id` are accepted
      but never stored. `None` in the nullable `weather`, `wind` and
      `season` is `null`; in `temperature`, which is optional but not
      nullable, it is a key the client left out (`undefined`). */
  datatype ObservationInput = ObservationInput(
    id: Option<string>,
    userId: string,
    kind: string,
    time: int,
    location: Point,
    weather: Option<string>,
    temperature: Option<int>,
    wind: Option<string>,
    season: Option<string>,
    consent: Option<bool>,
    sightings: Option<seq<SightingInput>>)

  /** A row of the FieldObservations table */
  datatype Observation = Observation(
    id: string,
    userId: string,
    kind: string,
    time: int,
    location: Point,
    weather: Option<string>,
    temperature: Option<int>,
    wind: Option<string>,
    season: Option<string>,
    consent: bool,
    createdAt: int)

  function IdOf(o: Observation): string { o.id }
  function OwnerOf(o: Observation): string { o.userId }
  function CreatedKey(o: Observation): DescKey { Key(o.createdAt) }

  type ObservationDb = Db<Observation>

  /** What a successful create returns */
  datatype Created = Created(observation: Observation, sightings: seq<Sighting>)

  /** The sightings a request asks for: none when the list is absent */
  function RequestedSightings(input: ObservationInput): seq<SightingInput> {
    if input.sightings.Some? then input.sightings.value else []
  }

  /** The observation row that the first insert stores: the authenticated
      user, the generated id and creation time, and `consent ?? false`. */
  function NewObservation(input: ObservationInput, userId: string, id: string, now: int): (o: Observation)
    ensures o.id == id && o.userId == userId && o.createdAt == now
    ensures o.consent <==> input.consent == Some(true)
    ensures o.kind == input.kind && o.location == input.location && o.temperature == input.temperature
  {
    Observation(id, userId, input.kind, input.time, input.location, input.weather,
                input.temperature, input.wind, input.season, input.consent.GetOr(false), now)
  }

  /** The sighting inserts of the transaction; statement `first + k`
      inserts `inputs[k]`. */
  function InsertAll(t: SightingTable, parent: string, inputs: seq<SightingInput>, now: int,
                     fault: Option<Fault>, first: nat): (r: Result<(SightingTable, seq<Sighting>)>)
    decreases |inputs|
    ensures r.Err? <==> fault.Some? && first <= fault.value.step < first + |inputs|
    ensures r.Ok? ==> r.value.0.rows == t.rows + r.value.1
    ensures r.Ok? ==> |r.value.1| == |inputs|
    ensures r.Ok? ==> forall k :: 0 <= k < |inputs| ==>
                        r.value.1[k].parent == parent && r.value.1[k].data == inputs[k]
    ensures r.Ok? && ValidTable(t) ==> ValidTable(r.value.0)
  {
    if |inputs| == 0 then Ok((t, []))
    else if FailsAt(fault, first) then Err(fault.value.message)
    else
      var (t1, s) := Insert(t, parent, inputs[0], now);
      var rest := InsertAll(t1, parent, inputs[1..], now, fault, first + 1);
      if rest.Err? then Err(rest.message)
      else
        assert rest.value.0.rows == t.rows + ([s] + rest.value.1);
        Ok((rest.value.0, [s] + rest.value.1))
  }

  /** `createFieldObservation`: inside one transaction, insert the
      observation (statement 0), then each requested sighting referencing it
      (statements 1, 2, ...). Any failure rolls everything back. A left-out
      `temperature` is bound as `undefined`, so the first insert fails. */
  function Create(db: ObservationDb, input: ObservationInput, userId: string, freshId: string,
                  now: int, fault: Option<Fault>): (r: (ObservationDb, Result<Created>))
    ensures r.1.Err? ==> r.0 == db
    ensures r.1.Err? <==> input.temperature.None? || HasParent(db, IdOf, freshId)
                          || (fault.Some? && fault.value.step <= |RequestedSightings(input)|)
    ensures input.temperature.None? ==> r.1 == Err(UndefinedValue)
    ensures r.1.Ok? ==> r.0.parents == db.parents + [r.1.value.observation]
    ensures r.1.Ok? ==> r.1.value.observation == NewObservation(input, userId, freshId, now)
    ensures r.1.Ok? ==> |r.1.value.sightings| == |RequestedSightings(input)|
    ensures r.1.Ok? ==> forall k :: 0 <= k < |r.1.value.sightings| ==>
                          r.1.value.sightings[k].parent == freshId
                          && r.1.value.sightings[k].data == RequestedSightings(input)[k]
    ensures r.1.Ok? ==> r.0.sightings.rows == db.sightings.rows + r.1.value.sightings
    ensures r.1.Ok? && ValidTable(db.sightings) ==> ValidTable(r.0.sightings)
  {
    if input.temperature.None? then (db, Err(UndefinedValue))
    else if FailsAt(fault, 0) then (db, Err(fault.value.message))
    else if HasParent(db, IdOf, freshId) then (db, Err(UniqueViolation))
    else
      var observation := NewObservation(input, userId, freshId, now);
      var inserted := InsertAll(db.sightings, freshId, RequestedSightings(input), now, fault, 1);
      if inserted.Err? then (db, Err(inserted.message))
      else
        (Db(db.parents + [observation], inserted.value.0), Ok(Created(observation, inserted.value.1)))
  }

  /** `getFieldObservation`: the observation and exactly its sightings, or
      `null` when no observation has the id. */
  function Get(db: ObservationDb, id: string, fault: Option<string>): (r: Result<Option<Detail<Observation>>>)
    ensures r.Err? <==> fault.Some?
    ensures r.Ok? ==> (r.value.None? <==> forall o :: o in db.parents ==> o.id != id)
    ensures r.Ok? && r.value.Some? ==> r.value.value.parent in db.parents && r.value.value.parent.id == id
    ensures r.Ok? && r.value.Some? ==> forall s :: s in r.value.value.sightings <==> s in db.sightings.rows && s.parent == id
  {
    Lookup(db, IdOf, id, fault)
  }

  /** `getFieldObservationsByUser`: one page of the user's observations,
      newest first, and the count of all of them. */
  function ListByUser(db: ObservationDb, userId: string, page: int, limit: int, fault: Option<string>): (r: Result<Listing<Observation>>)
    ensures r.Ok? <==> fault.None? && (page - 1) * limit >= 0 && limit >= 0
    ensures r.Ok? ==> |r.value.rows| <= limit
    ensures r.Ok? ==> |r.value.rows| == PageLength(r.value.totalCount, (page - 1) * limit, limit)
    ensures r.Ok? ==> forall o :: o in r.value.rows ==> o in db.parents && o.userId == userId
    ensures r.Ok? ==> forall i, j :: 0 <= i < j < |r.value.rows| ==> r.value.rows[i].createdAt >= r.value.rows[j].createdAt
    ensures r.Ok? ==> r.value.totalCount == |Filter(db.parents, OwnedBy(OwnerOf, userId))|
  {
    var r := ListByOwner(db.parents, OwnerOf, CreatedKey, userId, page, limit, fault);
    assert r.Ok? ==> forall i, j :: 0 <= i < j < |r.value.rows| ==> r.value.rows[i].createdAt >= r.value.rows[j].createdAt by {
      if r.Ok? {
        forall i, j | 0 <= i < j < |r.value.rows| ensures r.value.rows[i].createdAt >= r.value.rows[j].createdAt {
          assert KeyGe(CreatedKey(r.value.rows[i]), CreatedKey(r.value.rows[j]));
        }
      }
    }
    r
  }

  /** Which rows a page holds: the user's `k`-th observation, newest first, is
      row `k % limit` of page `k / limit + 1`. */
  lemma ListingPosition(db: ObservationDb, userId: string, limit: int, k: nat) returns (page: int)
    requires limit >= 1 && k < |Filter(db.parents, OwnedBy(OwnerOf, userId))|
    ensures page == k / limit + 1
    ensures ListByUser(db, userId, page, limit, None).Ok?
    ensures k % limit < |ListByUser(db, userId, page, limit, None).value.rows|
    ensures ListByUser(db, userId, page, limit, None).value.rows[k % limit]
            == SortDesc(Filter(db.parents, OwnedBy(OwnerOf, userId)), CreatedKey)[k]
  {
    page := OwnedRowOnPage(db.parents, OwnerOf, CreatedKey, userId, limit, k);
  }

  /** `deleteFieldObservation`: the observation's sightings (statement 0),
      then the observation (statement 1), with no transaction; true exactly
      when an observation row was deleted. */
  function Delete(db: ObservationDb, id: string, fault: Option<Fault>): (r: (ObservationDb, Result<bool>))
    ensures FailsAt(fault, 0) ==> r.0 == db && r.1.Err?
    ensures FailsAt(fault, 1) ==> r.0.parents == db.parents && r.1.Err?
    ensures !FailsAt(fault, 0) ==> forall s :: s in r.0.sightings.rows <==> s in db.sightings.rows && s.parent != id
    ensures r.1.Ok? <==> !FailsAt(fault, 0) && !FailsAt(fault, 1)
    ensures r.1.Ok? ==> (r.1.value <==> exists o :: o in db.parents && o.id == id)
    ensures r.1.Ok? ==> forall o :: o in r.0.parents <==> o in db.parents && o.id != id
  {
    CascadeDelete(db, IdOf, id, fault)
  }

  /** `createSighting`: a sighting referencing the observation in the path. */
  function CreateSighting(db: ObservationDb, id: string, input: SightingInput, now: int, fault: Option<string>): (r: (ObservationDb, Result<Sighting>))
    ensures r.1.Err? ==> r.0 == db
    ensures r.1.Ok? <==> fault.None? && exists o :: o in db.parents && o.id == id
    ensures r.1.Ok? ==> r.1.value.parent == id && r.1.value.data == input
    ensures r.1.Ok? ==> r.0.parents == db.parents && r.0.sightings.rows == db.sightings.rows + [r.1.value]
  {
    AddSighting(db, IdOf, id, input, now, fault)
  }

  /** The inserted sightings become exactly the new observation's sightings;
      every other observation's sightings are unchanged. */
  lemma CreateSightingsOfParent(db: ObservationDb, input: ObservationInput, userId: string, freshId: string,
                                now: int, fault: Option<Fault>, q: string)
    requires Create(db, input, userId, freshId, now, fault).1.Ok?
    ensures var (db', r) := Create(db, input, userId, freshId, now, fault);
            OfParent(db'.sightings, q) == OfParent(db.sightings, q) + (if q == freshId then r.value.sightings else [])
  {
    var (db', r) := Create(db, input, userId, freshId, now, fault);
    FilterAppend(db.sightings.rows, r.value.sightings, ChildOf(q));
    if q == freshId {
      FilterAll(r.value.sightings, ChildOf(q));
    } else {
      FilterNone(r.value.sightings, ChildOf(q));
    }
  }

  /** Creation keeps referential integrity: the new sightings reference the
      observation inserted before them in the same transaction. */
  lemma CreateConsistent(db: ObservationDb, input: ObservationInput, userId: string, freshId: string,
                         now: int, fault: Option<Fault>)
    requires Consistent(db, IdOf)
    ensures Consistent(Create(db, input, userId, freshId, now, fault).0, IdOf)
  {
    var (db', r) := Create(db, input, userId, freshId, now, fault);
    if r.Ok? {
      forall s | s in db'.sightings.rows ensures HasParent(db', IdOf, s.parent) {
        if s in db.sightings.rows {
          var p :| p in db.parents && IdOf(p) == s.parent;
          assert p in db'.parents;
        } else {
          var k :| 0 <= k < |r.value.sightings| && r.value.sightings[k] == s;
          assert r.value.observation in db'.parents;
        }
      }
    }
  }

  /** Reading a just-created observation back gives the stored row and
      exactly the sightings created with it. */
  lemma GetAfterCreate(db: ObservationDb, input: ObservationInput, userId: string, freshId: string,
                       now: int, fault: Option<Fault>)
    requires Consistent(db, IdOf)
    requires Create(db, input, userId, freshId, now, fault).1.Ok?
    ensures var (db', r) := Create(db, input, userId, freshId, now, fault);
            Get(db', freshId, None) == Ok(Some(Detail(r.value.observation, r.value.sightings)))
  {
    var (db', r) := Create(db, input, userId, freshId, now, fault);
    var o := r.value.observation;
    NoSightingsBeforeCreate(db, freshId);
    CreateSightingsOfParent(db, input, userId, freshId, now, fault, freshId);
    assert OfParent(db'.sightings, freshId) == r.value.sightings;
    OnlyNewRowHasId(db.parents, o, freshId);
    assert db'.parents == db.parents + [o];
    assert Filter(db'.parents, HasId(IdOf, freshId)) == [o];
  }

  /** Under referential integrity an id no observation has has no sightings. */
  lemma NoSightingsBeforeCreate(db: ObservationDb, id: string)
    requires Consistent(db, IdOf) && !HasParent(db, IdOf, id)
    ensures OfParent(db.sightings, id) == []
  {
    forall i | 0 <= i < |db.sightings.rows| ensures !ChildOf(id)(db.sightings.rows[i]) {
      assert db.sightings.rows[i] in db.sightings.rows;
    }
    FilterNone(db.sightings.rows, ChildOf(id));
  }

  lemma OnlyNewRowHasId(parents: seq<Observation>, o: Observation, id: string)
    requires forall p :: p in parents ==> p.id != id
    requires o.id == id
    ensures Filter(parents + [o], HasId(IdOf, id)) == [o]
  {
    FilterAppend(parents, [o], HasId(IdOf, id));
    forall i | 0 <= i < |parents| ensures !HasId(IdOf, id)(parents[i]) {
      assert parents[i] in parents;
    }
    FilterNone(parents, HasId(IdOf, id));
    assert IdOf(o) == id;
    assert HasId(IdOf, id)(o);
  }

  /** The `id` and `user_id` a client sends make no difference to what is
      stored. */
  lemma CreateIgnoresClientIds(db: ObservationDb, input: ObservationInput, clientId: Option<string>,
                               clientUser: string, userId: string, freshId: string, now: int, fault: Option<Fault>)
    ensures Create(db, input.(id := clientId, userId := clientUser), userId, freshId, now, fault)
            == Create(db, input, userId, freshId, now, fault)
  {
    var other := input.(id := clientId, userId := clientUser);
    assert RequestedSightings(other) == RequestedSightings(input);
    assert NewObservation(other, userId, freshId, now) == NewObservation(input, userId, freshId, now);
  }
}

=== FILE: http.dfy ===
/** Responses the route handlers return, the bindings they read, the
    shared error responses, and the reading of numeric query parameters. */
module Http {
  import opened Wrappers
  import opened Auth

  /** A response body: `{ data }`, an `{ error, details }` object, the
      middleware's plain text, the validator's rejection, or nothing. */
  datatype Body<T> =
    | Data(data: T)
    | Error(error: string, details: string)
    | Text(text: string)
    | ValidationFailed
    | NoBody

  datatype Response<T> = Response(status: int, body: Body<T>)

  /** The deployment bindings: `HYPERDRIVE.connectionString`,
      `SUPABASE_JWT_SECRET` and `SUPABASE_PROJECT_REF` */
  datatype Env = Env(connection: Option<string>, jwtSecret: Option<string>, projectRef: Option<string>)

  /** What the middleware reads from a request: the `Authorization` header,
      and the verifier it hands the token to */
  datatype Credentials = Credentials(authorization: Option<string>, verify: Verifier)

  /** One run of the bearer-token middleware */
  function Guard(env: Env, cred: Credentials): (o: AuthOutcome)
    ensures cred.authorization.None? ==> o == Rejected(401, "Missing Authorization header")
    ensures o.Rejected? ==> o.status == 401 || o.status == 500
    ensures o.Authenticated? ==> Truthy(cred.authorization) && Truthy(env.jwtSecret)
  {
    Authenticate(cred.authorization, env.jwtSecret, env.projectRef, cred.verify)
  }

  /** Two middleware registrations that both match a path run one after the
      other; the second sees the same header and bindings. */
  function GuardTwice(env: Env, cred: Credentials): (o: AuthOutcome)
    ensures o == Guard(env, cred)
  {
    var first := Guard(env, cred);
    if first.Rejected? then first else Guard(env, cred)
  }

  /** The middleware's early return: its status with a plain-text message */
  function Rejection<T>(outcome: AuthOutcome): (r: Response<T>)
    requires outcome.Rejected?
    ensures r.status == outcome.status && r.body == Text(outcome.message)
  {
    Response(outcome.status, Text(outcome.message))
  }

  /** A verified token without a `sub` claim */
  function Unauthorized<T>(): Response<T> {
    Response(401, Error("Unauthorized", "User not authenticated"))
  }

  /** No database connection string is bound */
  function ConfigurationError<T>(): Response<T> {
    Response(500, Error("Configuration error", "Database connection not configured"))
  }

  /** A service call that threw, with the error's message */
  function ServerError<T>(message: string): Response<T> {
    Response(500, Error("Internal server error", message))
  }

  function NotFound<T>(details: string): Response<T> {
    Response(404, Error("Not found", details))
  }

  /** The validator's rejection of a parameter, query or body */
  function BadRequest<T>(): Response<T> {
    Response(400, ValidationFailed)
  }

  predicate IsDigitChar(c: char) { '0' <= c <= '9' }

  /** The value of a string of decimal digits */
  function DecimalValue(s: string): (n: nat)
    requires forall i :: 0 <= i < |s| ==> IsDigitChar(s[i])
    decreases |s|
  {
    if |s| == 0 then 0
    else
      assert IsDigitChar(s[|s| - 1]);
      DecimalValue(s[..|s| - 1]) * 10 + (s[|s| - 1] as int - '0' as int)
  }

  /** The shortest decimal rendering of a natural number */
  function DecimalString(n: nat): (s: string)
    ensures |s| > 0
    ensures forall i :: 0 <= i < |s| ==> IsDigitChar(s[i])
  {
    var digit := [('0' as int + n % 10) as char];
    if n < 10 then digit else DecimalString(n / 10) + digit
  }

  /** Rendering and reading a number give it back. */
  lemma {:induction false} DecimalRoundTrip(n: nat)
    ensures DecimalValue(DecimalString(n)) == n
  {
    var s := DecimalString(n);
    if n >= 10 {
      DecimalRoundTrip(n / 10);
      assert s[..|s| - 1] == DecimalString(n / 10);
    }
  }

  /** `z.number().default(d)` on a query parameter as written: query values
      are strings, and the schema accepts only numbers, so any value present
      is rejected and only the default ever passes. */
  function QueryNumberAsWritten(raw: Option<string>, default: int): (r: Result<int>)
    ensures r.Ok? <==> raw.None?
    ensures r.Ok? ==> r.value == default
  {
    match raw
    case None => Ok(default)
    case Some(_) => Err("Expected number, received string")
  }

  /** A listing request asking for page 2 is refused by the schema as
      written. */
  lemma ExplicitPageRejected()
    ensures QueryNumberAsWritten(Some("2"), 1).Err?
    ensures QueryNumberAsWritten(None, 1) == Ok(1)
  {
  }

  /** The evidently intended reading, coercing the query string to a
      number: a string of decimal digits gives its value, an absent
      parameter the default, anything else is rejected. */
  function QueryNumber(raw: Option<string>, default: int): (r: Result<int>)
    ensures raw.None? ==> r == Ok(default)
    ensures r.Ok? && raw.Some? ==> r.value >= 0
    ensures raw.Some? ==> (r.Ok? <==> |raw.value| > 0 && forall i :: 0 <= i < |raw.value| ==> IsDigitChar(raw.value[i]))
  {
    match raw
    case None => Ok(default)
    case Some(s) =>
      if |s| > 0 && forall i :: 0 <= i < |s| ==> IsDigitChar(s[i]) then Ok(DecimalValue(s))
      else Err("Expected number, received nan")
  }

  /** Every page number a client writes in decimal reaches the handler. */
  lemma QueryNumberReadsDecimal(n: nat, default: int)
    ensures QueryNumber(Some(DecimalString(n)), default) == Ok(n)
  {
    DecimalRoundTrip(n);
  }
}

=== FILE: pagination.dfy ===
/** Page arithmetic shared by every listing: the `LIMIT`/`OFFSET` window the
    services request and the `pagination` object the routes return. */
module Pagination {
  import opened Wrappers

  function Min(a: int, b: int): int { if a <= b then a else b }
  function Max(a: int, b: int): int { if a >= b then a else b }

  /** `(page - 1) * limit`, the offset every listing service computes */
  function Offset(page: int, limit: int): (offset: int)
    ensures limit >= 0 && page >= 1 ==> offset >= 0
    ensures offset + limit == page * limit
  {
    (page - 1) * limit
  }

  /** `LIMIT limit OFFSET offset` over rows already in result order.
      Postgres refuses a negative OFFSET (checked first) or LIMIT. */
  function Window<T>(rows: seq<T>, offset: int, limit: int): (r: Result<seq<T>>)
    ensures r.Ok? <==> offset >= 0 && limit >= 0
    ensures r.Ok? ==> |r.value| == Min(limit, Max(0, |rows| - offset))
    ensures r.Ok? ==> forall i :: 0 <= i < |r.value| ==> r.value[i] == rows[offset + i]
  {
    if offset < 0 then Err("OFFSET must not be negative")
    else if limit < 0 then Err("LIMIT must not be negative")
    else if offset >= |rows| then Ok([])
    else if |rows| - offset <= limit then Ok(rows[offset..])
    else Ok(rows[offset..offset + limit])
  }

  /** `Math.ceil(n / d)` for a positive divisor */
  function CeilDiv(n: nat, d: int): (q: nat)
    requires d >= 1
    ensures q * d >= n
    ensures (q - 1) * d < n || q == 0
  {
    (n + d - 1) / d
  }

  /** `Math.ceil(totalCount / limit)` as a JSON value: `None` is the
      non-finite number (`Infinity` or `NaN`) that a zero limit produces and
      that JSON serialisation writes as `null`. */
  function TotalPages(totalCount: nat, limit: int): (r: Option<int>)
    ensures r.None? <==> limit == 0
    ensures limit >= 1 ==> r.Some? && r.value >= 0 && r.value * limit >= totalCount
                           && (r.value == 0 || (r.value - 1) * limit < totalCount)
    ensures limit < 0 ==> r.Some? && r.value * limit <= totalCount < (r.value - 1) * limit
  {
    if limit > 0 then Some(CeilDiv(totalCount, limit))
    else if limit == 0 then None
    else
      var q := totalCount / -limit;
      assert q * -limit <= totalCount < (q + 1) * -limit;
      Some(-q)
  }

  /** The `pagination` object of a listing response */
  datatype PageInfo = PageInfo(
    currentPage: int,
    totalPages: Option<int>,
    totalCount: nat,
    hasNextPage: bool,
    hasPrevPage: bool)

  /** A paginated listing: `{data, pagination}` */
  datatype Paged<T> = Paged(data: seq<T>, pagination: PageInfo)

  /** `hasNextPage: page < totalPages`, where a comparison with `NaN` is false
      and every finite page is below `Infinity` */
  function LessThanPages(page: int, totalPages: Option<int>, totalCount: nat): bool {
    match totalPages
    case Some(n) => page < n
    case None => totalCount > 0
  }

  /** The `formatResponse` pagination block */
  function FormatPagination(totalCount: nat, page: int, limit: int): (p: PageInfo)
    ensures p.currentPage == page && p.totalCount == totalCount
    ensures p.hasPrevPage <==> page > 1
    ensures limit >= 1 ==> p.totalPages.Some? && (p.hasNextPage <==> page * limit < totalCount)
    ensures limit == 0 ==> p.totalPages.None? && (p.hasNextPage <==> totalCount > 0)
  {
    var totalPages := TotalPages(totalCount, limit);
    assert limit >= 1 ==> (LessThanPages(page, totalPages, totalCount) <==> page * limit < totalCount) by {
      if limit >= 1 {
        HasNextIffRowsRemain(totalCount, page, limit, totalPages.value);
      }
    }
    PageInfo(page, totalPages, totalCount, LessThanPages(page, totalPages, totalCount), page > 1)
  }

  /** `formatResponse(items, totalCount, {page, limit})` */
  function FormatResponse<T>(items: seq<T>, totalCount: nat, page: int, limit: int): (r: Paged<T>)
    ensures r.data == items
    ensures r.pagination == FormatPagination(totalCount, page, limit)
  {
    Paged(items, FormatPagination(totalCount, page, limit))
  }

  lemma MulMonotone(a: int, b: int, d: int)
    requires a <= b && d >= 0
    ensures a * d <= b * d
  {
  }

  /** With `n` the ceiling of `totalCount / limit`, a page precedes the last
      page exactly when rows remain after it. */
  lemma HasNextIffRowsRemain(totalCount: nat, page: int, limit: int, n: int)
    requires limit >= 1
    requires n >= 0 && n * limit >= totalCount && (n == 0 || (n - 1) * limit < totalCount)
    ensures page < n <==> page * limit < totalCount
  {
    if page < n {
      MulMonotone(page, n - 1, limit);
    } else {
      MulMonotone(n, page, limit);
    }
  }

  /** `hasNextPage` is true exactly when the following page of the same
      listing holds at least one row. */
  lemma HasNextIffNextPageNonEmpty<T>(rows: seq<T>, page: int, limit: int)
    requires limit >= 1 && page >= 0
    ensures var next := Window(rows, Offset(page + 1, limit), limit);
            next.Ok? && (FormatPagination(|rows|, page, limit).hasNextPage <==> |next.value| > 0)
  {
    MulMonotone(0, page, limit);
  }

  /** Row `k` of a listing appears on page `k / limit + 1`, at position
      `k % limit`: walking the pages visits every row. */
  lemma RowOnItsPage<T>(rows: seq<T>, k: int, limit: int)
    requires limit >= 1 && 0 <= k < |rows|
    ensures var w := Window(rows, Offset(k / limit + 1, limit), limit);
            w.Ok? && k % limit < |w.value| && w.value[k % limit] == rows[k]
  {
    var q := k / limit;
    assert q * limit + k % limit == k;
    MulMonotone(0, q, limit);
    assert Offset(q + 1, limit) == q * limit;
  }

  /** A page never holds more than `limit` rows, and each row comes from the
      listing at the page's offset. */
  lemma PageBounded<T>(rows: seq<T>, page: int, limit: int)
    requires page >= 1 && limit >= 0
    ensures var w := Window(rows, Offset(page, limit), limit);
            w.Ok? && |w.value| <= limit
            && (page * limit <= |rows| ==> |w.value| == limit)
  {
    MulMonotone(1, page, limit);
  }
}

=== FILE: project_schemas.dfy ===
/** The project validators and their create/update derivations. */
module ProjectSchemas {
  import opened Wrappers
  import opened Schema

  const IdField := Field("id", Num([IsInt, Positive]))
  const TitleField := Field("title", Str([MaxLen(255)]))
  const ShortField := Field("short_description", Optional(Str([MaxLen(255)])))
  const LongField := Field("long_description", Optional(Str([])))
  const LocationField := Field("location", Optional(Any))

  const ProjectSchema := Obj([IdField, TitleField, ShortField, LongField, LocationField])

  const CreateProjectSchema := Omit(ProjectSchema, {"id"})

  const UpdateProjectSchema := Partial(CreateProjectSchema)

  /** `id` holds a positive integer */
  predicate IdOk(m: map<string, Json>) {
    "id" in m && m["id"].JNum? && IsInteger(m["id"].n) && m["id"].n > 0.0
  }

  /** `title` holds a string of at most 255 UTF-16 code units */
  predicate TitleOk(m: map<string, Json>) {
    "title" in m && m["title"].JStr? && Utf16Length(m["title"].s) <= 255
  }

  /** The descriptions are absent or strings, the short one at most 255
      UTF-16 code units long */
  predicate DescriptionsOk(m: map<string, Json>) {
    && ("short_description" !in m || (m["short_description"].JStr? && Utf16Length(m["short_description"].s) <= 255))
    && ("long_description" !in m || m["long_description"].JStr?)
  }

  lemma FieldChecks(m: map<string, Json>)
    ensures FieldValid(IdField, m) <==> IdOk(m)
    ensures FieldValid(TitleField, m) <==> TitleOk(m)
    ensures FieldValid(ShortField, m) && FieldValid(LongField, m) <==> DescriptionsOk(m)
    ensures FieldValid(LocationField, m)
  {
    if "id" in m { NumChecksTwo(IsInt, Positive, m["id"]); }
    if "title" in m { StrChecksOne(MaxLen(255), m["title"]); }
    if "short_description" in m { StrChecksOne(MaxLen(255), m["short_description"]); }
  }

  /** The fields kept on creation: all but the id */
  lemma KeptFields(m: map<string, Json>)
    ensures (forall f :: f in ProjectSchema.fields && f.name !in {"id"} ==> FieldValid(f, m)) <==>
              FieldValid(TitleField, m) && FieldValid(ShortField, m) && FieldValid(LongField, m)
              && FieldValid(LocationField, m)
  {
    assert forall f :: f in ProjectSchema.fields <==>
             f == IdField || f == TitleField || f == ShortField || f == LongField || f == LocationField;
  }

  /** A project is accepted exactly when its id is a positive integer, its
      title at most 255 UTF-16 code units and its descriptions well typed; the
      location is not checked at all. */
  lemma ProjectAccepts(m: map<string, Json>)
    ensures Validate(ProjectSchema, Some(JObj(m))).Valid? <==> IdOk(m) && TitleOk(m) && DescriptionsOk(m)
  {
    FieldChecks(m);
    ObjectValidIffMembers(ProjectSchema, m);
  }

  /** The limit counts UTF-16 code units: 255 characters of the Basic
      Multilingual Plane pass as a title, 128 emoji (256 units) do not. */
  lemma TitleLimitInCodeUnits(bmp: string, astral: string)
    requires |bmp| == 255 && forall k :: 0 <= k < |bmp| ==> (bmp[k] as int) < 0x1_0000
    requires |astral| == 128 && forall k :: 0 <= k < |astral| ==> (astral[k] as int) >= 0x1_0000
    ensures TitleOk(map["title" := JStr(bmp)])
    ensures !TitleOk(map["title" := JStr(astral)])
  {
    Utf16LengthOfBmp(bmp);
    Utf16LengthOfAstral(astral);
  }

  /** Creation checks everything but the id. */
  lemma CreateProjectAccepts(m: map<string, Json>)
    ensures Validate(CreateProjectSchema, Some(JObj(m))).Valid? <==> TitleOk(m) && DescriptionsOk(m)
  {
    FieldChecks(m);
    KeptFields(m);
    OmitValidIff(ProjectSchema, {"id"}, m);
  }

  /** An id the client sends is neither checked nor kept on creation. */
  lemma CreateProjectIgnoresId(m: map<string, Json>)
    ensures Validate(CreateProjectSchema, Some(JObj(m))) == Validate(CreateProjectSchema, Some(JObj(m - {"id"})))
    ensures Validate(CreateProjectSchema, Some(JObj(m))).Valid? ==>
              "id" !in Validate(CreateProjectSchema, Some(JObj(m))).out.value.members
  {
    OmitIgnoresKeys(ProjectSchema, {"id"}, m);
  }

  lemma CreateFieldsAre()
    ensures forall f :: f in CreateProjectSchema.fields <==>
              f == TitleField || f == ShortField || f == LongField || f == LocationField
  {
    OmitFields(ProjectSchema, {"id"});
  }

  lemma PresentFields(m: map<string, Json>)
    ensures (forall f :: f in CreateProjectSchema.fields ==> PresentValid(f, m)) <==>
              PresentValid(TitleField, m) && PresentValid(ShortField, m) && PresentValid(LongField, m)
              && PresentValid(LocationField, m)
  {
    CreateFieldsAre();
  }

  lemma PresentChecks(m: map<string, Json>)
    ensures PresentValid(TitleField, m) <==> "title" !in m || (m["title"].JStr? && Utf16Length(m["title"].s) <= 255)
    ensures PresentValid(ShortField, m) && PresentValid(LongField, m) <==> DescriptionsOk(m)
    ensures PresentValid(LocationField, m)
  {
    if "title" in m { StrChecksOne(MaxLen(255), m["title"]); }
    if "short_description" in m { StrChecksOne(MaxLen(255), m["short_description"]); }
  }

  /** An update may leave out every field, and a title or description it
      does carry is checked as on creation. */
  lemma UpdateProjectAccepts(m: map<string, Json>)
    ensures Validate(UpdateProjectSchema, Some(JObj(m))).Valid? <==>
              ("title" !in m || (m["title"].JStr? && Utf16Length(m["title"].s) <= 255)) && DescriptionsOk(m)
  {
    PartialValidIff(CreateProjectSchema, m);
    PresentFields(m);
    PresentChecks(m);
  }

  /** The empty update is accepted and stays empty: no field is filled in. */
  lemma EmptyUpdateAccepted()
    ensures Validate(UpdateProjectSchema, Some(JObj(map[]))) == Valid(Some(JObj(map[])))
  {
    PartialAcceptsEmpty(CreateProjectSchema);
  }
}

=== FILE: projects.dfy ===
/** The project service over in-memory Projects, ProjectDevices and Devices
    tables: listing and lookup with linked devices, create, update and
    delete. */
module Projects {
  import opened Wrappers
  import opened Seqs
  import opened Store

  /** A geometry point; `ST_X` is the longitude and `ST_Y` the latitude */
  datatype Point = Point(longitude: real, latitude: real)

  datatype Device = Device(
    id: int,
    typeId: Option<int>,
    name: Option<string>,
    serial: Option<string>,
    notes: Option<string>,
    ip: Option<string>)

  /** A row of the Projects table */
  datatype Project = Project(
    id: int,
    title: Option<string>,
    shortDescription: Option<string>,
    longDescription: Option<string>,
    location: Option<Point>,
    updatedAt: Option<int>)

  /** A row of ProjectDevices linking a project to a device */
  datatype Link = Link(projectId: int, deviceId: int)

  /** The three tables and the serial counter of project ids */
  datatype ProjectDb = ProjectDb(projects: seq<Project>, links: seq<Link>, devices: seq<Device>, nextId: int)

  /** A request value as it reaches a statement: left out (`undefined`),
      `null`, or a value */
  datatype Supplied<T> = Absent | Null | Given(value: T)

  /** The fields a create or update request supplies. The title and the
      descriptions are strings or left out (`None`); the location, which the
      schema accepts as anything, may also be `null`. */
  datatype ProjectInput = ProjectInput(
    title: Option<string>,
    shortDescription: Option<string>,
    longDescription: Option<string>,
    location: Supplied<Point>)

  /** No field is left out, so no parameter of the statement is `undefined` */
  predicate Bindable(data: ProjectInput) {
    data.title.Some? && data.shortDescription.Some? && data.longDescription.Some? && !data.location.Absent?
  }

  /** The location column a supplied location gives: `null` stays `null` */
  function LocationColumn(l: Supplied<Point>): (c: Option<Point>)
    ensures c.Some? <==> l.Given?
    ensures l.Given? ==> c == Some(l.value)
  {
    match l
    case Given(point) => Some(point)
    case _ => None
  }

  /** A project as the reads return it: the row, the coordinates of its
      location and its linked devices, where a link to a missing device
      gives an object of nulls (`None`). */
  datatype ProjectView = ProjectView(
    project: Project,
    longitude: Option<real>,
    latitude: Option<real>,
    devices: seq<Option<Device>>)

  /** Every project id and every link stays below the serial counter */
  ghost predicate Valid(db: ProjectDb) {
    && (forall p :: p in db.projects ==> p.id < db.nextId)
    && (forall l :: l in db.links ==> l.projectId < db.nextId)
  }

  /** `LEFT JOIN "Devices" d ON pd."deviceId" = d.id` */
  function FindDevice(devices: seq<Device>, id: int): (r: Option<Device>)
    ensures r.Some? ==> r.value in devices && r.value.id == id
    ensures r.None? <==> forall d :: d in devices ==> d.id != id
  {
    if |devices| == 0 then None
    else if devices[0].id == id then Some(devices[0])
    else FindDevice(devices[1..], id)
  }

  function LinkOf(projectId: int): Link -> bool {
    (l: Link) => l.projectId == projectId
  }

  function HasProjectId(id: int): Project -> bool {
    (p: Project) => p.id == id
  }

  function LacksProjectId(id: int): Project -> bool {
    (p: Project) => p.id != id
  }

  /** The project's links in table order */
  function LinksOf(db: ProjectDb, projectId: int): (r: seq<Link>)
    ensures forall l :: l in r <==> l in db.links && l.projectId == projectId
  {
    Filter(db.links, LinkOf(projectId))
  }

  function DeviceOfLink(db: ProjectDb): Link -> Option<Device> {
    (l: Link) => FindDevice(db.devices, l.deviceId)
  }

  /** The link's device, through the left join, is `x` */
  function Resolves(db: ProjectDb, x: Option<Device>): Link -> bool {
    MapsTo(DeviceOfLink(db), x)
  }

  /** `devices` is the aggregate of the project's links in some order: one
      entry per link, each entry as often as links resolve to it. The query
      has no `ORDER BY`, so no order is promised. */
  ghost predicate ListsLinkedDevices(db: ProjectDb, projectId: int, devices: seq<Option<Device>>) {
    && |devices| == |LinksOf(db, projectId)|
    && forall x :: multiset(devices)[x] == |Filter(LinksOf(db, projectId), Resolves(db, x))|
  }

  /** The `devices` aggregate: one entry per link of the project, the
      empty list when it has none. The model takes the links in table
      order. */
  function LinkedDevices(db: ProjectDb, projectId: int): (r: seq<Option<Device>>)
    ensures ListsLinkedDevices(db, projectId, r)
  {
    var links := LinksOf(db, projectId);
    forall x ensures multiset(Map(links, DeviceOfLink(db)))[x] == |Filter(links, Resolves(db, x))| {
      MapCount(links, DeviceOfLink(db), x);
    }
    Map(links, DeviceOfLink(db))
  }

  /** The row as the queries return it: longitude and latitude read out of
      the location, and the aggregated devices */
  function View(db: ProjectDb, p: Project): (v: ProjectView)
    ensures v.project == p && v.devices == LinkedDevices(db, p.id)
    ensures v.longitude.Some? <==> p.location.Some?
    ensures p.location.Some? ==> v.longitude == Some(p.location.value.longitude) && v.latitude == Some(p.location.value.latitude)
  {
    match p.location
    case Some(point) => ProjectView(p, Some(point.longitude), Some(point.latitude), LinkedDevices(db, p.id))
    case None => ProjectView(p, None, None, LinkedDevices(db, p.id))
  }

  function ViewFn(db: ProjectDb): Project -> ProjectView {
    (p: Project) => View(db, p)
  }

  /** `getProjects`: every project with its devices, one entry per project.
      The query has no `ORDER BY`, so no order of the projects is promised
      (the model keeps table order). */
  function GetProjects(db: ProjectDb, fault: Option<string>): (r: Result<seq<ProjectView>>)
    ensures r.Err? <==> fault.Some?
    ensures r.Ok? ==> |r.value| == |db.projects|
    ensures r.Ok? ==> forall p :: p in db.projects ==> exists v :: v in r.value && v.project == p
    ensures r.Ok? ==> forall v :: v in r.value ==>
                        v.project in db.projects && ListsLinkedDevices(db, v.project.id, v.devices)
                        && (v.longitude.Some? <==> v.project.location.Some?)
  {
    if fault.Some? then Err(fault.value)
    else
      var views := Map(db.projects, ViewFn(db));
      assert forall p :: p in db.projects ==> exists v :: v in views && v.project == p by {
        forall p | p in db.projects ensures exists v :: v in views && v.project == p {
          var i :| 0 <= i < |db.projects| && db.projects[i] == p;
          assert views[i] in views;
        }
      }
      Ok(views)
  }

  /** `getProjectById`: the project with its devices, or `undefined` */
  function GetProjectById(db: ProjectDb, id: int, fault: Option<string>): (r: Result<Option<ProjectView>>)
    ensures r.Err? <==> fault.Some?
    ensures r.Ok? ==> (r.value.None? <==> forall p :: p in db.projects ==> p.id != id)
    ensures r.Ok? && r.value.Some? ==>
              r.value.value.project in db.projects && r.value.value.project.id == id
              && ListsLinkedDevices(db, id, r.value.value.devices)
  {
    if fault.Some? then Err(fault.value)
    else
      var found := Filter(db.projects, HasProjectId(id));
      FoundIffPresent(db.projects, id);
      if |found| == 0 then Ok(None)
      else
        assert found[0] in found;
        Ok(Some(View(db, found[0])))
  }

  lemma FoundIffPresent(projects: seq<Project>, id: int)
    ensures |Filter(projects, HasProjectId(id))| > 0 <==> exists p :: p in projects && p.id == id
  {
    var found := Filter(projects, HasProjectId(id));
    if exists p :: p in projects && p.id == id {
      var p :| p in projects && p.id == id;
      assert HasProjectId(id)(p);
      assert p in found;
    }
    if |found| > 0 {
      assert found[0] in found;
    }
  }

  /** `createProject`: stores exactly the four supplied fields under the
      next serial id and returns the inserted row. Every field is bound as
      it comes, so a request that leaves one out fails. */
  function CreateProject(db: ProjectDb, data: ProjectInput, fault: Option<string>): (r: (ProjectDb, Result<Project>))
    ensures r.1.Err? <==> !Bindable(data) || fault.Some?
    ensures !Bindable(data) ==> r.1 == Err(UndefinedValue)
    ensures r.1.Err? ==> r.0 == db
    ensures r.1.Ok? ==> r.0 == db.(projects := db.projects + [r.1.value], nextId := db.nextId + 1)
    ensures r.1.Ok? ==> r.1.value.id == db.nextId && r.1.value.updatedAt.None?
    ensures r.1.Ok? ==> r.1.value.title == data.title && r.1.value.shortDescription == data.shortDescription
                        && r.1.value.longDescription == data.longDescription
                        && (r.1.value.location.Some? <==> data.location.Given?)
                        && (data.location.Given? ==> r.1.value.location == Some(data.location.value))
  {
    if !Bindable(data) then (db, Err(UndefinedValue))
    else if fault.Some? then (db, Err(fault.value))
    else
      var p := Project(db.nextId, data.title, data.shortDescription, data.longDescription, LocationColumn(data.location), None);
      (db.(projects := db.projects + [p], nextId := db.nextId + 1), Ok(p))
  }

  /** A row after `UPDATE ... SET title, short_description,
      long_description, location, updated_at = NOW()` */
  function Updated(p: Project, data: ProjectInput, now: int): Project {
    p.(title := data.title, shortDescription := data.shortDescription,
       longDescription := data.longDescription, location := LocationColumn(data.location), updatedAt := Some(now))
  }

  /** `updateProject`: sets all four fields and refreshes `updated_at`;
      `undefined` when no row has the id. Every field is bound as it comes,
      so an update that leaves any field out fails: the statement cannot
      run the partial updates the request schema accepts. */
  function UpdateProject(db: ProjectDb, id: int, data: ProjectInput, now: int, fault: Option<string>): (r: (ProjectDb, Result<Option<Project>>))
    ensures r.1.Err? <==> !Bindable(data) || fault.Some?
    ensures !Bindable(data) ==> r.1 == Err(UndefinedValue)
    ensures r.1.Err? ==> r.0 == db
    ensures r.1.Ok? ==> (r.1.value.None? <==> forall p :: p in db.projects ==> p.id != id)
    ensures r.1.Ok? ==> r.0.links == db.links && r.0.devices == db.devices && r.0.nextId == db.nextId
    ensures r.1.Ok? ==> |r.0.projects| == |db.projects|
    ensures r.1.Ok? ==> forall i :: 0 <= i < |db.projects| ==>
                          r.0.projects[i] == if db.projects[i].id == id then Updated(db.projects[i], data, now) else db.projects[i]
    ensures r.1.Ok? && r.1.value.Some? ==>
              r.1.value.value.id == id && r.1.value.value in r.0.projects
              && r.1.value.value.title == data.title && r.1.value.value.updatedAt == Some(now)
  {
    if !Bindable(data) then (db, Err(UndefinedValue))
    else if fault.Some? then (db, Err(fault.value))
    else
      var projects := Map(db.projects, (p: Project) => if p.id == id then Updated(p, data, now) else p);
      var found := Filter(db.projects, HasProjectId(id));
      FoundIffPresent(db.projects, id);
      if |found| == 0 then
        (db.(projects := projects), Ok(None))
      else
        assert found[0] in found;
        var k :| 0 <= k < |db.projects| && db.projects[k] == found[0];
        assert projects[k] == Updated(found[0], data, now);
        (db.(projects := projects), Ok(Some(Updated(found[0], data, now))))
  }

  /** `deleteProject`: removes the project with the id and returns it, or
      `undefined` when there is none. Links are left in place. */
  function DeleteProject(db: ProjectDb, id: int, fault: Option<string>): (r: (ProjectDb, Result<Option<Project>>))
    ensures r.1.Err? <==> fault.Some?
    ensures r.1.Err? ==> r.0 == db
    ensures r.1.Ok? ==> (r.1.value.None? <==> forall p :: p in db.projects ==> p.id != id)
    ensures r.1.Ok? && r.1.value.Some? ==> r.1.value.value in db.projects && r.1.value.value.id == id
    ensures r.1.Ok? ==> forall p :: p in r.0.projects <==> p in db.projects && p.id != id
    ensures r.1.Ok? ==> r.0.links == db.links && r.0.devices == db.devices && r.0.nextId == db.nextId
  {
    if fault.Some? then (db, Err(fault.value))
    else
      var found := Filter(db.projects, HasProjectId(id));
      FoundIffPresent(db.projects, id);
      var rest := db.(projects := Filter(db.projects, LacksProjectId(id)));
      if |found| == 0 then (rest, Ok(None))
      else
        assert found[0] in found;
        (rest, Ok(Some(found[0])))
  }

  /** A device listed for a project is exactly a device some link of the
      project names. */
  lemma DevicesAreLinked(db: ProjectDb, projectId: int, d: Device)
    ensures Some(d) in LinkedDevices(db, projectId) <==>
              exists l :: l in db.links && l.projectId == projectId && l.deviceId == d.id && d in db.devices
                          && FindDevice(db.devices, d.id) == Some(d)
  {
    var links := LinksOf(db, projectId);
    var devices := LinkedDevices(db, projectId);
    if Some(d) in devices {
      var i :| 0 <= i < |devices| && devices[i] == Some(d);
      assert links[i] in links;
    }
    if exists l :: l in db.links && l.projectId == projectId && l.deviceId == d.id && d in db.devices
                   && FindDevice(db.devices, d.id) == Some(d) {
      var l :| l in db.links && l.projectId == projectId && l.deviceId == d.id && d in db.devices
               && FindDevice(db.devices, d.id) == Some(d);
      assert l in links;
      var i :| 0 <= i < |links| && links[i] == l;
      assert devices[i] == Some(d);
    }
  }

  /** A project without links lists no devices: `[]`, never null. */
  lemma NoLinksNoDevices(db: ProjectDb, projectId: int)
    requires forall l :: l in db.links ==> l.projectId != projectId
    ensures LinkedDevices(db, projectId) == []
  {
    forall i | 0 <= i < |db.links| ensures !LinkOf(projectId)(db.links[i]) {
      assert db.links[i] in db.links;
    }
    FilterNone(db.links, LinkOf(projectId));
  }

  /** Every operation keeps ids and links below the serial counter. */
  lemma OperationsKeepValid(db: ProjectDb, id: int, data: ProjectInput, now: int, fault: Option<string>)
    requires Valid(db)
    ensures Valid(CreateProject(db, data, fault).0)
    ensures Valid(UpdateProject(db, id, data, now, fault).0)
    ensures Valid(DeleteProject(db, id, fault).0)
  {
    var db' := UpdateProject(db, id, data, now, fault).0;
    forall p | p in db'.projects ensures p.id < db'.nextId {
      var i :| 0 <= i < |db'.projects| && db'.projects[i] == p;
      assert db.projects[i] in db.projects;
    }
  }

  /** A new project reads back as stored, with an empty device list. */
  lemma GetAfterCreate(db: ProjectDb, data: ProjectInput, fault: Option<string>)
    requires Valid(db)
    ensures var (db', r) := CreateProject(db, data, fault);
            r.Ok? ==> GetProjectById(db', db.nextId, None) == Ok(Some(View(db', r.value)))
                      && View(db', r.value).devices == []
  {
    var (db', r) := CreateProject(db, data, fault);
    if r.Err? { return; }
    NoLinksNoDevices(db', db.nextId);
    FilterAppend(db.projects, [r.value], HasProjectId(db.nextId));
    forall i | 0 <= i < |db.projects| ensures !HasProjectId(db.nextId)(db.projects[i]) {
      assert db.projects[i] in db.projects;
    }
    FilterNone(db.projects, HasProjectId(db.nextId));
    assert HasProjectId(db.nextId)(r.value);
  }

  /** After a delete the id is gone and an update of it finds nothing (or
      fails, when the update leaves a field out). */
  lemma DeleteThenMissing(db: ProjectDb, id: int, data: ProjectInput, now: int)
    ensures var db' := DeleteProject(db, id, None).0;
            GetProjectById(db', id, None) == Ok(None)
            && UpdateProject(db', id, data, now, None).1 == if Bindable(data) then Ok(None) else Err(UndefinedValue)
  {
    var db' := DeleteProject(db, id, None).0;
    forall p | p in db'.projects ensures p.id != id {
    }
  }
}

=== FILE: schema.dfy ===
/** The request validators: JSON values and the subset of zod object
    schemas the repository uses (strings with refinements, numbers with
    bounds, enums, arrays, objects, `optional`, `nullable`, `default`) with
    the derivations `omit`, `partial`, `extend` and `merge`. */
module Schema {
  import opened Wrappers

  datatype Json =
    | JNull
    | JBool(b: bool)
    | JNum(n: real)
    | JStr(s: string)
    | JArr(items: seq<Json>)
    | JObj(members: map<string, Json>)

  /** String refinements: `.max(n)` (in UTF-16 code units), the date and
      time `.regex` patterns, `.uuid()` and `.datetime()` */
  datatype StrCheck = MaxLen(n: nat) | DateShape | TimeShape | Uuid | Datetime

  /** Number refinements: `.int()`, `.min(b)`, `.max(b)`, `.nonnegative()`,
      `.positive()` */
  datatype NumCheck = IsInt | Min(bound: real) | Max(bound: real) | NonNegative | Positive

  datatype Schema =
    | Str(strChecks: seq<StrCheck>)
    | Num(numChecks: seq<NumCheck>)
    | Bool
    | Enum(options: seq<string>)
    | Date                              // z.coerce.date()
    | Any
    | Arr(element: Schema)
    | Obj(fields: seq<Field>)
    | Optional(inner: Schema)
    | Nullable(inner: Schema)
    | Default(inner: Schema, fallback: Json)

  datatype Field = Field(name: string, schema: Schema)

  /** A step in the path of a validation issue */
  datatype Seg = Key(key: string) | At(index: nat)

  /** `Valid(None)` is a successful parse to `undefined` */
  datatype Parsed = Valid(out: Option<Json>) | Invalid(issues: seq<seq<Seg>>)

  // ---------------------------------------------------------------------
  // Character shapes of the string refinements (`\d` is ASCII 0-9 in a
  // JavaScript regular expression without the `u` flag; `$` without the
  // `m` flag anchors at the very end).

  predicate IsDigit(c: char) { '0' <= c <= '9' }

  predicate IsHex(c: char) { IsDigit(c) || 'a' <= c <= 'f' || 'A' <= c <= 'F' }

  predicate DigitsIn(s: string, lo: int, hi: int)
    requires 0 <= lo <= hi <= |s|
  {
    forall k :: lo <= k < hi ==> IsDigit(s[k])
  }

  /** `/^\d{4}-\d{2}-\d{2}$/` */
  predicate IsDateShaped(s: string) {
    |s| == 10 && DigitsIn(s, 0, 4) && s[4] == '-' && DigitsIn(s, 5, 7) && s[7] == '-'
    && DigitsIn(s, 8, 10)
  }

  /** `/^\d{2}:\d{2}(:\d{2})?$/` */
  predicate IsTimeShaped(s: string) {
    (|s| == 5 || |s| == 8) && DigitsIn(s, 0, 2) && s[2] == ':' && DigitsIn(s, 3, 5)
    && (|s| == 8 ==> s[5] == ':' && DigitsIn(s, 6, 8))
  }

  /** zod's uuid pattern: 8-4-4-4-12 hexadecimal digits, either case */
  predicate IsUuidShaped(s: string) {
    |s| == 36
    && forall k :: 0 <= k < 36 ==>
         if k == 8 || k == 13 || k == 18 || k == 23 then s[k] == '-' else IsHex(s[k])
  }

  /** zod's default datetime pattern (UTC, optional fraction):
      `/^\d{4}-\d{2}-\d{2}T\d{2}:\d{2}:\d{2}(\.\d+)?Z$/` */
  predicate IsDatetimeShaped(s: string) {
    |s| >= 20 && IsDateShaped(s[..10]) && s[10] == 'T'
    && DigitsIn(s, 11, 13) && s[13] == ':' && DigitsIn(s, 14, 16) && s[16] == ':'
    && DigitsIn(s, 17, 19) && s[|s| - 1] == 'Z'
    && (|s| > 20 ==> |s| >= 22 && s[19] == '.' && DigitsIn(s, 20, |s| - 1))
  }

  /** The value of the two digits `s[i]`, `s[i + 1]` */
  function TwoDigits(s: string, i: nat): int
    requires i + 2 <= |s|
  {
    (s[i] as int - '0' as int) * 10 + (s[i + 1] as int - '0' as int)
  }

  /** `YYYY`, `YYYY-MM` or `YYYY-MM-DD`, the month 01-12 and the day 01-31 */
  predicate IsIsoDate(s: string) {
    && (|s| == 4 || |s| == 7 || |s| == 10) && DigitsIn(s, 0, 4)
    && (|s| >= 7 ==> s[4] == '-' && DigitsIn(s, 5, 7) && 1 <= TwoDigits(s, 5) <= 12)
    && (|s| == 10 ==> s[7] == '-' && DigitsIn(s, 8, 10) && 1 <= TwoDigits(s, 8) <= 31)
  }

  /** `HH:mm`, `HH:mm:ss` or `HH:mm:ss.sss`; the hour 24 only with every
      later digit zero */
  predicate IsIsoTime(s: string) {
    && (|s| == 5 || |s| == 8 || |s| == 12)
    && DigitsIn(s, 0, 2) && s[2] == ':' && DigitsIn(s, 3, 5) && TwoDigits(s, 3) <= 59
    && (|s| >= 8 ==> s[5] == ':' && DigitsIn(s, 6, 8) && TwoDigits(s, 6) <= 59)
    && (|s| == 12 ==> s[8] == '.' && DigitsIn(s, 9, 12))
    && (TwoDigits(s, 0) <= 23 || (TwoDigits(s, 0) == 24 && forall k :: 3 <= k < |s| && IsDigit(s[k]) ==> s[k] == '0'))
  }

  /** `Z`, `+HH:mm` or `-HH:mm` */
  predicate IsIsoOffset(s: string) {
    || s == "Z"
    || (&& |s| == 6 && (s[0] == '+' || s[0] == '-') && DigitsIn(s, 1, 3) && s[3] == ':' && DigitsIn(s, 4, 6)
        && TwoDigits(s, 1) <= 23 && TwoDigits(s, 4) <= 59)
  }

  /** A date of `d` characters, `T`, a time of `t` characters, and an
      optional offset */
  predicate DateTimeAt(s: string, d: nat, t: nat) {
    && d + 1 + t <= |s| && IsIsoDate(s[..d]) && s[d] == 'T' && IsIsoTime(s[d + 1..d + 1 + t])
    && (d + 1 + t == |s| || IsIsoOffset(s[d + 1 + t..]))
  }

  /** The Date Time String Format of section 21.4.1.32 of ECMA-262, with a
      four-digit year: a date alone, or a date, `T`, a time and an optional
      offset */
  predicate IsDateTimeString(s: string) {
    IsIsoDate(s) || exists d: nat, t: nat | d < |s| && t < |s| :: DateTimeAt(s, d, t)
  }

  /** Every date text the parser reads opens with a four-digit year. */
  lemma YearFirst(s: string)
    requires IsDateTimeString(s)
    ensures |s| >= 4 && DigitsIn(s, 0, 4)
  {
    if !IsIsoDate(s) {
      var d: nat, t: nat :| d < |s| && t < |s| && DateTimeAt(s, d, t);
      assert IsIsoDate(s[..d]);
      forall k | 0 <= k < 4 ensures IsDigit(s[k]) {
        assert s[..d][k] == s[k];
      }
    }
  }

  /** The largest time value a `Date` holds, in milliseconds either side of
      the epoch (section 21.4.1.31 of ECMA-262) */
  const MaxTimeValue: real := 8640000000000000.0

  /** `new Date(v)` is a valid date: `null` is the epoch, a boolean the
      millisecond 0 or 1, a number a time value within range, and a string
      one the date parser reads. `undefined`, and arrays and objects, whose
      text is not a date, are not. */
  function CoercesToDate(v: Option<Json>): (ok: bool)
    ensures v.None? ==> !ok
    ensures v.Some? && (v.value.JNull? || v.value.JBool?) ==> ok
    ensures v.Some? && (v.value.JArr? || v.value.JObj?) ==> !ok
    ensures v.Some? && v.value.JNum? && ok ==> -MaxTimeValue <= v.value.n <= MaxTimeValue
    ensures v.Some? && v.value.JStr? && ok ==> |v.value.s| >= 4 && DigitsIn(v.value.s, 0, 4)
  {
    v.Some? &&
    match v.value
    case JNull => true
    case JBool(_) => true
    case JNum(n) => -MaxTimeValue <= n <= MaxTimeValue
    case JStr(text) => if IsDateTimeString(text) then YearFirst(text); true else false
    case _ => false
  }

  /** The `length` of a JavaScript string: UTF-16 code units, two for a
      character beyond the Basic Multilingual Plane */
  function Utf16Length(s: string): (n: nat)
    ensures |s| <= n <= 2 * |s|
  {
    if |s| == 0 then 0
    else (if s[0] as int >= 0x1_0000 then 2 else 1) + Utf16Length(s[1..])
  }

  /** Within the Basic Multilingual Plane the length is the character count. */
  lemma {:induction false} Utf16LengthOfBmp(s: string)
    requires forall k :: 0 <= k < |s| ==> (s[k] as int) < 0x1_0000
    ensures Utf16Length(s) == |s|
  {
    if |s| > 0 {
      Utf16LengthOfBmp(s[1..]);
    }
  }

  /** Each character beyond the Basic Multilingual Plane counts twice. */
  lemma {:induction false} Utf16LengthOfAstral(s: string)
    requires forall k :: 0 <= k < |s| ==> (s[k] as int) >= 0x1_0000
    ensures Utf16Length(s) == 2 * |s|
  {
    if |s| > 0 {
      Utf16LengthOfAstral(s[1..]);
    }
  }

  predicate StrCheckHolds(c: StrCheck, s: string) {
    match c
    case MaxLen(n) => Utf16Length(s) <= n
    case DateShape => IsDateShaped(s)
    case TimeShape => IsTimeShaped(s)
    case Uuid => IsUuidShaped(s)
    case Datetime => IsDatetimeShaped(s)
  }

  predicate IsInteger(n: real) { n == n.Floor as real }

  predicate NumCheckHolds(c: NumCheck, n: real) {
    match c
    case IsInt => IsInteger(n)
    case Min(b) => n >= b
    case Max(b) => n <= b
    case NonNegative => n >= 0.0
    case Positive => n > 0.0
  }

  /** `input[key]`, `undefined` when the key is absent */
  function Lookup(m: map<string, Json>, key: string): Option<Json> {
    if key in m then Some(m[key]) else None
  }

  function IssuesOf(p: Parsed): seq<seq<Seg>> {
    if p.Invalid? then p.issues else []
  }

  function Prefixed(seg: Seg, issues: seq<seq<Seg>>): (r: seq<seq<Seg>>)
    ensures |r| == |issues|
  {
    seq(|issues|, i requires 0 <= i < |issues| => [seg] + issues[i])
  }

  /** `schema.safeParse(value)` where `None` is `undefined`. A schema that
      is not optional, nullable, defaulted or `any` refuses `undefined`; a
      scalar schema passes the value on unchanged; an enum admits only its
      options; arrays and objects admit only arrays and objects. */
  function Validate(s: Schema, v: Option<Json>): (r: Parsed)
    ensures v.None? && (s.Str? || s.Num? || s.Bool? || s.Enum? || s.Date? || s.Arr? || s.Obj?) ==> r.Invalid?
    ensures (s.Str? || s.Num? || s.Bool? || s.Enum? || s.Date? || s.Any?) && r.Valid? ==> r.out == v
    ensures s.Enum? && r.Valid? ==> v.Some? && v.value.JStr? && v.value.s in s.options
    ensures s.Arr? && r.Valid? ==> v.Some? && v.value.JArr?
    ensures s.Obj? && r.Valid? ==> r.out.Some? && r.out.value.JObj?
    ensures s.Obj? && r.Valid? ==> v.Some? && v.value.JObj?
    decreases s
  {
    match s
    case Optional(inner) => if v.None? then Valid(None) else Validate(inner, v)
    case Nullable(inner) => if v == Some(JNull) then Valid(v) else Validate(inner, v)
    case Default(inner, d) => Validate(inner, if v.None? then Some(d) else v)
    case Any => Valid(v)
    case Str(cs) =>
      if v.Some? && v.value.JStr? && forall k :: 0 <= k < |cs| ==> StrCheckHolds(cs[k], v.value.s)
      then Valid(v) else Invalid([[]])
    case Num(cs) =>
      if v.Some? && v.value.JNum? && forall k :: 0 <= k < |cs| ==> NumCheckHolds(cs[k], v.value.n)
      then Valid(v) else Invalid([[]])
    case Bool => if v.Some? && v.value.JBool? then Valid(v) else Invalid([[]])
    case Enum(opts) =>
      if v.Some? && v.value.JStr? && v.value.s in opts then Valid(v) else Invalid([[]])
    case Date => if CoercesToDate(v) then Valid(v) else Invalid([[]])
    case Arr(_) =>
      if v.Some? && v.value.JArr? then ValidateItems(s, v.value.items, 0) else Invalid([[]])
    case Obj(_) =>
      if v.Some? && v.value.JObj? then ValidateFields(s, v.value.members, 0) else Invalid([[]])
  }

  /** The elements `items[i..]` of an array */
  function ValidateItems(s: Schema, items: seq<Json>, i: nat): (r: Parsed)
    requires s.Arr? && i <= |items|
    ensures r.Valid? ==> r.out.Some? && r.out.value.JArr?
    decreases s, |items| - i
  {
    if i == |items| then Valid(Some(JArr([])))
    else
      var head := Validate(s.element, Some(items[i]));
      var rest := ValidateItems(s, items, i + 1);
      if head.Valid? && rest.Valid? then
        Valid(Some(JArr((if head.out.Some? then [head.out.value] else [JNull]) + rest.out.value.items)))
      else Invalid(Prefixed(At(i), IssuesOf(head)) + IssuesOf(rest))
  }

  /** The fields `s.fields[i..]` of an object: each declared key is parsed
      from the input, undeclared keys are dropped, and a key whose parse is
      `undefined` is left out of the output. */
  function ValidateFields(s: Schema, m: map<string, Json>, i: nat): (r: Parsed)
    requires s.Obj? && i <= |s.fields|
    ensures r.Valid? ==> r.out.Some? && r.out.value.JObj?
    decreases s, |s.fields| - i
  {
    if i == |s.fields| then Valid(Some(JObj(map[])))
    else
      var f := s.fields[i];
      var head := Validate(f.schema, Lookup(m, f.name));
      var rest := ValidateFields(s, m, i + 1);
      if head.Valid? && rest.Valid? then
        var tail := rest.out.value.members;
        Valid(Some(JObj(if head.out.Some? then tail[f.name := head.out.value] else tail)))
      else Invalid(Prefixed(Key(f.name), IssuesOf(head)) + IssuesOf(rest))
  }

  // ---------------------------------------------------------------------
  // Derivations

  function Names(fields: seq<Field>): (r: set<string>)
    ensures forall f :: f in fields ==> f.name in r
    ensures forall n :: n in r ==> exists f :: f in fields && f.name == n
  {
    set f | f in fields :: f.name
  }

  /** No other field shares the name of field `k` */
  predicate UniqueAt(fields: seq<Field>, k: nat) {
    k < |fields| && forall j :: 0 <= j < |fields| && j != k ==> fields[j].name != fields[k].name
  }

  predicate DistinctNames(fields: seq<Field>) {
    forall i, j :: 0 <= i < j < |fields| ==> fields[i].name != fields[j].name
  }

  function DropNamed(fields: seq<Field>, keys: set<string>): seq<Field> {
    if |fields| == 0 then []
    else if fields[0].name in keys then DropNamed(fields[1..], keys)
    else [fields[0]] + DropNamed(fields[1..], keys)
  }

  lemma {:induction false} DropNamedMembers(fields: seq<Field>, keys: set<string>)
    ensures forall f :: f in DropNamed(fields, keys) <==> f in fields && f.name !in keys
  {
    if |fields| > 0 {
      DropNamedMembers(fields[1..], keys);
      assert fields == [fields[0]] + fields[1..];
    }
  }

  /** `.omit({k: true, ...})` */
  function Omit(s: Schema, keys: set<string>): (r: Schema)
    requires s.Obj?
    ensures r.Obj?
  {
    Obj(DropNamed(s.fields, keys))
  }

  /** The omitted schema keeps exactly the fields whose names were not
      listed, so it declares none of the listed keys. */
  lemma OmitFields(s: Schema, keys: set<string>)
    requires s.Obj?
    ensures forall f :: f in Omit(s, keys).fields <==> f in s.fields && f.name !in keys
    ensures Names(Omit(s, keys).fields) == Names(s.fields) - keys
  {
    DropNamedMembers(s.fields, keys);
  }

  lemma OmitKeeps(s: Schema, keys: set<string>, f: Field)
    requires s.Obj? && f in s.fields && f.name !in keys
    ensures f in Omit(s, keys).fields
  {
    OmitFields(s, keys);
  }

  lemma OmitLacks(s: Schema, keys: set<string>, n: string)
    requires s.Obj? && n in keys
    ensures n !in Names(Omit(s, keys).fields)
  {
    OmitFields(s, keys);
  }

  /** `.partial()`: every declared field wrapped in `optional` */
  function Partial(s: Schema): (r: Schema)
    requires s.Obj?
    ensures r.Obj? && |r.fields| == |s.fields|
    ensures forall i :: 0 <= i < |s.fields| ==>
              r.fields[i] == Field(s.fields[i].name, Optional(s.fields[i].schema))
  {
    Obj(seq(|s.fields|, i requires 0 <= i < |s.fields| =>
          Field(s.fields[i].name, Optional(s.fields[i].schema))))
  }

  /** One key of a spread `{...shape, [e.name]: e}`: an existing key keeps its
      position and takes the new schema, a new key is appended. */
  function OverrideOne(fields: seq<Field>, e: Field): seq<Field> {
    if e.name in Names(fields) then
      seq(|fields|, i requires 0 <= i < |fields| => if fields[i].name == e.name then e else fields[i])
    else
      fields + [e]
  }

  lemma OverrideOneFields(fields: seq<Field>, e: Field)
    ensures var r := OverrideOne(fields, e);
            && Names(r) == Names(fields) + {e.name}
            && e in r
            && (forall g :: g in r ==> g == e || (g in fields && g.name != e.name))
            && (forall f :: f in fields && f.name != e.name ==> f in r)
            && (e.name !in Names(fields) ==> r == fields + [e])
            && (DistinctNames(fields) ==> DistinctNames(r))
  {
    var r := OverrideOne(fields, e);
    if e.name in Names(fields) {
      forall g | g in r ensures g == e || (g in fields && g.name != e.name) {
        var i :| 0 <= i < |r| && r[i] == g;
      }
      forall f | f in fields && f.name != e.name ensures f in r {
        var i :| 0 <= i < |fields| && fields[i] == f;
        assert r[i] == f;
      }
      var f :| f in fields && f.name == e.name;
      var i :| 0 <= i < |fields| && fields[i] == f;
      assert r[i] == e;
      forall n | n in Names(fields) ensures n in Names(r) {
        var g :| g in fields && g.name == n;
        if n != e.name { assert g in r; }
      }
    }
  }

  function OverrideAll(fields: seq<Field>, extra: seq<Field>): seq<Field>
    decreases |extra|
  {
    if |extra| == 0 then fields
    else OverrideAll(OverrideOne(fields, extra[0]), extra[1..])
  }

  lemma NamesCons(fields: seq<Field>)
    requires |fields| > 0
    ensures Names(fields) == {fields[0].name} + Names(fields[1..])
  {
    assert fields == [fields[0]] + fields[1..];
  }

  lemma {:induction false} OverrideAllNames(fields: seq<Field>, extra: seq<Field>)
    ensures Names(OverrideAll(fields, extra)) == Names(fields) + Names(extra)
    decreases |extra|
  {
    if |extra| > 0 {
      NamesCons(extra);
      OverrideOneFields(fields, extra[0]);
      OverrideAllNames(OverrideOne(fields, extra[0]), extra[1..]);
    }
  }

  lemma {:induction false} OverrideAllDistinct(fields: seq<Field>, extra: seq<Field>)
    requires DistinctNames(fields)
    ensures DistinctNames(OverrideAll(fields, extra))
    decreases |extra|
  {
    if |extra| > 0 {
      OverrideOneFields(fields, extra[0]);
      OverrideAllDistinct(OverrideOne(fields, extra[0]), extra[1..]);
    }
  }

  lemma {:induction false} OverrideAllKeeps(fields: seq<Field>, extra: seq<Field>)
    ensures forall f :: f in fields && f.name !in Names(extra) ==> f in OverrideAll(fields, extra)
    decreases |extra|
  {
    if |extra| > 0 {
      NamesCons(extra);
      OverrideOneFields(fields, extra[0]);
      OverrideAllKeeps(OverrideOne(fields, extra[0]), extra[1..]);
    }
  }

  lemma {:induction false} OverrideAllFrom(fields: seq<Field>, extra: seq<Field>)
    ensures forall g :: g in OverrideAll(fields, extra) ==> g in extra || (g in fields && g.name !in Names(extra))
    decreases |extra|
  {
    if |extra| > 0 {
      NamesCons(extra);
      OverrideOneFields(fields, extra[0]);
      OverrideAllFrom(OverrideOne(fields, extra[0]), extra[1..]);
      assert forall g :: g in extra[1..] ==> g in extra;
    }
  }

  /** Spreading `extra` over `fields`: the keys are the union, a field
      keeps its place unless `extra` names it, and every field of the
      result comes from `extra` or is an unnamed original. */
  lemma OverrideAllFields(fields: seq<Field>, extra: seq<Field>)
    ensures var r := OverrideAll(fields, extra);
            && Names(r) == Names(fields) + Names(extra)
            && (DistinctNames(fields) ==> DistinctNames(r))
            && (forall f :: f in fields && f.name !in Names(extra) ==> f in r)
            && (forall g :: g in r ==> g in extra || (g in fields && g.name !in Names(extra)))
  {
    OverrideAllNames(fields, extra);
    if DistinctNames(fields) {
      OverrideAllDistinct(fields, extra);
    }
    OverrideAllKeeps(fields, extra);
    OverrideAllFrom(fields, extra);
  }

  lemma DistinctTail(fields: seq<Field>)
    requires |fields| > 0 && DistinctNames(fields)
    ensures DistinctNames(fields[1..])
    ensures fields[0].name !in Names(fields[1..])
  {
    var t := fields[1..];
    forall i, j | 0 <= i < j < |t| ensures t[i].name != t[j].name {
      assert t[i] == fields[i + 1] && t[j] == fields[j + 1];
    }
  }

  lemma AppendCons<T>(a: seq<T>, b: seq<T>)
    requires |b| > 0
    ensures (a + [b[0]]) + b[1..] == a + b
  {
  }

  /** Extending with keys that are all new appends them in order. */
  lemma {:induction false} OverrideAllDisjoint(fields: seq<Field>, extra: seq<Field>)
    requires Names(fields) !! Names(extra) && DistinctNames(extra)
    ensures OverrideAll(fields, extra) == fields + extra
    decreases |extra|
  {
    if |extra| > 0 {
      NamesCons(extra);
      DistinctTail(extra);
      OverrideOneFields(fields, extra[0]);
      var once := OverrideOne(fields, extra[0]);
      assert once == fields + [extra[0]];
      OverrideAllDisjoint(once, extra[1..]);
      AppendCons(fields, extra);
    }
  }

  /** `.extend({...})` */
  function Extend(s: Schema, extra: seq<Field>): (r: Schema)
    requires s.Obj?
    ensures r.Obj?
  {
    Obj(OverrideAll(s.fields, extra))
  }

  lemma ExtendFields(s: Schema, extra: seq<Field>)
    requires s.Obj?
    ensures var r := Extend(s, extra).fields;
            && Names(r) == Names(s.fields) + Names(extra)
            && (forall f :: f in s.fields && f.name !in Names(extra) ==> f in r)
            && (forall g :: g in r ==> g in extra || (g in s.fields && g.name !in Names(extra)))
  {
    OverrideAllFields(s.fields, extra);
  }

  lemma ExtendKeeps(s: Schema, extra: seq<Field>, f: Field)
    requires s.Obj? && f in s.fields && f.name !in Names(extra)
    ensures f in Extend(s, extra).fields
  {
    ExtendFields(s, extra);
  }

  lemma ExtendLacks(s: Schema, extra: seq<Field>, n: string)
    requires s.Obj? && n !in Names(s.fields) && n !in Names(extra)
    ensures n !in Names(Extend(s, extra).fields)
  {
    ExtendFields(s, extra);
  }

  lemma ExtendOrigin(s: Schema, extra: seq<Field>, g: Field)
    requires s.Obj? && g in Extend(s, extra).fields
    ensures g in extra || (g in s.fields && g.name !in Names(extra))
  {
    ExtendFields(s, extra);
  }

  /** `a.merge(b)`: the keys of `b` override those of `a` */
  function Merge(a: Schema, b: Schema): (r: Schema)
    requires a.Obj? && b.Obj?
    ensures r.Obj?
  {
    Extend(a, b.fields)
  }

  lemma NamesOfTwo(f: Field, g: Field)
    ensures Names([f, g]) == {f.name, g.name}
  {
    assert [f, g][0] == f && [f, g][1] == g;
  }

  /** `z.coerce.date()` accepts `null` and a number of milliseconds in
      range, and refuses `undefined`, one beyond the range, and an array. */
  lemma DateCoercesValues()
    ensures Validate(Date, Some(JNull)).Valid?
    ensures Validate(Date, Some(JBool(true))).Valid?
    ensures Validate(Date, Some(JNum(0.0))).Valid? && Validate(Date, Some(JNum(MaxTimeValue + 1.0))).Invalid?
    ensures Validate(Date, None).Invalid?
    ensures Validate(Date, Some(JArr([]))).Invalid?
  {
  }

  /** An ISO date is accepted. */
  lemma DateAcceptsIsoDate()
    ensures Validate(Date, Some(JStr("2024-03-15"))).Valid?
  {
  }

  /** An ISO date-time in UTC is accepted. */
  lemma DateAcceptsIsoDateTime()
    ensures Validate(Date, Some(JStr("2024-03-15T08:30:00.000Z"))).Valid?
  {
    var full := "2024-03-15T08:30:00.000Z";
    IsoDateExample(full[..10]);
    IsoTimeExample(full[11..23]);
    assert full[23..] == "Z";
    assert DateTimeAt(full, 10, 12);
  }

  lemma IsoDateExample(s: string)
    requires s == "2024-03-15"
    ensures IsIsoDate(s)
  {
    assert TwoDigits(s, 5) == 3 && TwoDigits(s, 8) == 15;
  }

  lemma IsoTimeExample(s: string)
    requires s == "08:30:00.000"
    ensures IsIsoTime(s)
  {
    assert TwoDigits(s, 0) == 8 && TwoDigits(s, 3) == 30 && TwoDigits(s, 6) == 0;
  }

  /** An ISO date-time with an offset is accepted. */
  lemma DateAcceptsOffset()
    ensures Validate(Date, Some(JStr("2024-03-15T08:30+02:00"))).Valid?
  {
    var offset := "2024-03-15T08:30+02:00";
    IsoDateExample(offset[..10]);
    assert offset[11..16] == "08:30";
    assert offset[16..] == "+02:00";
    assert DateTimeAt(offset, 10, 5);
  }

  /** Text that is not a date is refused. */
  lemma DateRejectsText()
    ensures Validate(Date, Some(JStr("abc"))).Invalid?
  {
  }

  /** A month or an hour out of range is refused. */
  lemma DateRejectsOutOfRange()
    ensures Validate(Date, Some(JStr("2024-13-15"))).Invalid?
    ensures Validate(Date, Some(JStr("2024-03-15T25:00"))).Invalid?
  {
    forall d: nat, t: nat ensures !DateTimeAt("2024-03-15T25:00", d, t) {
      LateHourNotDateTime(d, t);
    }
    forall d: nat, t: nat ensures !DateTimeAt("2024-13-15", d, t) {
      NoTimeNotDateTime("2024-13-15", d, t);
    }
    assert TwoDigits("2024-13-15", 5) == 13;
  }

  /** The only split of `2024-03-15T25:00` into a date and a time puts
      the hour 25 in the time. */
  lemma LateHourNotDateTime(d: nat, t: nat)
    ensures !DateTimeAt("2024-03-15T25:00", d, t)
  {
    var s := "2024-03-15T25:00";
    if d == 10 && t == 5 {
      assert s[11..16] == "25:00";
      assert TwoDigits(s[11..16], 0) == 25;
    } else if d == 10 {
      assert !(t == 5 || t == 8 || t == 12) || d + 1 + t > |s|;
    } else {
      assert d < |s| ==> s[d] != 'T';
    }
  }

  /** Text without a `T` is no date-time. */
  lemma NoTimeNotDateTime(s: string, d: nat, t: nat)
    requires forall k :: 0 <= k < |s| ==> s[k] != 'T'
    ensures !DateTimeAt(s, d, t)
  {
  }

  lemma NumChecksOne(c: NumCheck, v: Json)
    ensures Validate(Num([c]), Some(v)).Valid? <==> v.JNum? && NumCheckHolds(c, v.n)
  {
    if v.JNum? {
      var cs := [c];
      assert cs[0] == c;
      assert (forall k :: 0 <= k < 1 ==> NumCheckHolds(cs[k], v.n)) <==> NumCheckHolds(cs[0], v.n);
    }
  }

  lemma NumChecksTwo(c1: NumCheck, c2: NumCheck, v: Json)
    ensures Validate(Num([c1, c2]), Some(v)).Valid? <==>
              v.JNum? && NumCheckHolds(c1, v.n) && NumCheckHolds(c2, v.n)
  {
    if v.JNum? {
      var cs := [c1, c2];
      assert (forall k :: 0 <= k < 2 ==> NumCheckHolds(cs[k], v.n))
             <==> NumCheckHolds(cs[0], v.n) && NumCheckHolds(cs[1], v.n);
    }
  }

  lemma StrChecksOne(c: StrCheck, v: Json)
    ensures Validate(Str([c]), Some(v)).Valid? <==> v.JStr? && StrCheckHolds(c, v.s)
  {
    if v.JStr? {
      var cs := [c];
      assert cs[0] == c;
      assert (forall k :: 0 <= k < 1 ==> StrCheckHolds(cs[k], v.s)) <==> StrCheckHolds(cs[0], v.s);
    }
  }

  // ---------------------------------------------------------------------
  // Properties of object validation

  /** A two-field object is accepted exactly when both fields are. */
  lemma TwoFieldsValidIff(s: Schema, m: map<string, Json>)
    requires s.Obj? && |s.fields| == 2
    ensures Validate(s, Some(JObj(m))).Valid? <==>
              Validate(s.fields[0].schema, Lookup(m, s.fields[0].name)).Valid?
              && Validate(s.fields[1].schema, Lookup(m, s.fields[1].name)).Valid?
  {
    ObjectValidIff(s, m);
  }

  /** An object is accepted exactly when every declared field is accepted. */
  lemma {:induction false} FieldsValidIff(s: Schema, m: map<string, Json>, i: nat)
    requires s.Obj? && i <= |s.fields|
    ensures ValidateFields(s, m, i).Valid? <==>
              forall k :: i <= k < |s.fields| ==> Validate(s.fields[k].schema, Lookup(m, s.fields[k].name)).Valid?
    decreases |s.fields| - i
  {
    if i < |s.fields| {
      FieldsValidIff(s, m, i + 1);
    }
  }

  lemma ObjectValidIff(s: Schema, m: map<string, Json>)
    requires s.Obj?
    ensures Validate(s, Some(JObj(m))).Valid? <==>
              forall k :: 0 <= k < |s.fields| ==> Validate(s.fields[k].schema, Lookup(m, s.fields[k].name)).Valid?
  {
    FieldsValidIff(s, m, 0);
  }

  /** The field `f` accepts what the input holds under its name */
  predicate FieldValid(f: Field, m: map<string, Json>) {
    Validate(f.schema, Lookup(m, f.name)).Valid?
  }

  /** The field `f` accepts the input's value under its name, if any */
  predicate PresentValid(f: Field, m: map<string, Json>) {
    f.name in m ==> Validate(f.schema, Some(m[f.name])).Valid?
  }

  lemma ObjectValidIffMembers(s: Schema, m: map<string, Json>)
    requires s.Obj?
    ensures Validate(s, Some(JObj(m))).Valid? <==> forall f :: f in s.fields ==> FieldValid(f, m)
  {
    ObjectValidIff(s, m);
    if forall f :: f in s.fields ==> FieldValid(f, m) {
      forall k | 0 <= k < |s.fields| ensures FieldValid(s.fields[k], m) {
        assert s.fields[k] in s.fields;
      }
    }
  }

  /** The derived schema checks exactly the fields that were kept. */
  lemma OmitValidIff(s: Schema, keys: set<string>, m: map<string, Json>)
    requires s.Obj?
    ensures Validate(Omit(s, keys), Some(JObj(m))).Valid? <==>
              forall f :: f in s.fields && f.name !in keys ==> FieldValid(f, m)
  {
    OmitFields(s, keys);
    ObjectValidIffMembers(Omit(s, keys), m);
  }

  /** Undeclared keys are stripped: every output key is a declared field. */
  lemma {:induction false} FieldsOutputKeys(s: Schema, m: map<string, Json>, i: nat)
    requires s.Obj? && i <= |s.fields|
    requires ValidateFields(s, m, i).Valid?
    ensures forall key :: key in ValidateFields(s, m, i).out.value.members ==>
              exists k :: i <= k < |s.fields| && s.fields[k].name == key
    decreases |s.fields| - i
  {
    if i < |s.fields| {
      FieldsOutputKeys(s, m, i + 1);
    }
  }

  lemma OutputKeysDeclared(s: Schema, m: map<string, Json>)
    requires s.Obj? && Validate(s, Some(JObj(m))).Valid?
    ensures Validate(s, Some(JObj(m))).out.value.members.Keys <= Names(s.fields)
  {
    FieldsOutputKeys(s, m, 0);
    forall key | key in Validate(s, Some(JObj(m))).out.value.members ensures key in Names(s.fields) {
      var k :| 0 <= k < |s.fields| && s.fields[k].name == key;
      assert s.fields[k] in s.fields;
    }
  }

  /** The output value of field `k`, when no earlier field has its name:
      present exactly when the field parses to a defined value. */
  lemma {:induction false} FieldsOutputAt(s: Schema, m: map<string, Json>, i: nat, k: nat)
    requires s.Obj? && i <= k < |s.fields|
    requires UniqueAt(s.fields, k)
    requires ValidateFields(s, m, i).Valid?
    ensures var f := s.fields[k];
            var p := Validate(f.schema, Lookup(m, f.name));
            var out := ValidateFields(s, m, i).out.value.members;
            p.Valid? && (f.name in out <==> p.out.Some?) && (p.out.Some? ==> out[f.name] == p.out.value)
    decreases k - i
  {
    if i < k {
      FieldsValidIff(s, m, i);
      FieldsOutputAt(s, m, i + 1, k);
    } else {
      FieldsOutputKeys(s, m, i + 1);
    }
  }

  lemma FieldOutput(s: Schema, m: map<string, Json>, k: nat)
    requires s.Obj? && k < |s.fields|
    requires UniqueAt(s.fields, k)
    requires Validate(s, Some(JObj(m))).Valid?
    ensures var f := s.fields[k];
            var p := Validate(f.schema, Lookup(m, f.name));
            var out := Validate(s, Some(JObj(m))).out.value.members;
            p.Valid? && (f.name in out <==> p.out.Some?) && (p.out.Some? ==> out[f.name] == p.out.value)
  {
    FieldsOutputAt(s, m, 0, k);
  }

  /** Validation reads only the declared keys of its input. */
  lemma {:induction false} FieldsReadOnlyDeclared(s: Schema, m1: map<string, Json>, m2: map<string, Json>, i: nat)
    requires s.Obj? && i <= |s.fields|
    requires forall k :: i <= k < |s.fields| ==> Lookup(m1, s.fields[k].name) == Lookup(m2, s.fields[k].name)
    ensures ValidateFields(s, m1, i) == ValidateFields(s, m2, i)
    decreases |s.fields| - i
  {
    if i < |s.fields| {
      FieldsReadOnlyDeclared(s, m1, m2, i + 1);
    }
  }

  /** Keys the schema does not declare play no part: the verdict is the
      same with or without them, and the output never carries them. */
  lemma UndeclaredKeysIgnored(s: Schema, keys: set<string>, m: map<string, Json>)
    requires s.Obj? && Names(s.fields) !! keys
    ensures Validate(s, Some(JObj(m))) == Validate(s, Some(JObj(m - keys)))
    ensures Validate(s, Some(JObj(m))).Valid? ==>
              Validate(s, Some(JObj(m))).out.value.members.Keys !! keys
  {
    forall k | 0 <= k < |s.fields| ensures Lookup(m, s.fields[k].name) == Lookup(m - keys, s.fields[k].name) {
      assert s.fields[k] in s.fields;
    }
    FieldsReadOnlyDeclared(s, m, m - keys, 0);
    if Validate(s, Some(JObj(m))).Valid? {
      OutputKeysDeclared(s, m);
    }
  }

  /** An omitted key is neither checked nor copied: the derived schema gives
      the same verdict whatever the input holds under that key, and its
      output never carries it. */
  lemma OmitIgnoresKeys(s: Schema, keys: set<string>, m: map<string, Json>)
    requires s.Obj?
    ensures Validate(Omit(s, keys), Some(JObj(m))) == Validate(Omit(s, keys), Some(JObj(m - keys)))
    ensures Validate(Omit(s, keys), Some(JObj(m))).Valid? ==>
              Validate(Omit(s, keys), Some(JObj(m))).out.value.members.Keys !! keys
  {
    OmitFields(s, keys);
    UndeclaredKeysIgnored(Omit(s, keys), keys, m);
  }

  /** Every declared field of an accepted object is itself accepted. */
  lemma FieldChecked(s: Schema, m: map<string, Json>, f: Field)
    requires s.Obj? && f in s.fields && Validate(s, Some(JObj(m))).Valid?
    ensures Validate(f.schema, Lookup(m, f.name)).Valid?
  {
    ObjectValidIff(s, m);
  }

  /** A key whose every field is `optional` may be left out of an accepted
      input. */
  lemma OptionalKeyMayBeDropped(s: Schema, m: map<string, Json>, key: string)
    requires s.Obj?
    requires forall f :: f in s.fields && f.name == key ==> f.schema.Optional?
    requires Validate(s, Some(JObj(m))).Valid?
    ensures Validate(s, Some(JObj(m - {key}))).Valid?
  {
    ObjectValidIff(s, m);
    ObjectValidIff(s, m - {key});
    forall k | 0 <= k < |s.fields|
      ensures Validate(s.fields[k].schema, Lookup(m - {key}, s.fields[k].name)).Valid?
    {
      assert s.fields[k] in s.fields;
    }
  }

  /** `.partial()` accepts the empty object, and adds nothing to it: not
      even the defaults of the original fields. */
  lemma {:induction false} PartialFieldsEmpty(s: Schema, i: nat)
    requires s.Obj? && i <= |s.fields|
    requires forall k :: 0 <= k < |s.fields| ==> s.fields[k].schema.Optional?
    ensures ValidateFields(s, map[], i) == Valid(Some(JObj(map[])))
    decreases |s.fields| - i
  {
    if i < |s.fields| {
      PartialFieldsEmpty(s, i + 1);
    }
  }

  lemma PartialAcceptsEmpty(s: Schema)
    requires s.Obj?
    ensures Validate(Partial(s), Some(JObj(map[]))) == Valid(Some(JObj(map[])))
  {
    PartialFieldsEmpty(Partial(s), 0);
  }

  /** A partial object is accepted exactly when every declared key that is
      present holds a value the original field schema accepts. */
  lemma PartialValidIff(s: Schema, m: map<string, Json>)
    requires s.Obj?
    ensures Validate(Partial(s), Some(JObj(m))).Valid? <==> forall f :: f in s.fields ==> PresentValid(f, m)
  {
    ObjectValidIff(Partial(s), m);
    ObjectValidIff(s, m);
    if forall f :: f in s.fields ==> PresentValid(f, m) {
      forall k | 0 <= k < |s.fields|
        ensures Validate(Partial(s).fields[k].schema, Lookup(m, Partial(s).fields[k].name)).Valid?
      {
        assert s.fields[k] in s.fields;
      }
    }
  }

  /** `.partial()` only weakens: whatever the original accepts, the partial
      schema accepts too. */
  lemma PartialWeakens(s: Schema, m: map<string, Json>)
    requires s.Obj?
    ensures Validate(s, Some(JObj(m))).Valid? ==> Validate(Partial(s), Some(JObj(m))).Valid?
  {
    PartialValidIff(s, m);
    if Validate(s, Some(JObj(m))).Valid? {
      forall f | f in s.fields ensures PresentValid(f, m) {
        FieldChecked(s, m, f);
      }
    }
  }

  /** Merging objects with disjoint keys accepts exactly what both accept. */
  lemma MergeDisjointIff(a: Schema, b: Schema, m: map<string, Json>)
    requires a.Obj? && b.Obj?
    requires Names(a.fields) !! Names(b.fields) && DistinctNames(b.fields)
    ensures Merge(a, b).fields == a.fields + b.fields
    ensures Validate(Merge(a, b), Some(JObj(m))).Valid? <==>
              Validate(a, Some(JObj(m))).Valid? && Validate(b, Some(JObj(m))).Valid?
  {
    OverrideAllDisjoint(a.fields, b.fields);
    var r := Merge(a, b);
    ObjectValidIff(r, m);
    ObjectValidIff(a, m);
    ObjectValidIff(b, m);
    if Validate(a, Some(JObj(m))).Valid? && Validate(b, Some(JObj(m))).Valid? {
      forall k | 0 <= k < |r.fields|
        ensures Validate(r.fields[k].schema, Lookup(m, r.fields[k].name)).Valid?
      {
        if k >= |a.fields| {
          assert r.fields[k] == b.fields[k - |a.fields|];
        }
      }
    }
    if Validate(r, Some(JObj(m))).Valid? {
      forall k | 0 <= k < |b.fields|
        ensures Validate(b.fields[k].schema, Lookup(m, b.fields[k].name)).Valid?
      {
        assert r.fields[|a.fields| + k] == b.fields[k];
      }
    }
  }
}

=== FILE: seqs.dfy ===
/** Sequence operations that stand in for the SQL the services issue:
    a `WHERE` filter, `COUNT(*)` over it, and `ORDER BY <column> DESC`. */
module Seqs {

  /** Rows that satisfy `p`, in table order (`SELECT ... WHERE p`). */
  function Filter<T(!new)>(s: seq<T>, p: T -> bool): (r: seq<T>)
    ensures |r| <= |s|
    ensures forall x :: x in r <==> x in s && p(x)
    ensures forall i :: 0 <= i < |r| ==> p(r[i])
    ensures forall x :: multiset(r)[x] == if p(x) then multiset(s)[x] else 0
  {
    if |s| == 0 then []
    else
      assert s == [s[0]] + s[1..];
      if p(s[0]) then [s[0]] + Filter(s[1..], p) else Filter(s[1..], p)
  }

  /** `COUNT(*) ... WHERE p`: one for every row that satisfies `p`. */
  function Count<T>(s: seq<T>, p: T -> bool): nat {
    if |s| == 0 then 0 else (if p(s[0]) then 1 else 0) + Count(s[1..], p)
  }

  /** The count query and the page query agree: counting the rows that satisfy
      `p` gives the length of the filtered table. */
  lemma {:induction false} FilterLengthIsCount<T(!new)>(s: seq<T>, p: T -> bool)
    ensures |Filter(s, p)| == Count(s, p)
  {
    if |s| > 0 {
      FilterLengthIsCount(s[1..], p);
    }
  }

  /** With no condition every row is counted. */
  lemma {:induction false} CountAll<T>(s: seq<T>, p: T -> bool)
    requires forall i :: 0 <= i < |s| ==> p(s[i])
    ensures Count(s, p) == |s|
  {
    if |s| > 0 {
      CountAll(s[1..], p);
    }
  }

  /** Filtering distributes over concatenation: a row appended to a table
      is appended to every query it satisfies. */
  lemma {:induction false} FilterAppend<T(!new)>(a: seq<T>, b: seq<T>, p: T -> bool)
    ensures Filter(a + b, p) == Filter(a, p) + Filter(b, p)
  {
    if |a| == 0 {
      assert a + b == b;
    } else {
      assert (a + b)[0] == a[0];
      assert (a + b)[1..] == a[1..] + b;
      FilterAppend(a[1..], b, p);
    }
  }

  /** Filtering by `q` first changes nothing for a stricter predicate `p`:
      deleting rows outside `p` leaves the query `p` as it was. */
  lemma {:induction false} FilterFilter<T(!new)>(s: seq<T>, q: T -> bool, p: T -> bool)
    requires forall x :: p(x) ==> q(x)
    ensures Filter(Filter(s, q), p) == Filter(s, p)
  {
    if |s| > 0 {
      FilterFilter(s[1..], q, p);
    }
  }

  /** A query every row satisfies returns the whole table. */
  lemma {:induction false} FilterAll<T(!new)>(s: seq<T>, p: T -> bool)
    requires forall i :: 0 <= i < |s| ==> p(s[i])
    ensures Filter(s, p) == s
  {
    if |s| > 0 {
      FilterAll(s[1..], p);
      assert s == [s[0]] + s[1..];
    }
  }

  /** Two conditions that agree on every row select the same rows. */
  lemma {:induction false} FilterSame<T(!new)>(s: seq<T>, p: T -> bool, q: T -> bool)
    requires forall i :: 0 <= i < |s| ==> p(s[i]) == q(s[i])
    ensures Filter(s, p) == Filter(s, q)
  {
    if |s| > 0 {
      FilterSame(s[1..], p, q);
    }
  }

  /** A query no row satisfies is empty. */
  lemma {:induction false} FilterNone<T(!new)>(s: seq<T>, p: T -> bool)
    requires forall i :: 0 <= i < |s| ==> !p(s[i])
    ensures Filter(s, p) == []
  {
    if |s| > 0 {
      FilterNone(s[1..], p);
    }
  }

  /** Sort key of a nullable column under `ORDER BY <column> DESC`, where
      Postgres places NULLs first. */
  datatype DescKey = NullKey | Key(v: int)

  /** `a` may come before `b` in descending order with NULLs first. */
  predicate KeyGe(a: DescKey, b: DescKey) {
    a.NullKey? || (b.Key? && a.v >= b.v)
  }

  predicate SortedDesc<T>(s: seq<T>, key: T -> DescKey) {
    forall i, j :: 0 <= i < j < |s| ==> KeyGe(key(s[i]), key(s[j]))
  }

  /** Inserts `x` before the first element it may precede. */
  function InsertDesc<T>(x: T, s: seq<T>, key: T -> DescKey): (r: seq<T>)
    requires SortedDesc(s, key)
    ensures |r| == |s| + 1
    ensures multiset(r) == multiset(s) + multiset{x}
    ensures SortedDesc(r, key)
  {
    if |s| == 0 then [x]
    else if KeyGe(key(x), key(s[0])) then [x] + s
    else
      assert s == [s[0]] + s[1..];
      var rest := InsertDesc(x, s[1..], key);
      assert forall j :: 0 <= j < |rest| ==> KeyGe(key(s[0]), key(rest[j])) by {
        forall j | 0 <= j < |rest| ensures KeyGe(key(s[0]), key(rest[j])) {
          assert rest[j] in multiset(rest);
          if rest[j] != x {
            assert rest[j] in multiset(s[1..]);
            var k :| 0 <= k < |s[1..]| && s[1..][k] == rest[j];
            assert s[k + 1] == rest[j];
          }
        }
      }
      [s[0]] + rest
  }

  /** `ORDER BY key DESC`: a permutation of `s` in descending key order
      (insertion sort; rows with equal keys keep their table order). */
  function SortDesc<T>(s: seq<T>, key: T -> DescKey): (r: seq<T>)
    ensures |r| == |s|
    ensures multiset(r) == multiset(s)
    ensures SortedDesc(r, key)
  {
    if |s| == 0 then []
    else
      assert s == [s[0]] + s[1..];
      InsertDesc(s[0], SortDesc(s[1..], key), key)
  }

  /** Sorting loses no row: every row has a position in the sorted result. */
  lemma SortedPosition<T>(s: seq<T>, key: T -> DescKey, x: T) returns (k: nat)
    requires x in s
    ensures k < |SortDesc(s, key)| && SortDesc(s, key)[k] == x
  {
    var r := SortDesc(s, key);
    assert x in multiset(s);
    assert x in multiset(r);
    k :| 0 <= k < |r| && r[k] == x;
  }

  /** No two different rows share a key: the key identifies the row. */
  ghost predicate KeysIdentify<T(!new)>(s: seq<T>, key: T -> DescKey) {
    forall x, y :: x in s && y in s && key(x) == key(y) ==> x == y
  }

  lemma KeyGeAntisymmetric(a: DescKey, b: DescKey)
    requires KeyGe(a, b) && KeyGe(b, a)
    ensures a == b
  {
  }

  /** The first row of a descending order has a key at least that of every
      other row. */
  lemma HeadIsGreatest<T>(s: seq<T>, key: T -> DescKey, x: T)
    requires SortedDesc(s, key) && x in s
    ensures KeyGe(key(s[0]), key(x))
  {
    var j :| 0 <= j < |s| && s[j] == x;
    if j > 0 {
      assert KeyGe(key(s[0]), key(s[j]));
    } else {
      assert KeyGe(key(x), key(x)) by {
        if key(x).Key? { assert key(x).v >= key(x).v; }
      }
    }
  }

  /** Dropping the first row keeps the rest: its multiset, its order and
      the keys identifying its rows. */
  lemma Tail<T(!new)>(a: seq<T>, key: T -> DescKey)
    requires |a| > 0 && SortedDesc(a, key) && KeysIdentify(a, key)
    ensures multiset(a[1..]) == multiset(a) - multiset{a[0]}
    ensures SortedDesc(a[1..], key) && KeysIdentify(a[1..], key)
  {
    assert a == [a[0]] + a[1..];
    forall x, y | x in a[1..] && y in a[1..] && key(x) == key(y) ensures x == y {
      assert x in a && y in a;
    }
  }

  lemma SameHeadAndTail<T>(a: seq<T>, b: seq<T>)
    requires |a| > 0 && |b| > 0 && a[0] == b[0] && a[1..] == b[1..]
    ensures a == b
  {
    assert a == [a[0]] + a[1..] && b == [b[0]] + b[1..];
  }

  /** When keys identify rows, there is only one descending order: any two
      descending permutations of the same rows are equal. So whatever order
      the database picks among equally ranked rows is not in question. */
  lemma {:induction false} SortedUnique<T(!new)>(a: seq<T>, b: seq<T>, key: T -> DescKey)
    requires multiset(a) == multiset(b)
    requires SortedDesc(a, key) && SortedDesc(b, key)
    requires KeysIdentify(a, key)
    ensures a == b
    decreases |a|
  {
    assert |a| == |multiset(a)| == |multiset(b)| == |b|;
    if |a| > 0 {
      assert a[0] in multiset(b) && b[0] in multiset(a);
      HeadIsGreatest(a, key, b[0]);
      HeadIsGreatest(b, key, a[0]);
      KeyGeAntisymmetric(key(a[0]), key(b[0]));
      assert a[0] == b[0];
      Tail(a, key);
      forall x, y | x in b && y in b && key(x) == key(y) ensures x == y {
        assert x in multiset(a) && y in multiset(a);
      }
      Tail(b, key);
      SortedUnique(a[1..], b[1..], key);
      SameHeadAndTail(a, b);
    }
  }

  /** `SortDesc` is the descending order when keys identify rows. */
  lemma SortDescIsTheOrder<T(!new)>(s: seq<T>, key: T -> DescKey, r: seq<T>)
    requires multiset(r) == multiset(s) && SortedDesc(r, key) && KeysIdentify(s, key)
    ensures r == SortDesc(s, key)
  {
    forall x, y | x in r && y in r && key(x) == key(y) ensures x == y {
      assert x in multiset(s) && y in multiset(s);
    }
    SortedUnique(r, SortDesc(s, key), key);
  }

  /** Applies `f` to every row (the per-row projection of a `SELECT` list). */
  function Map<T, U>(s: seq<T>, f: T -> U): (r: seq<U>)
    ensures |r| == |s|
    ensures forall i :: 0 <= i < |s| ==> r[i] == f(s[i])
  {
    seq(|s|, i requires 0 <= i < |s| => f(s[i]))
  }

  /** The rows that `f` projects to `x` */
  function MapsTo<T, U(==)>(f: T -> U, x: U): T -> bool {
    (y: T) => f(y) == x
  }

  /** A projection in no particular order is known by its counts: `x`
      occurs in `Map(s, f)` once for every row that `f` projects to it. */
  lemma {:induction false} MapCount<T(!new), U>(s: seq<T>, f: T -> U, x: U)
    ensures multiset(Map(s, f))[x] == |Filter(s, MapsTo(f, x))|
  {
    if |s| > 0 {
      MapCount(s[1..], f, x);
      assert Map(s, f) == [f(s[0])] + Map(s[1..], f);
      assert multiset([f(s[0])] + Map(s[1..], f)) == multiset{f(s[0])} + multiset(Map(s[1..], f));
      assert s == [s[0]] + s[1..];
    }
  }
}

=== FILE: sightings.dfy ===
/** The sightings table and the parent table its rows reference (field
    observations or submissions): the lookup with sightings, the cascade
    delete and the sighting insert, which both services implement alike. */
module Sightings {
  import opened Wrappers
  import opened Seqs
  import opened Store

  /** The columns a client supplies for a sighting */
  datatype SightingInput = SightingInput(
    groupName: string,
    estimatedCount: int,
    behavior: Option<string>,
    locationSeen: Option<string>,
    notes: Option<string>,
    photoUrl: Option<string>)

  /** A stored sighting; `parent` is the reference column
      (`fieldObservationId` or `submission_id`) */
  datatype Sighting = Sighting(id: int, parent: string, data: SightingInput, createdAt: int)

  /** The table with its serial counter for `id` */
  datatype SightingTable = SightingTable(rows: seq<Sighting>, nextId: int)

  /** Serial ids stay below the counter and no two rows share one */
  ghost predicate ValidTable(t: SightingTable) {
    && (forall s :: s in t.rows ==> s.id < t.nextId)
    && (forall s, u :: s in t.rows && u in t.rows && s.id == u.id ==> s == u)
    && (forall s :: multiset(t.rows)[s] <= 1)
  }

  function ChildOf(parent: string): Sighting -> bool {
    (s: Sighting) => s.parent == parent
  }

  function NotChildOf(parent: string): Sighting -> bool {
    (s: Sighting) => s.parent != parent
  }

  /** `SELECT * FROM sightings WHERE <reference> = parent` */
  function OfParent(t: SightingTable, parent: string): (r: seq<Sighting>)
    ensures forall s :: s in r <==> s in t.rows && s.parent == parent
  {
    Filter(t.rows, ChildOf(parent))
  }

  /** `INSERT INTO sightings ... RETURNING *`: the new row takes the next
      serial id. */
  function Insert(t: SightingTable, parent: string, input: SightingInput, now: int): (r: (SightingTable, Sighting))
    ensures r.0.rows == t.rows + [r.1]
    ensures r.1.parent == parent && r.1.data == input && r.1.createdAt == now
    ensures ValidTable(t) ==> ValidTable(r.0) && r.1 !in t.rows
  {
    var s := Sighting(t.nextId, parent, input, now);
    var rows := t.rows + [s];
    assert ValidTable(t) ==> ValidTable(SightingTable(rows, t.nextId + 1)) by {
      if ValidTable(t) {
        assert s !in t.rows;
        forall u ensures multiset(rows)[u] <= 1 {
          assert multiset(rows) == multiset(t.rows) + multiset{s};
        }
      }
    }
    (SightingTable(rows, t.nextId + 1), s)
  }

  /** `DELETE FROM sightings WHERE <reference> = parent` */
  function DeleteOfParent(t: SightingTable, parent: string): (r: SightingTable)
    ensures OfParent(r, parent) == []
    ensures forall s :: s in r.rows <==> s in t.rows && s.parent != parent
    ensures ValidTable(t) ==> ValidTable(r)
  {
    var rows := Filter(t.rows, NotChildOf(parent));
    FilterNone(rows, ChildOf(parent));
    SightingTable(rows, t.nextId)
  }

  /** An insert adds its row to its parent's sightings, at the end, and to
      no other parent's. */
  lemma InsertOfParent(t: SightingTable, parent: string, input: SightingInput, now: int, q: string)
    ensures var (t', s) := Insert(t, parent, input, now);
            OfParent(t', q) == OfParent(t, q) + (if q == parent then [s] else [])
  {
    var (t', s) := Insert(t, parent, input, now);
    FilterAppend(t.rows, [s], ChildOf(q));
    assert Filter([s], ChildOf(q)) == if q == parent then [s] else [];
  }

  /** Deleting one parent's sightings leaves every other parent's as they
      were. */
  lemma DeleteKeepsOtherParents(t: SightingTable, parent: string, q: string)
    requires q != parent
    ensures OfParent(DeleteOfParent(t, parent), q) == OfParent(t, q)
  {
    FilterFilter(t.rows, NotChildOf(parent), ChildOf(q));
  }

  /** A parent table and the sightings that reference it */
  datatype Db<T> = Db(parents: seq<T>, sightings: SightingTable)

  function HasId<T>(idOf: T -> string, id: string): T -> bool {
    p => idOf(p) == id
  }

  function LacksId<T>(idOf: T -> string, id: string): T -> bool {
    p => idOf(p) != id
  }

  /** Some parent row has the id */
  predicate HasParent<T(==, !new)>(db: Db<T>, idOf: T -> string, id: string) {
    exists p :: p in db.parents && idOf(p) == id
  }

  /** Referential integrity: every sighting references an existing parent,
      and the sightings table is well formed. */
  ghost predicate Consistent<T(!new)>(db: Db<T>, idOf: T -> string) {
    && ValidTable(db.sightings)
    && forall s :: s in db.sightings.rows ==> HasParent(db, idOf, s.parent)
  }

  /** Filtering the parents by id finds a row exactly when one exists */
  lemma FoundIffHasParent<T(!new)>(db: Db<T>, idOf: T -> string, id: string)
    ensures |Filter(db.parents, HasId(idOf, id))| > 0 <==> HasParent(db, idOf, id)
  {
    var found := Filter(db.parents, HasId(idOf, id));
    if HasParent(db, idOf, id) {
      var p :| p in db.parents && idOf(p) == id;
      assert HasId(idOf, id)(p);
      assert p in found;
    }
    if |found| > 0 {
      assert found[0] in found;
    }
  }

  /** The parent row and its sightings, as a lookup by id returns them */
  datatype Detail<T> = Detail(parent: T, sightings: seq<Sighting>)

  /** `SELECT * FROM parents WHERE id` and `SELECT * FROM sightings WHERE
      <reference> = id`, read together; `null` when no parent has the id. */
  function Lookup<T(==, !new)>(db: Db<T>, idOf: T -> string, id: string, fault: Option<string>): (r: Result<Option<Detail<T>>>)
    ensures r.Err? <==> fault.Some?
    ensures r.Ok? ==> (r.value.Some? <==> HasParent(db, idOf, id))
    ensures r.Ok? && r.value.Some? ==>
              r.value.value.parent in db.parents && idOf(r.value.value.parent) == id
              && r.value.value.sightings == OfParent(db.sightings, id)
  {
    if fault.Some? then Err(fault.value)
    else
      var found := Filter(db.parents, HasId(idOf, id));
      FoundIffHasParent(db, idOf, id);
      if |found| == 0 then Ok(None)
      else
        assert found[0] in found;
        Ok(Some(Detail(found[0], OfParent(db.sightings, id))))
  }

  /** The cascade delete: the parent's sightings (statement 0), then the
      parent (statement 1), outside any transaction. The result says whether
      a parent row was deleted. */
  function CascadeDelete<T(==, !new)>(db: Db<T>, idOf: T -> string, id: string, fault: Option<Fault>): (r: (Db<T>, Result<bool>))
    ensures FailsAt(fault, 0) ==> r == (db, Err(fault.value.message))
    ensures !FailsAt(fault, 0) ==> r.0.sightings == DeleteOfParent(db.sightings, id)
    ensures FailsAt(fault, 1) ==> r.0.parents == db.parents && r.1.Err?
    ensures r.1.Ok? <==> !FailsAt(fault, 0) && !FailsAt(fault, 1)
    ensures r.1.Ok? ==> (r.1.value <==> HasParent(db, idOf, id))
    ensures r.1.Ok? ==> forall p :: p in r.0.parents <==> p in db.parents && idOf(p) != id
  {
    if FailsAt(fault, 0) then (db, Err(fault.value.message))
    else
      var sightings := DeleteOfParent(db.sightings, id);
      if FailsAt(fault, 1) then (db.(sightings := sightings), Err(fault.value.message))
      else
        var removed := Filter(db.parents, HasId(idOf, id));
        FoundIffHasParent(db, idOf, id);
        (Db(Filter(db.parents, LacksId(idOf, id)), sightings), Ok(|removed| > 0))
  }

  /** `INSERT INTO sightings (<reference>, ...) VALUES (parent, ...)
      RETURNING *`; the reference column is a foreign key, so a parent that
      does not exist fails the insert. */
  function AddSighting<T(==, !new)>(db: Db<T>, idOf: T -> string, parent: string, input: SightingInput,
                                now: int, fault: Option<string>): (r: (Db<T>, Result<Sighting>))
    ensures r.1.Err? ==> r.0 == db
    ensures r.1.Ok? <==> fault.None? && HasParent(db, idOf, parent)
    ensures r.1.Ok? ==> r.1.value.parent == parent && r.1.value.data == input
    ensures r.1.Ok? ==> r.0.parents == db.parents && r.0.sightings.rows == db.sightings.rows + [r.1.value]
  {
    if fault.Some? then (db, Err(fault.value))
    else if !HasParent(db, idOf, parent) then (db, Err(ForeignKeyViolation))
    else
      var (t, s) := Insert(db.sightings, parent, input, now);
      (db.(sightings := t), Ok(s))
  }

  /** After a cascade delete that got past its first statement, the id has
      no sightings left, even when no parent row had that id. */
  lemma DeleteLeavesNoSightings<T(!new)>(db: Db<T>, idOf: T -> string, id: string, fault: Option<Fault>)
    requires !FailsAt(fault, 0)
    ensures OfParent(CascadeDelete(db, idOf, id, fault).0.sightings, id) == []
  {
  }

  /** A completed cascade delete is seen by the lookup: the id is gone. */
  lemma LookupAfterDelete<T(!new)>(db: Db<T>, idOf: T -> string, id: string, fault: Option<Fault>)
    requires CascadeDelete(db, idOf, id, fault).1.Ok?
    ensures Lookup(CascadeDelete(db, idOf, id, fault).0, idOf, id, None) == Ok(None)
  {
    var db' := CascadeDelete(db, idOf, id, fault).0;
    forall p | p in db'.parents ensures idOf(p) != id {
    }
  }

  /** Deleting one parent leaves every other parent's lookup as it was. */
  lemma LookupOthersAfterDelete<T(!new)>(db: Db<T>, idOf: T -> string, id: string, fault: Option<Fault>, other: string)
    requires CascadeDelete(db, idOf, id, fault).1.Ok? && other != id
    ensures Lookup(CascadeDelete(db, idOf, id, fault).0, idOf, other, None).Ok?
    ensures Lookup(CascadeDelete(db, idOf, id, fault).0, idOf, other, None).value.Some? <==> HasParent(db, idOf, other)
    ensures Lookup(CascadeDelete(db, idOf, id, fault).0, idOf, other, None).value.Some? ==>
              Lookup(CascadeDelete(db, idOf, id, fault).0, idOf, other, None).value.value.sightings
                == OfParent(db.sightings, other)
  {
    var db' := CascadeDelete(db, idOf, id, fault).0;
    DeleteKeepsOtherParents(db.sightings, id, other);
    if HasParent(db, idOf, other) {
      var p :| p in db.parents && idOf(p) == other;
      assert p in db'.parents;
    }
  }

  /** Deleting sightings before the parent keeps referential integrity at
      every point: after either statement, and when the second fails. */
  lemma CascadeDeleteConsistent<T(!new)>(db: Db<T>, idOf: T -> string, id: string, fault: Option<Fault>)
    requires Consistent(db, idOf)
    ensures Consistent(CascadeDelete(db, idOf, id, fault).0, idOf)
  {
    var db' := CascadeDelete(db, idOf, id, fault).0;
    if !FailsAt(fault, 0) {
      forall s | s in db'.sightings.rows ensures HasParent(db', idOf, s.parent) {
        assert s in db.sightings.rows && s.parent != id;
        var p :| p in db.parents && idOf(p) == s.parent;
        assert p in db'.parents;
      }
    }
  }

  /** A sighting insert keeps referential integrity and adds the row to its
      parent's sightings only. */
  lemma AddSightingConsistent<T(!new)>(db: Db<T>, idOf: T -> string, parent: string, input: SightingInput,
                                       now: int, fault: Option<string>, q: string)
    requires Consistent(db, idOf)
    ensures var (db', r) := AddSighting(db, idOf, parent, input, now, fault);
            Consistent(db', idOf)
            && OfParent(db'.sightings, q) == OfParent(db.sightings, q) + (if r.Ok? && q == parent then [r.value] else [])
  {
    var (db', r) := AddSighting(db, idOf, parent, input, now, fault);
    if r.Ok? {
      InsertOfParent(db.sightings, parent, input, now, q);
      forall s | s in db'.sightings.rows ensures HasParent(db', idOf, s.parent) {
        if s !in db.sightings.rows {
          assert s == r.value;
        }
      }
    }
  }
}

=== FILE: store.dfy ===
/** Pieces shared by the in-memory tables that stand in for the database:
    injected statement failures and the paged listing by owner that the
    field observation and submission services both issue. */
module Store {
  import opened Wrappers
  import opened Seqs
  import opened Pagination

  /** The database failing at statement `step` (counted from 0) of a
      multi-statement operation with `message`. A single-statement read or
      insert takes an `Option<string>` instead: the message it fails with. */
  datatype Fault = Fault(step: nat, message: string)

  predicate FailsAt(fault: Option<Fault>, step: nat) {
    fault.Some? && fault.value.step == step
  }

  /** Message of a primary-key collision */
  const UniqueViolation := "duplicate key value violates unique constraint"

  /** Message of an insert whose reference column names no row */
  const ForeignKeyViolation := "insert or update violates foreign key constraint"

  /** Message of a statement one of whose parameters is `undefined`: the
      client library (postgres.js from version 3.3, created without a
      `transform.undefined` option) refuses to send it, so the statement
      fails before it reaches the database. */
  const UndefinedValue := "Undefined values are not allowed"

  /** One page of a listing and the count of all rows it pages through */
  datatype Listing<T> = Listing(rows: seq<T>, totalCount: nat)

  /** How many rows the page at `offset` holds when `total` rows match:
      none past the end, the rest when fewer than `limit` remain, else `limit` */
  function PageLength(total: int, offset: int, limit: int): int {
    if total <= offset then 0 else if total - offset < limit then total - offset else limit
  }

  /** The `WHERE owner = user` condition */
  function OwnedBy<T>(owner: T -> string, user: string): T -> bool {
    x => owner(x) == user
  }

  /** A window of rows in descending order is still in that order, and
      holds only rows of the listing. */
  lemma WindowOfSorted<T>(s: seq<T>, key: T -> DescKey, offset: int, limit: int)
    requires SortedDesc(s, key) && Window(s, offset, limit).Ok?
    ensures SortedDesc(Window(s, offset, limit).value, key)
    ensures forall x :: x in Window(s, offset, limit).value ==> x in s
  {
    var w := Window(s, offset, limit).value;
    forall i, j | 0 <= i < j < |w| ensures KeyGe(key(w[i]), key(w[j])) {
      assert w[i] == s[offset + i] && w[j] == s[offset + j];
    }
    forall x | x in w ensures x in s {
      var i :| 0 <= i < |w| && w[i] == x;
      assert s[offset + i] == x;
    }
  }

  /** `SELECT * ... WHERE owner = user ORDER BY created_at DESC LIMIT limit
      OFFSET (page - 1) * limit` together with `SELECT COUNT(*) ... WHERE
      owner = user`, both read from the same table. */
  function ListByOwner<T(!new)>(rows: seq<T>, owner: T -> string, createdAt: T -> DescKey,
                                user: string, page: int, limit: int,
                                fault: Option<string>): (r: Result<Listing<T>>)
    ensures r.Ok? <==> fault.None? && Offset(page, limit) >= 0 && limit >= 0
    ensures r.Ok? ==> |r.value.rows| <= limit
    ensures r.Ok? ==> |r.value.rows| == PageLength(r.value.totalCount, Offset(page, limit), limit)
    ensures r.Ok? ==> forall x :: x in r.value.rows ==> x in rows && owner(x) == user
    ensures r.Ok? ==> SortedDesc(r.value.rows, createdAt)
    ensures r.Ok? ==> r.value.totalCount == |Filter(rows, OwnedBy(owner, user))|
  {
    if fault.Some? then Err(fault.value)
    else
      var mine := Filter(rows, OwnedBy(owner, user));
      var ordered := SortDesc(mine, createdAt);
      var window := Window(ordered, Offset(page, limit), limit);
      if window.Err? then Err(window.message)
      else
        WindowOfSorted(ordered, createdAt, Offset(page, limit), limit);
        assert forall x :: x in ordered ==> x in mine by {
          forall x | x in ordered ensures x in mine {
            assert x in multiset(ordered);
          }
        }
        FilterLengthIsCount(rows, OwnedBy(owner, user));
        Ok(Listing(window.value, Count(rows, OwnedBy(owner, user))))
  }

  lemma DivNonNegative(k: nat, d: int)
    requires d >= 1
    ensures k / d >= 0
  {
  }

  /** Paging through a user's listing reaches every row the user owns: the
      row sits on some page at least 1. Each page is a separate query, and
      the database keeps no fixed order among rows created at the same time,
      so the claim is made where creation times identify the user's rows;
      there the descending order is unique (`SortDescIsTheOrder`) and every
      page reads the same one. */
  lemma EveryOwnedRowListed<T(!new)>(rows: seq<T>, owner: T -> string, createdAt: T -> DescKey,
                                     user: string, limit: int, x: T)
    requires limit >= 1 && x in rows && owner(x) == user
    requires KeysIdentify(Filter(rows, OwnedBy(owner, user)), createdAt)
    ensures exists page :: page >= 1
              && ListByOwner(rows, owner, createdAt, user, page, limit, None).Ok?
              && x in ListByOwner(rows, owner, createdAt, user, page, limit, None).value.rows
  {
    var mine := Filter(rows, OwnedBy(owner, user));
    assert OwnedBy(owner, user)(x);
    assert x in mine;
    var ordered := SortDesc(mine, createdAt);
    var k := SortedPosition(mine, createdAt, x);
    RowOnItsPage(ordered, k, limit);
    var page := k / limit + 1;
    DivNonNegative(k, limit);
    var w := Window(ordered, Offset(page, limit), limit);
    assert w.value[k % limit] == x;
    var listed := ListByOwner(rows, owner, createdAt, user, page, limit, None);
    assert listed.Ok? && listed.value.rows == w.value;
    assert page >= 1 && x in listed.value.rows;
  }

  /** Row `k` of the user's rows, newest first, is row `k % limit` of page
      `k / limit + 1`. With the page length of `ListByOwner`, this fixes each
      page: page `p` holds the rows from position `(p - 1) * limit` on. */
  lemma OwnedRowOnPage<T(!new)>(rows: seq<T>, owner: T -> string, createdAt: T -> DescKey,
                                user: string, limit: int, k: nat) returns (page: int)
    requires limit >= 1 && k < |Filter(rows, OwnedBy(owner, user))|
    ensures page == k / limit + 1
    ensures ListByOwner(rows, owner, createdAt, user, page, limit, None).Ok?
    ensures k % limit < |ListByOwner(rows, owner, createdAt, user, page, limit, None).value.rows|
    ensures ListByOwner(rows, owner, createdAt, user, page, limit, None).value.rows[k % limit]
            == SortDesc(Filter(rows, OwnedBy(owner, user)), createdAt)[k]
  {
    var ordered := SortDesc(Filter(rows, OwnedBy(owner, user)), createdAt);
    RowOnItsPage(ordered, k, limit);
    DivNonNegative(k, limit);
    page := k / limit + 1;
    var w := Window(ordered, Offset(page, limit), limit);
    assert ListByOwner(rows, owner, createdAt, user, page, limit, None).value.rows == w.value;
  }
}

=== FILE: submission_routes.dfy ===
/** The submission route handlers, registered like the field observation
    ones: create and delete are behind the bearer-token middleware, get and
    list are public, and add-sighting passes the middleware twice. */
module SubmissionRoutes {
  import opened Wrappers
  import opened Seqs
  import opened Pagination
  import opened Store
  import opened Sightings
  import opened Submissions
  import opened Auth
  import opened Http
  import Schema
  import SubmissionSchemas

  /** `z.string().uuid()` on the `id` path parameter */
  predicate IdParamValid(id: string) {
    Schema.IsUuidShaped(id)
  }

  predicate CreateBodyValid(body: Schema.Json) {
    Schema.Validate(SubmissionSchemas.CreateSubmissionSchema, Some(body)).Valid?
  }

  predicate SightingBodyValid(body: Schema.Json) {
    Schema.Validate(SubmissionSchemas.CreateSightingSchema, Some(body)).Valid?
  }

  predicate HasSubject(outcome: AuthOutcome) {
    outcome.Authenticated? && Truthy(outcome.user.sub)
  }

  /** `POST /submissions`: the response is the stored row with an empty
      `sightings` list, whatever sightings the request carried. */
  function CreateRoute(db: SubmissionDb, env: Env, cred: Credentials, body: Schema.Json, input: SubmissionInput,
                       freshId: string, now: int, fault: Option<string>): (r: (SubmissionDb, Response<Detail<Submission>>))
    ensures r.1.status != 201 ==> r.0 == db
    ensures r.0.sightings == db.sightings
    ensures Guard(env, cred).Rejected? ==> r.1 == Rejection(Guard(env, cred))
    ensures Guard(env, cred).Authenticated? && !CreateBodyValid(body) ==> r.1 == BadRequest()
    ensures Guard(env, cred).Authenticated? && CreateBodyValid(body) && !HasSubject(Guard(env, cred)) ==>
              r.1 == Unauthorized()
    ensures HasSubject(Guard(env, cred)) && CreateBodyValid(body) && !Truthy(env.connection) ==>
              r.1 == ConfigurationError()
    ensures r.1.status == 201 <==>
              HasSubject(Guard(env, cred)) && CreateBodyValid(body) && Truthy(env.connection)
              && Bindable(input) && fault.None? && !HasParent(db, IdOf, freshId)
    ensures HasSubject(Guard(env, cred)) && CreateBodyValid(body) && Truthy(env.connection) && !Bindable(input) ==>
              r.1 == ServerError(UndefinedValue)
    ensures r.1.status == 201 ==>
              r.1.body.Data? && r.1.body.data.sightings == []
              && r.1.body.data.parent.userId == Guard(env, cred).user.sub.value
              && r.0.parents == db.parents + [r.1.body.data.parent]
  {
    var outcome := Guard(env, cred);
    if outcome.Rejected? then (db, Rejection(outcome))
    else if !CreateBodyValid(body) then (db, BadRequest())
    else if !Truthy(outcome.user.sub) then (db, Unauthorized())
    else if !Truthy(env.connection) then (db, ConfigurationError())
    else
      var (db', result) := Create(db, input, outcome.user.sub.value, freshId, now, fault);
      match result
      case Err(message) => (db', ServerError(message))
      case Ok(submission) => (db', Response(201, Data(Detail(submission, []))))
  }

  /** `GET /submissions/{id}` */
  function GetRoute(db: SubmissionDb, env: Env, id: string, fault: Option<string>): (r: Response<Detail<Submission>>)
    ensures r.status in {200, 400, 404, 500}
    ensures !IdParamValid(id) ==> r == BadRequest()
    ensures IdParamValid(id) && !Truthy(env.connection) ==> r == ConfigurationError()
    ensures r.status == 404 <==>
              IdParamValid(id) && Truthy(env.connection) && fault.None? && forall s :: s in db.parents ==> s.id != id
    ensures r.status == 404 ==> r == NotFound("Submission not found")
    ensures r.status == 200 ==>
              r.body.Data? && r.body.data.parent in db.parents && r.body.data.parent.id == id
              && forall s :: s in r.body.data.sightings <==> s in db.sightings.rows && s.parent == id
  {
    if !IdParamValid(id) then BadRequest()
    else if !Truthy(env.connection) then ConfigurationError()
    else
      match Get(db, id, fault)
      case Err(message) => ServerError(message)
      case Ok(None) => NotFound("Submission not found")
      case Ok(Some(detail)) => Response(200, Data(detail))
  }

  /** The pagination block the list handler writes out inline, computing
      `Math.ceil(totalCount / limit)` once for `totalPages` and again for
      `hasNextPage` */
  function InlinePagination(totalCount: nat, page: int, limit: int): (p: PageInfo)
    ensures p.currentPage == page && p.totalCount == totalCount && (p.hasPrevPage <==> page > 1)
    ensures p.totalPages.None? <==> limit == 0
    ensures limit >= 1 ==> p.totalPages.Some? && p.totalPages.value * limit >= totalCount
                           && (p.totalPages.value == 0 || (p.totalPages.value - 1) * limit < totalCount)
  {
    PageInfo(page, TotalPages(totalCount, limit), totalCount,
             LessThanPages(page, TotalPages(totalCount, limit), totalCount), page > 1)
  }

  /** The inline block agrees with the shared `formatResponse` block on
      every input, so there is a next page exactly when rows remain. */
  lemma InlineMatchesFormat(totalCount: nat, page: int, limit: int)
    ensures InlinePagination(totalCount, page, limit) == FormatPagination(totalCount, page, limit)
    ensures limit >= 1 ==> (InlinePagination(totalCount, page, limit).hasNextPage <==> page * limit < totalCount)
  {
  }

  /** `GET /submissions/user/{userId}` with `page` and `limit` as the query
      strings carry them (defaults 1 and 10, no lower bound) */
  function ListRoute(db: SubmissionDb, env: Env, userId: string, page: Option<string>, limit: Option<string>,
                     fault: Option<string>): (r: Response<Paged<Submission>>)
    ensures r.status in {200, 400, 500}
    ensures r.status == 400 <==> QueryNumber(page, 1).Err? || QueryNumber(limit, 10).Err?
    ensures r.status == 200 ==>
              var (p, l) := (QueryNumber(page, 1).value, QueryNumber(limit, 10).value);
              && r.body.Data?
              && |r.body.data.data| <= l
              && (forall s :: s in r.body.data.data ==> s in db.parents && s.userId == userId)
              && r.body.data.pagination.currentPage == p
              && r.body.data.pagination.totalCount == |Filter(db.parents, OwnedBy(OwnerOf, userId))|
              && (l >= 1 ==> (r.body.data.pagination.hasNextPage <==> p * l < |Filter(db.parents, OwnedBy(OwnerOf, userId))|))
    ensures page.None? && limit.None? && Truthy(env.connection) && fault.None? ==>
              r.status == 200 && r.body.Data? && r.body.data.pagination.currentPage == 1 && |r.body.data.data| <= 10
  {
    var p := QueryNumber(page, 1);
    var l := QueryNumber(limit, 10);
    if p.Err? || l.Err? then BadRequest()
    else if !Truthy(env.connection) then ConfigurationError()
    else
      match ListByUser(db, userId, p.value, l.value, fault)
      case Err(message) => ServerError(message)
      case Ok(listing) =>
        InlineMatchesFormat(listing.totalCount, p.value, l.value);
        Response(200, Data(Paged(listing.rows, InlinePagination(listing.totalCount, p.value, l.value))))
  }

  /** The list route as written: `page` and `limit` are declared as plain
      numbers, so the query strings that carry them never pass. The model's
      `ListRoute` reads them as numbers instead. The route repeats the
      field observation one, so this mirrors
      `FieldObservationRoutes.ListRouteAsWritten`. */
  function ListRouteAsWritten(db: SubmissionDb, env: Env, userId: string, page: Option<string>, limit: Option<string>,
                              fault: Option<string>): (r: Response<Paged<Submission>>)
    ensures r.status == 400 <==> page.Some? || limit.Some?
    ensures page.None? && limit.None? ==> r == ListRoute(db, env, userId, None, None, fault)
  {
    var p := QueryNumberAsWritten(page, 1);
    var l := QueryNumberAsWritten(limit, 10);
    if p.Err? || l.Err? then BadRequest()
    else ListRoute(db, env, userId, None, None, fault)
  }

  /** Asking for page 2 is refused as written and answered once the query
      string is read as a number. */
  lemma ExplicitPageListing(db: SubmissionDb, env: Env, userId: string, fault: Option<string>)
    ensures ListRouteAsWritten(db, env, userId, Some("2"), None, fault).status == 400
    ensures ListRoute(db, env, userId, Some("2"), None, fault).status != 400
  {
    assert QueryNumber(Some("2"), 1).Ok? by {
      assert IsDigitChar("2"[0]);
    }
  }

  /** `DELETE /submissions/{id}` */
  function DeleteRoute(db: SubmissionDb, env: Env, cred: Credentials, id: string, fault: Option<Fault>): (r: (SubmissionDb, Response<()>))
    ensures Guard(env, cred).Rejected? ==> r == (db, Rejection(Guard(env, cred)))
    ensures Guard(env, cred).Authenticated? && !IdParamValid(id) ==> r == (db, BadRequest())
    ensures Guard(env, cred).Authenticated? && IdParamValid(id) && !Truthy(env.connection) ==> r == (db, ConfigurationError())
    ensures r.1.status == 204 <==>
              Guard(env, cred).Authenticated? && IdParamValid(id) && Truthy(env.connection)
              && !FailsAt(fault, 0) && !FailsAt(fault, 1) && exists s :: s in db.parents && s.id == id
    ensures r.1.status == 204 ==> r.1.body == NoBody
    ensures r.1.status == 404 <==>
              Guard(env, cred).Authenticated? && IdParamValid(id) && Truthy(env.connection)
              && !FailsAt(fault, 0) && !FailsAt(fault, 1) && forall s :: s in db.parents ==> s.id != id
    ensures r.1.status == 204 || r.1.status == 404 ==>
              (forall s :: s in r.0.sightings.rows <==> s in db.sightings.rows && s.parent != id)
              && (forall s :: s in r.0.parents <==> s in db.parents && s.id != id)
  {
    var outcome := Guard(env, cred);
    if outcome.Rejected? then (db, Rejection(outcome))
    else if !IdParamValid(id) then (db, BadRequest())
    else if !Truthy(env.connection) then (db, ConfigurationError())
    else
      var (db', result) := Delete(db, id, fault);
      match result
      case Err(message) => (db', ServerError(message))
      case Ok(deleted) =>
        if deleted then (db', Response(204, NoBody)) else (db', NotFound("Submission not found"))
  }

  /** `POST /submissions/{id}/sightings` */
  function AddSightingRoute(db: SubmissionDb, env: Env, cred: Credentials, id: string, body: Schema.Json,
                            input: SightingInput, now: int, fault: Option<string>): (r: (SubmissionDb, Response<Sighting>))
    ensures r.1.status != 201 ==> r.0 == db
    ensures Guard(env, cred).Rejected? ==> r.1 == Rejection(Guard(env, cred))
    ensures Guard(env, cred).Authenticated? && !(IdParamValid(id) && SightingBodyValid(body)) ==> r.1 == BadRequest()
    ensures r.1.status == 201 <==>
              Guard(env, cred).Authenticated? && IdParamValid(id) && SightingBodyValid(body) && Truthy(env.connection)
              && fault.None? && exists s :: s in db.parents && s.id == id
    ensures r.1.status == 201 ==>
              r.1.body.Data? && r.1.body.data.parent == id && r.1.body.data.data == input
              && r.0.sightings.rows == db.sightings.rows + [r.1.body.data]
  {
    var outcome := GuardTwice(env, cred);
    if outcome.Rejected? then (db, Rejection(outcome))
    else if !IdParamValid(id) || !SightingBodyValid(body) then (db, BadRequest())
    else if !Truthy(env.connection) then (db, ConfigurationError())
    else
      var (db', result) := CreateSighting(db, id, input, now, fault);
      match result
      case Err(message) => (db', ServerError(message))
      case Ok(sighting) => (db', Response(201, Data(sighting)))
  }

  /** The create response agrees with a later read: the new submission has
      no sightings, whatever the request carried. */
  lemma CreateThenGet(db: SubmissionDb, env: Env, cred: Credentials, body: Schema.Json, input: SubmissionInput,
                      freshId: string, now: int, fault: Option<string>)
    requires Consistent(db, IdOf)
    ensures var (db', r) := CreateRoute(db, env, cred, body, input, freshId, now, fault);
            r.status == 201 && IdParamValid(freshId) ==> GetRoute(db', env, freshId, None) == r.(status := 200)
  {
    if CreateRoute(db, env, cred, body, input, freshId, now, fault).1.status == 201 {
      var user := Guard(env, cred).user.sub.value;
      CreateStoresNoSightings(db, input, user, freshId, now, fault);
    }
  }

  /** Once the delete route answered 204, the get route answers 404. */
  lemma DeleteThenGet(db: SubmissionDb, env: Env, cred: Credentials, id: string, fault: Option<Fault>)
    ensures var (db', r) := DeleteRoute(db, env, cred, id, fault);
            r.status == 204 || r.status == 404 ==> GetRoute(db', env, id, None) == NotFound("Submission not found")
  {
    if DeleteRoute(db, env, cred, id, fault).1.status in {204, 404} {
      LookupAfterDelete(db, IdOf, id, fault);
    }
  }

  /** A caller the middleware turns away never changes the tables, on any
      mutating route. */
  lemma RejectedCallerChangesNothing(db: SubmissionDb, env: Env, cred: Credentials, id: string, body: Schema.Json,
                                     input: SubmissionInput, sighting: SightingInput, freshId: string, now: int,
                                     insertFault: Option<string>, deleteFault: Option<Fault>)
    requires Guard(env, cred).Rejected?
    ensures CreateRoute(db, env, cred, body, input, freshId, now, insertFault).0 == db
    ensures DeleteRoute(db, env, cred, id, deleteFault).0 == db
    ensures AddSightingRoute(db, env, cred, id, body, sighting, now, insertFault).0 == db
  {
  }
}

=== FILE: submission_schemas.dfy ===
/** The submission and sighting validators and the create/update schemas
    derived from them. */
module SubmissionSchemas {
  import opened Wrappers
  import opened Schema

  const TypeOptions: seq<string> := ["transect", "fit"]

  const IdField := Field("id", Str([Uuid]))
  const UserIdField := Field("user_id", Str([]))
  const TypeField := Field("type", Enum(TypeOptions))
  const DateField := Field("date", Str([DateShape]))
  const TimeField := Field("time", Optional(Str([TimeShape])))
  const LocationField := Field("location", Nullable(Str([])))
  const WeatherField := Field("weather", Nullable(Str([])))
  const TemperatureField := Field("temperature", Optional(Num([IsInt])))
  const WindField := Field("wind", Nullable(Str([])))
  const SeasonField := Field("season", Nullable(Str([])))
  const ConsentField := Field("consent", Default(Bool, JBool(false)))
  const CreatedAtField := Field("created_at", Date)

  const SubmissionSchema := Obj([
    IdField, UserIdField, TypeField, DateField, TimeField, LocationField, WeatherField,
    TemperatureField, WindField, SeasonField, ConsentField, CreatedAtField])

  const SightingIdField := Field("id", Num([]))
  const SubmissionRefField := Field("submission_id", Str([Uuid]))
  const GroupNameField := Field("group_name", Str([]))
  const CountField := Field("estimated_count", Num([IsInt, NonNegative]))
  const BehaviorField := Field("behavior", Nullable(Str([])))
  const LocationSeenField := Field("location_seen", Nullable(Str([])))
  const NotesField := Field("notes", Nullable(Str([])))
  const PhotoUrlField := Field("photo_url", Nullable(Str([])))

  const SightingSchema := Obj([
    SightingIdField, SubmissionRefField, GroupNameField, CountField, BehaviorField,
    LocationSeenField, NotesField, PhotoUrlField, CreatedAtField])

  const CreateSightingSchema := Omit(SightingSchema, {"id", "created_at"})

  /** The sightings nested in a create request carry no submission id */
  const NestedSightingSchema := Omit(CreateSightingSchema, {"submission_id"})

  const SightingsField := Field("sightings", Optional(Arr(NestedSightingSchema)))

  const CreateSubmissionSchema := Extend(Omit(SubmissionSchema, {"id", "created_at"}), [SightingsField])

  const UpdateSubmissionSchema := Partial(CreateSubmissionSchema)

  /** `date` holds a string of the shape dddd-dd-dd */
  predicate DateOk(m: map<string, Json>) {
    "date" in m && m["date"].JStr? && IsDateShaped(m["date"].s)
  }

  /** `time` is absent or a string of the shape dd:dd or dd:dd:dd */
  predicate TimeOk(m: map<string, Json>) {
    "time" !in m || (m["time"].JStr? && IsTimeShaped(m["time"].s))
  }

  /** `type` holds one of transect, fit */
  predicate TypeOk(m: map<string, Json>) {
    "type" in m && m["type"].JStr? && m["type"].s in TypeOptions
  }

  /** `estimated_count` holds a non-negative integer */
  predicate CountOk(m: map<string, Json>) {
    "estimated_count" in m && m["estimated_count"].JNum?
    && IsInteger(m["estimated_count"].n) && m["estimated_count"].n >= 0.0
  }

  lemma FieldChecks(m: map<string, Json>)
    ensures FieldValid(DateField, m) <==> DateOk(m)
    ensures FieldValid(TimeField, m) <==> TimeOk(m)
    ensures FieldValid(TypeField, m) <==> TypeOk(m)
    ensures FieldValid(CountField, m) <==> CountOk(m)
  {
    if "date" in m { StrChecksOne(DateShape, m["date"]); }
    if "time" in m { StrChecksOne(TimeShape, m["time"]); }
    if "estimated_count" in m { NumChecksTwo(IsInt, NonNegative, m["estimated_count"]); }
  }

  /** An accepted submission has a digit-shaped date, a digit-shaped time if
      any, and a known type. */
  lemma SubmissionChecks(m: map<string, Json>)
    requires Validate(SubmissionSchema, Some(JObj(m))).Valid?
    ensures DateOk(m) && TimeOk(m) && TypeOk(m)
  {
    FieldChecks(m);
    assert SubmissionSchema.fields[2] == TypeField;
    assert SubmissionSchema.fields[3] == DateField;
    assert SubmissionSchema.fields[4] == TimeField;
    FieldChecked(SubmissionSchema, m, TypeField);
    FieldChecked(SubmissionSchema, m, DateField);
    FieldChecked(SubmissionSchema, m, TimeField);
  }

  lemma ConsentUnique()
    ensures UniqueAt(SubmissionSchema.fields, 10)
  {
  }

  /** A missing `consent` becomes false; a present one is kept. */
  lemma ConsentDefaultsToFalse(m: map<string, Json>)
    requires Validate(SubmissionSchema, Some(JObj(m))).Valid?
    ensures var out := Validate(SubmissionSchema, Some(JObj(m))).out.value.members;
            "consent" in out && out["consent"] == (if "consent" in m then m["consent"] else JBool(false))
            && out["consent"].JBool?
  {
    ConsentUnique();
    FieldOutput(SubmissionSchema, m, 10);
  }

  /** The date pattern checks the shape only: impossible months and days
      pass, a one-digit month does not. */
  lemma DateShapeOnly()
    ensures IsDateShaped("2024-13-45")
    ensures !IsDateShaped("2024-1-05")
    ensures !IsDateShaped("2024-01-05T")
  {
    var bad := "2024-1-05";
    assert bad[7] != '-';
  }

  /** Seconds are optional in the time pattern; hours need two digits. */
  lemma TimeShapeExamples()
    ensures IsTimeShaped("09:30") && IsTimeShaped("09:30:15")
    ensures !IsTimeShaped("9:30") && !IsTimeShaped("09:30:1")
  {
  }

  /** An accepted sighting has a non-negative integer count. The sighting
      schema repeats the field observation one, so this mirrors
      `FieldObservationSchemas.SightingCount`. */
  lemma SightingCount(m: map<string, Json>)
    requires Validate(SightingSchema, Some(JObj(m))).Valid?
    ensures CountOk(m)
  {
    FieldChecks(m);
    assert SightingSchema.fields[3] == CountField;
    FieldChecked(SightingSchema, m, CountField);
  }

  lemma SightingsNames()
    ensures Names([SightingsField]) == {"sightings"}
  {
    assert [SightingsField][0] == SightingsField;
  }

  lemma CreateNames()
    ensures "id" !in Names(CreateSubmissionSchema.fields)
    ensures "created_at" !in Names(CreateSubmissionSchema.fields)
  {
    var base := Omit(SubmissionSchema, {"id", "created_at"});
    SightingsNames();
    OmitLacks(SubmissionSchema, {"id", "created_at"}, "id");
    OmitLacks(SubmissionSchema, {"id", "created_at"}, "created_at");
    ExtendLacks(base, [SightingsField], "id");
    ExtendLacks(base, [SightingsField], "created_at");
  }

  lemma NestedNames()
    ensures "id" !in Names(NestedSightingSchema.fields)
    ensures "created_at" !in Names(NestedSightingSchema.fields)
    ensures "submission_id" !in Names(NestedSightingSchema.fields)
  {
    OmitLacks(SightingSchema, {"id", "created_at"}, "id");
    OmitLacks(SightingSchema, {"id", "created_at"}, "created_at");
    OmitFields(CreateSightingSchema, {"submission_id"});
  }

  /** The create request ignores an `id` or `created_at` the client sends,
      and never passes them on. */
  lemma CreateSubmissionIgnoresIds(m: map<string, Json>)
    ensures Validate(CreateSubmissionSchema, Some(JObj(m))) ==
              Validate(CreateSubmissionSchema, Some(JObj(m - {"id", "created_at"})))
    ensures Validate(CreateSubmissionSchema, Some(JObj(m))).Valid? ==>
              Validate(CreateSubmissionSchema, Some(JObj(m))).out.value.members.Keys !! {"id", "created_at"}
  {
    CreateNames();
    UndeclaredKeysIgnored(CreateSubmissionSchema, {"id", "created_at"}, m);
  }

  /** A nested sighting ignores `id`, `created_at` and `submission_id`;
      mirrors `FieldObservationSchemas.NestedSightingIgnoresIds`. */
  lemma NestedSightingIgnoresIds(m: map<string, Json>)
    ensures Validate(NestedSightingSchema, Some(JObj(m))) ==
              Validate(NestedSightingSchema, Some(JObj(m - {"id", "created_at", "submission_id"})))
  {
    NestedNames();
    UndeclaredKeysIgnored(NestedSightingSchema, {"id", "created_at", "submission_id"}, m);
  }

  /** A stored field other than `id` and `created_at` survives into the
      create schema unchanged. */
  lemma CreateKeeps(f: Field)
    requires f in SubmissionSchema.fields && f.name != "id" && f.name != "created_at" && f.name != "sightings"
    ensures f in CreateSubmissionSchema.fields
  {
    var keys := {"id", "created_at"};
    OmitKeeps(SubmissionSchema, keys, f);
    SightingsNames();
    ExtendKeeps(Omit(SubmissionSchema, keys), [SightingsField], f);
  }

  lemma CreateKeepsFields()
    ensures DateField in CreateSubmissionSchema.fields
    ensures TimeField in CreateSubmissionSchema.fields
    ensures TypeField in CreateSubmissionSchema.fields
  {
    assert SubmissionSchema.fields[2] == TypeField;
    assert SubmissionSchema.fields[3] == DateField;
    assert SubmissionSchema.fields[4] == TimeField;
    CreateKeeps(TypeField);
    CreateKeeps(DateField);
    CreateKeeps(TimeField);
  }

  lemma NestedKeepsCount()
    ensures CountField in NestedSightingSchema.fields
  {
    assert SightingSchema.fields[3] == CountField;
    OmitKeeps(SightingSchema, {"id", "created_at"}, CountField);
    OmitKeeps(CreateSightingSchema, {"submission_id"}, CountField);
  }

  /** Creation still checks the date, time and type, and nested sightings
      still check their count. */
  lemma CreateSubmissionChecks(m: map<string, Json>)
    requires Validate(CreateSubmissionSchema, Some(JObj(m))).Valid?
    ensures DateOk(m) && TimeOk(m) && TypeOk(m)
  {
    FieldChecks(m);
    CreateKeepsFields();
    FieldChecked(CreateSubmissionSchema, m, TypeField);
    FieldChecked(CreateSubmissionSchema, m, DateField);
    FieldChecked(CreateSubmissionSchema, m, TimeField);
  }

  /** Nested sightings still check their count; mirrors
      `FieldObservationSchemas.NestedSightingCount`. */
  lemma NestedSightingCount(m: map<string, Json>)
    requires Validate(NestedSightingSchema, Some(JObj(m))).Valid?
    ensures CountOk(m)
  {
    FieldChecks(m);
    NestedKeepsCount();
    FieldChecked(NestedSightingSchema, m, CountField);
  }

  /** The empty update is accepted and stays empty: `consent` is not
      defaulted. */
  lemma EmptyUpdateAccepted()
    ensures Validate(UpdateSubmissionSchema, Some(JObj(map[]))) == Valid(Some(JObj(map[])))
  {
    PartialAcceptsEmpty(CreateSubmissionSchema);
  }

  /** A date an update does carry is still checked. */
  lemma UpdateChecksPresentDate(m: map<string, Json>)
    requires Validate(UpdateSubmissionSchema, Some(JObj(m))).Valid? && "date" in m
    ensures DateOk(m)
  {
    FieldChecks(m);
    CreateKeepsFields();
    PartialValidIff(CreateSubmissionSchema, m);
    assert PresentValid(DateField, m);
  }
}

=== FILE: submissions.dfy ===
/** The submission service over in-memory tables: create (one insert, the
    payload's sightings are dropped), the lookup with sightings, the listing
    by user, the cascade delete and the sighting insert. */
module Submissions {
  import opened Wrappers
  import opened Seqs
  import opened Store
  import opened Sightings

  /** A create request body; its `sightings` are accepted but never stored.
      `None` in the nullable `location`, `weather`, `wind` and `season` is
      `null`; in `time` and `temperature`, which are optional but not
      nullable, it is a key the client left out (`undefined`). */
  datatype SubmissionInput = SubmissionInput(
    kind: string,
    date: string,
    time: Option<string>,
    location: Option<string>,
    weather: Option<string>,
    temperature: Option<int>,
    wind: Option<string>,
    season: Option<string>,
    consent: Option<bool>,
    sightings: Option<seq<SightingInput>>)

  /** A row of the submissions table */
  datatype Submission = Submission(
    id: string,
    userId: string,
    kind: string,
    date: string,
    time: Option<string>,
    location: Option<string>,
    weather: Option<string>,
    temperature: Option<int>,
    wind: Option<string>,
    season: Option<string>,
    consent: bool,
    createdAt: int)

  function IdOf(s: Submission): string { s.id }
  function OwnerOf(s: Submission): string { s.userId }
  function CreatedKey(s: Submission): DescKey { Key(s.createdAt) }

  type SubmissionDb = Db<Submission>

  /** The row the insert stores: the authenticated user, the generated id
      and creation time, and `consent ?? false`. */
  function NewSubmission(input: SubmissionInput, userId: string, id: string, now: int): (s: Submission)
    ensures s.id == id && s.userId == userId && s.createdAt == now
    ensures s.consent <==> input.consent == Some(true)
    ensures s.kind == input.kind && s.date == input.date && s.time == input.time
  {
    Submission(id, userId, input.kind, input.date, input.time, input.location, input.weather,
               input.temperature, input.wind, input.season, input.consent.GetOr(false), now)
  }

  /** Both optional columns are supplied, so no parameter of the insert is
      `undefined` */
  predicate Bindable(input: SubmissionInput) {
    input.time.Some? && input.temperature.Some?
  }

  /** `createSubmission`: a single insert into the submissions table. A
      left-out `time` or `temperature` is bound as `undefined`, so the
      insert fails. */
  function Create(db: SubmissionDb, input: SubmissionInput, userId: string, freshId: string,
                  now: int, fault: Option<string>): (r: (SubmissionDb, Result<Submission>))
    ensures r.0.sightings == db.sightings
    ensures r.1.Err? ==> r.0 == db
    ensures r.1.Err? <==> !Bindable(input) || fault.Some? || HasParent(db, IdOf, freshId)
    ensures !Bindable(input) ==> r.1 == Err(UndefinedValue)
    ensures r.1.Ok? ==> r.0.parents == db.parents + [r.1.value]
    ensures r.1.Ok? ==> r.1.value == NewSubmission(input, userId, freshId, now)
  {
    if !Bindable(input) then (db, Err(UndefinedValue))
    else if fault.Some? then (db, Err(fault.value))
    else if HasParent(db, IdOf, freshId) then (db, Err(UniqueViolation))
    else
      var submission := NewSubmission(input, userId, freshId, now);
      (db.(parents := db.parents + [submission]), Ok(submission))
  }

  /** `getSubmission`: the submission and exactly its sightings, or `null`
      when no submission has the id. */
  function Get(db: SubmissionDb, id: string, fault: Option<string>): (r: Result<Option<Detail<Submission>>>)
    ensures r.Err? <==> fault.Some?
    ensures r.Ok? ==> (r.value.None? <==> forall s :: s in db.parents ==> s.id != id)
    ensures r.Ok? && r.value.Some? ==> r.value.value.parent in db.parents && r.value.value.parent.id == id
    ensures r.Ok? && r.value.Some? ==> forall s :: s in r.value.value.sightings <==> s in db.sightings.rows && s.parent == id
  {
    Lookup(db, IdOf, id, fault)
  }

  /** `getSubmissionsByUser`: one page of the user's submissions, newest
      first, and the count of all of them. */
  function ListByUser(db: SubmissionDb, userId: string, page: int, limit: int, fault: Option<string>): (r: Result<Listing<Submission>>)
    ensures r.Ok? <==> fault.None? && (page - 1) * limit >= 0 && limit >= 0
    ensures r.Ok? ==> |r.value.rows| <= limit
    ensures r.Ok? ==> |r.value.rows| == PageLength(r.value.totalCount, (page - 1) * limit, limit)
    ensures r.Ok? ==> forall s :: s in r.value.rows ==> s in db.parents && s.userId == userId
    ensures r.Ok? ==> forall i, j :: 0 <= i < j < |r.value.rows| ==> r.value.rows[i].createdAt >= r.value.rows[j].createdAt
    ensures r.Ok? ==> r.value.totalCount == |Filter(db.parents, OwnedBy(OwnerOf, userId))|
  {
    var r := ListByOwner(db.parents, OwnerOf, CreatedKey, userId, page, limit, fault);
    assert r.Ok? ==> forall i, j :: 0 <= i < j < |r.value.rows| ==> r.value.rows[i].createdAt >= r.value.rows[j].createdAt by {
      if r.Ok? {
        forall i, j | 0 <= i < j < |r.value.rows| ensures r.value.rows[i].createdAt >= r.value.rows[j].createdAt {
          assert KeyGe(CreatedKey(r.value.rows[i]), CreatedKey(r.value.rows[j]));
        }
      }
    }
    r
  }

  /** Which rows a page holds: the user's `k`-th submission, newest first, is
      row `k % limit` of page `k / limit + 1`. */
  lemma ListingPosition(db: SubmissionDb, userId: string, limit: int, k: nat) returns (page: int)
    requires limit >= 1 && k < |Filter(db.parents, OwnedBy(OwnerOf, userId))|
    ensures page == k / limit + 1
    ensures ListByUser(db, userId, page, limit, None).Ok?
    ensures k % limit < |ListByUser(db, userId, page, limit, None).value.rows|
    ensures ListByUser(db, userId, page, limit, None).value.rows[k % limit]
            == SortDesc(Filter(db.parents, OwnedBy(OwnerOf, userId)), CreatedKey)[k]
  {
    page := OwnedRowOnPage(db.parents, OwnerOf, CreatedKey, userId, limit, k);
  }

  /** `deleteSubmission`: the submission's sightings (statement 0), then the
      submission (statement 1), with no transaction; true exactly when a
      submission row was deleted. */
  function Delete(db: SubmissionDb, id: string, fault: Option<Fault>): (r: (SubmissionDb, Result<bool>))
    ensures FailsAt(fault, 0) ==> r.0 == db && r.1.Err?
    ensures FailsAt(fault, 1) ==> r.0.parents == db.parents && r.1.Err?
    ensures !FailsAt(fault, 0) ==> forall s :: s in r.0.sightings.rows <==> s in db.sightings.rows && s.parent != id
    ensures r.1.Ok? <==> !FailsAt(fault, 0) && !FailsAt(fault, 1)
    ensures r.1.Ok? ==> (r.1.value <==> exists s :: s in db.parents && s.id == id)
    ensures r.1.Ok? ==> forall s :: s in r.0.parents <==> s in db.parents && s.id != id
  {
    CascadeDelete(db, IdOf, id, fault)
  }

  /** `createSighting`: a sighting whose `submission_id` is the path id. */
  function CreateSighting(db: SubmissionDb, id: string, input: SightingInput, now: int, fault: Option<string>): (r: (SubmissionDb, Result<Sighting>))
    ensures r.1.Err? ==> r.0 == db
    ensures r.1.Ok? <==> fault.None? && exists s :: s in db.parents && s.id == id
    ensures r.1.Ok? ==> r.1.value.parent == id && r.1.value.data == input
    ensures r.1.Ok? ==> r.0.parents == db.parents && r.0.sightings.rows == db.sightings.rows + [r.1.value]
  {
    AddSighting(db, IdOf, id, input, now, fault)
  }

  /** Whatever sightings the payload carries, creation stores none: the
      new submission reads back with no sightings. */
  lemma CreateStoresNoSightings(db: SubmissionDb, input: SubmissionInput, userId: string, freshId: string,
                                now: int, fault: Option<string>)
    requires Consistent(db, IdOf)
    requires Create(db, input, userId, freshId, now, fault).1.Ok?
    ensures var (db', r) := Create(db, input, userId, freshId, now, fault);
            Get(db', freshId, None) == Ok(Some(Detail(r.value, [])))
  {
    var (db', r) := Create(db, input, userId, freshId, now, fault);
    forall i | 0 <= i < |db.sightings.rows| ensures !ChildOf(freshId)(db.sightings.rows[i]) {
      assert db.sightings.rows[i] in db.sightings.rows;
    }
    FilterNone(db.sightings.rows, ChildOf(freshId));
    FilterAppend(db.parents, [r.value], HasId(IdOf, freshId));
    forall i | 0 <= i < |db.parents| ensures !HasId(IdOf, freshId)(db.parents[i]) {
      assert db.parents[i] in db.parents;
    }
    FilterNone(db.parents, HasId(IdOf, freshId));
    assert IdOf(r.value) == freshId;
    assert HasId(IdOf, freshId)(r.value);
    assert Filter(db'.parents, HasId(IdOf, freshId)) == [r.value];
  }

  /** The payload's sightings make no difference to the outcome. */
  lemma CreateIgnoresSightings(db: SubmissionDb, input: SubmissionInput, sightings: Option<seq<SightingInput>>,
                               userId: string, freshId: string, now: int, fault: Option<string>)
    ensures Create(db, input.(sightings := sightings), userId, freshId, now, fault)
            == Create(db, input, userId, freshId, now, fault)
  {
    assert NewSubmission(input.(sightings := sightings), userId, freshId, now) == NewSubmission(input, userId, freshId, now);
  }

  /** Creation keeps referential integrity. */
  lemma CreateConsistent(db: SubmissionDb, input: SubmissionInput, userId: string, freshId: string,
                         now: int, fault: Option<string>)
    requires Consistent(db, IdOf)
    ensures Consistent(Create(db, input, userId, freshId, now, fault).0, IdOf)
  {
    var (db', r) := Create(db, input, userId, freshId, now, fault);
    forall s | s in db'.sightings.rows ensures HasParent(db', IdOf, s.parent) {
      var p :| p in db.parents && IdOf(p) == s.parent;
      assert p in db'.parents;
    }
  }
}

=== FILE: validation_schemas.dfy ===
/** The shared query validators: pagination, sorting and date range, and
    their merge for event listings. */
module ValidationSchemas {
  import opened Wrappers
  import opened Schema

  const PaginationSchema := Obj([
    Field("page", Default(Num([Min(1.0)]), JNum(1.0))),
    Field("limit", Default(Num([Min(1.0), Max(100.0)]), JNum(20.0)))])

  const SortByOptions: seq<string> := ["time", "type", "deviceId"]
  const OrderOptions: seq<string> := ["asc", "desc"]

  const SortSchema := Obj([
    Field("sortBy", Default(Enum(SortByOptions), JStr("time"))),
    Field("order", Default(Enum(OrderOptions), JStr("desc")))])

  const QuerySchema := Merge(PaginationSchema, SortSchema)

  const DateRangeSchema := Obj([
    Field("startDate", Optional(Str([Datetime]))),
    Field("endDate", Optional(Str([Datetime])))])

  const EventQuerySchema := Merge(QuerySchema, DateRangeSchema)

  /** `key` is absent, or holds a number in [lo, hi] */
  predicate NumberIn(m: map<string, Json>, key: string, lo: real, hi: real) {
    key !in m || (m[key].JNum? && lo <= m[key].n <= hi)
  }

  /** `key` is absent, or holds one of `options` */
  predicate OptionIn(m: map<string, Json>, key: string, options: seq<string>) {
    key !in m || (m[key].JStr? && m[key].s in options)
  }

  /** `page` is accepted when absent or a number of at least 1; `limit` when
      absent or a number in [1, 100]. Absent values become 1 and 20. */
  lemma PaginationAccepts(m: map<string, Json>)
    ensures Validate(PaginationSchema, Some(JObj(m))).Valid? <==>
              ("page" !in m || (m["page"].JNum? && m["page"].n >= 1.0)) && NumberIn(m, "limit", 1.0, 100.0)
    ensures Validate(PaginationSchema, Some(JObj(m))).Valid? ==>
              var out := Validate(PaginationSchema, Some(JObj(m))).out.value.members;
              "page" in out && out["page"] == (if "page" in m then m["page"] else JNum(1.0))
              && "limit" in out && out["limit"] == (if "limit" in m then m["limit"] else JNum(20.0))
  {
    forall v ensures Validate(Num([Min(1.0)]), Some(v)).Valid? <==> v.JNum? && v.n >= 1.0 {
      if v.JNum? {
        var cs := [Min(1.0)];
        assert (forall k :: 0 <= k < 1 ==> NumCheckHolds(cs[k], v.n)) <==> NumCheckHolds(cs[0], v.n);
      }
    }
    forall v ensures Validate(Num([Min(1.0), Max(100.0)]), Some(v)).Valid? <==> v.JNum? && 1.0 <= v.n <= 100.0 {
      if v.JNum? {
        var cs := [Min(1.0), Max(100.0)];
        assert (forall k :: 0 <= k < 2 ==> NumCheckHolds(cs[k], v.n))
               <==> NumCheckHolds(cs[0], v.n) && NumCheckHolds(cs[1], v.n);
      }
    }
    TwoFieldsValidIff(PaginationSchema, m);
    if Validate(PaginationSchema, Some(JObj(m))).Valid? {
      FieldOutput(PaginationSchema, m, 0);
      FieldOutput(PaginationSchema, m, 1);
    }
  }

  /** `sortBy` is one of time, type, deviceId (default time); `order` is asc
      or desc (default desc). */
  lemma SortAccepts(m: map<string, Json>)
    ensures Validate(SortSchema, Some(JObj(m))).Valid? <==>
              OptionIn(m, "sortBy", SortByOptions) && OptionIn(m, "order", OrderOptions)
    ensures Validate(SortSchema, Some(JObj(m))).Valid? ==>
              var out := Validate(SortSchema, Some(JObj(m))).out.value.members;
              "sortBy" in out && out["sortBy"] == (if "sortBy" in m then m["sortBy"] else JStr("time"))
              && out["sortBy"].JStr? && out["sortBy"].s in SortByOptions
              && "order" in out && out["order"] == (if "order" in m then m["order"] else JStr("desc"))
  {
    TwoFieldsValidIff(SortSchema, m);
    if Validate(SortSchema, Some(JObj(m))).Valid? {
      FieldOutput(SortSchema, m, 0);
      FieldOutput(SortSchema, m, 1);
    }
  }

  /** Both bounds are optional; a present bound is a UTC datetime string. */
  lemma DateRangeAccepts(m: map<string, Json>)
    ensures Validate(DateRangeSchema, Some(JObj(m))).Valid? <==>
              ("startDate" !in m || (m["startDate"].JStr? && IsDatetimeShaped(m["startDate"].s)))
              && ("endDate" !in m || (m["endDate"].JStr? && IsDatetimeShaped(m["endDate"].s)))
  {
    var check := Str([Datetime]);
    forall v ensures Validate(check, Some(v)).Valid? <==> v.JStr? && IsDatetimeShaped(v.s) {
      if v.JStr? {
        assert StrCheckHolds(check.strChecks[0], v.s) <==> IsDatetimeShaped(v.s);
      }
    }
    TwoFieldsValidIff(DateRangeSchema, m);
  }

  lemma PaginationNames()
    ensures Names(PaginationSchema.fields) == {"page", "limit"}
  {
    NamesOfTwo(PaginationSchema.fields[0], PaginationSchema.fields[1]);
  }

  lemma SortNames()
    ensures Names(SortSchema.fields) == {"sortBy", "order"}
  {
    NamesOfTwo(SortSchema.fields[0], SortSchema.fields[1]);
  }

  lemma DateRangeNames()
    ensures Names(DateRangeSchema.fields) == {"startDate", "endDate"}
    ensures DistinctNames(DateRangeSchema.fields)
  {
    NamesOfTwo(DateRangeSchema.fields[0], DateRangeSchema.fields[1]);
  }

  lemma KeySetsDisjoint(q: set<string>, d: set<string>)
    requires q == {"page", "limit"} + {"sortBy", "order"}
    requires d == {"startDate", "endDate"}
    ensures q !! d
  {
  }

  lemma QueryNames()
    ensures Names(QuerySchema.fields) !! Names(DateRangeSchema.fields)
  {
    PaginationNames();
    SortNames();
    DateRangeNames();
    ExtendFields(PaginationSchema, SortSchema.fields);
    KeySetsDisjoint(Names(QuerySchema.fields), Names(DateRangeSchema.fields));
  }

  /** The event query declares the six keys of its three parts. */
  lemma EventQueryNames()
    ensures Names(EventQuerySchema.fields) == {"page", "limit", "sortBy", "order", "startDate", "endDate"}
  {
    PaginationNames();
    SortNames();
    DateRangeNames();
    ExtendFields(PaginationSchema, SortSchema.fields);
    ExtendFields(QuerySchema, DateRangeSchema.fields);
  }

  /** The sort query accepts exactly what pagination and sort each accept. */
  lemma QueryIsMerge(m: map<string, Json>)
    ensures Validate(QuerySchema, Some(JObj(m))).Valid? <==>
              Validate(PaginationSchema, Some(JObj(m))).Valid? && Validate(SortSchema, Some(JObj(m))).Valid?
  {
    PaginationNames();
    SortNames();
    MergeDisjointIff(PaginationSchema, SortSchema, m);
  }

  /** The event query accepts exactly what pagination, sort and date range
      each accept. */
  lemma EventQueryIsMerge(m: map<string, Json>)
    ensures Validate(EventQuerySchema, Some(JObj(m))).Valid? <==>
              Validate(PaginationSchema, Some(JObj(m))).Valid?
              && Validate(SortSchema, Some(JObj(m))).Valid?
              && Validate(DateRangeSchema, Some(JObj(m))).Valid?
  {
    QueryNames();
    DateRangeNames();
    QueryIsMerge(m);
    MergeDisjointIff(QuerySchema, DateRangeSchema, m);
  }
}

=== FILE: wrappers.dfy ===
/** Failure-compatible wrappers shared by every module of the model.
    `Option` stands for a nullable or absent value (`null` / `undefined`),
    `Result` for an operation that may throw (a database error). */
module Wrappers {

  datatype Option<+T> = None | Some(value: T) {

    /** `x ?? d` in the source: the value, or `d` when absent */
    function GetOr(default: T): T {
      match this
      case Some(v) => v
      case None => default
    }
  }

  /** `Err` carries the message of the exception the source would throw */
  datatype Result<+T> = Ok(value: T) | Err(message: string) {

    predicate IsFailure() {
      Err?
    }

    function PropagateFailure<U>(): Result<U>
      requires Err?
    {
      Err(message)
    }

    function Extract(): T
      requires Ok?
    {
      value
    }
  }
}
